=== FILE: README.md ===
# LangChain tutorial code: the deterministic core, in Dafny

This project models the parts of a LangChain/MCP tutorial repository that are
plain sequential logic and run after the library calls return:

- **Advanced RAG post-processing** (`AdvancedRag`):
  - document preparation;
  - parsing the LLM's query variants;
  - fusing ranked retrieval lists by source with a stable sort and a top-k cut;
  - formatting the context.
- **The stand-alone MCP RAG server** (`RagServer`):
  - chunk annotation on add;
  - answer assembly with source-label fallbacks;
  - the grouped document listing;
  - guarded deletion over a map-shaped store.
- **The document-assistant RAG service** (`RagService`):
  - tool dispatch, where six advertised tools have no handler;
  - add with a running chunk counter;
  - answer styles;
  - category/source statistics.
- **The article-writing workflow graph** (`Workflow`): analyze → outline →
  research → write → (combine → check → revise)* → finalize. This includes the
  line-based outline parser and a termination proof for the revision loop,
  which is bounded at two revisions.
- **The MCP file server** (`FileServer`, `FileTree`):
  - the path guard, both as written and corrected; every tool takes the guard as a parameter;
  - the MIME table;
  - `read_file` truncation;
  - `search_content` matching and display caps;
  - `file_info` counts;
  - resource and tool routing;
  - the directory tree, drawn over an abstract tree datatype.
- **Small helpers**:
  - the fallback user-profile parser (`Profile`);
  - the crew's search and analysis tools (`CrewTools`);
  - the simple agent's weather and knowledge tools (`SimpleAgent`, `KeywordTable`);
  - the integer math server (`MathServer`).

Shared modules:

- `Wrappers`: `Option` and `Result`.
- `Text`: Python `str` operations such as `strip`, `split`, `join`, `in`, `lower` and `str(int)`.
- `Meta`: metadata values and chunk annotation.
- `Grouping`: first-seen group-by, the shape of a Python dict filled in a loop.
- `Ranking`: `sorted` as a stable sort under a total preorder.

Inputs that come from outside the code are parameters:

- the LLM's replies;
- the retrievers' ranked lists;
- the text splitter's chunk list;
- the glob's matches;
- the file system, as an in-memory map from resolved paths to items;
- `_format_size`, as a function.

Two source files contain the literal two-character separator `\\n` where a
line break is evidently meant:

- `src/day3_advanced_rag_system.py:232` and `src/day3_advanced_rag_system.py:313`;
- the join in `src/day7_mcp_rag_server.py:531`.

These separators are a parameter `sep`. `src/day7_mcp_rag_server.py` also has
stray `\n",` fragments that keep it from parsing as shown, for example at
lines 355, 395 and 403-404. The model follows the evident intent.

## Model

| member | source | states |
|---|---|---|
| AdvancedRag.LoadedMeta | src/day3_advanced_rag_system.py:157-164 | a loaded document's metadata is the caller's map plus `doc_id` = position and `source` = title or `Document_i`; every other caller key keeps its value |
| AdvancedRag.PrepareDocuments | src/day3_advanced_rag_system.py:156-166 | one document per input, in order, with stripped content and exactly the loaded metadata |
| AdvancedRag.TitleOverridesSource | src/day3_advanced_rag_system.py:160-163 | a title replaces a `source` the caller's metadata already had |
| AdvancedRag.LineVariantMeaning | src/day3_advanced_rag_system.py:234-236 | a reply line offers a variant iff it contains ':'; the variant is the stripped text after the first ':' |
| AdvancedRag.CandidatesExactly | src/day3_advanced_rag_system.py:234-238 | a string is a candidate iff some line offers it and it is non-empty |
| AdvancedRag.AddNewProperties | src/day3_advanced_rag_system.py:237-238 | appending unseen candidates keeps the list repetition-free, keeps its prefix, includes every candidate and adds nothing else |
| AdvancedRag.AddNewIsFirstSeen | src/day3_advanced_rag_system.py:237-238 | appending the candidates not already present to the first-seen keys of a list gives the first-seen keys of the extended list |
| AdvancedRag.Variants | src/day3_advanced_rag_system.py:231-240 | the variant list is the query followed by the candidates, each kept at its first occurrence and in reply order, cut to the first four; it starts with the query and its entries are distinct |
| AdvancedRag.OptimizeQuery | src/day3_advanced_rag_system.py:217-244 | with a reply, the first four of the query and the reply's candidate lines, duplicates dropped in first-seen order; a failed LLM call gives exactly `[query]` |
| AdvancedRag.ParseMethod | src/day3_advanced_rag_system.py:276-284 | exactly `semantic`, `bm25` and `hybrid` are retrieval methods |
| AdvancedRag.PrecedesTotalPreorder | src/day3_advanced_rag_system.py:296-300 | the ranking order (score descending, then first-seen) is total and transitive, so the sort applies |
| AdvancedRag.FirstSeen | src/day3_advanced_rag_system.py:286-293 | one record per source group: its first occurrence among the retrieved records, scored by the group's size |
| AdvancedRag.FirstSeenFaithful | src/day3_advanced_rag_system.py:286-293 | each fused record is the first retrieved record of its source, its score counts that source's records across all lists, sources are pairwise distinct, and every retrieved source is represented |
| AdvancedRag.PermutedFaithful | src/day3_advanced_rag_system.py:295-300 | sorting the fused records keeps all of these facts |
| AdvancedRag.Fuse | src/day3_advanced_rag_system.py:286-300 | the fused list is faithful to the retrieved records and ordered by score descending, ties in first-seen order |
| AdvancedRag.QueriesFor | src/day3_advanced_rag_system.py:267-270 | without optimisation the query list is exactly `[query]`; with it, the list starts with the query and has at most 4 entries |
| AdvancedRag.RetrieveDocuments | src/day3_advanced_rag_system.py:246-302 | fails before anything else when no store is built, fails on an unknown method, otherwise returns the top `k` of the fused ranking (at most `k` documents) |
| AdvancedRag.CutKeepsRanking | src/day3_advanced_rag_system.py:302 | the top-k cut is still sorted, source-distinct and faithful |
| AdvancedRag.ContextLabel | src/day3_advanced_rag_system.py:311 | a block is labelled by the document's `source`, else `文档i` |
| AdvancedRag.ContextBlock | src/day3_advanced_rag_system.py:310-313 | a block opens with the 1-based index `[文档i: ` |
| AdvancedRag.ContextBlockCarries | src/day3_advanced_rag_system.py:310-313 | a block has the document's label right after its numbered head and ends with the document's stripped content |
| AdvancedRag.FormatContext | src/day3_advanced_rag_system.py:304-315 | the sentinel for no documents; otherwise a non-empty text that opens with a block |
| AdvancedRag.FormatContextSentinelIffEmpty | src/day3_advanced_rag_system.py:306-307 | the sentinel comes back iff there are no documents |
| AdvancedRag.FormatContextHasEveryBlock | src/day3_advanced_rag_system.py:309-315 | every document's numbered block, and so its label and its stripped content, occurs in the context |
| AdvancedRag.FormatContextAppend | src/day3_advanced_rag_system.py:309-315 | one document gives its block numbered 1; one more document appends two separators and its block numbered `n + 1`, so the blocks stand in document order |
| AdvancedRag.ContextBlocksSnoc | src/day3_advanced_rag_system.py:309-313 | one more document adds one block, numbered after the others, at the end |
| Meta.ChunkMeta | src/day7_mcp_rag_server.py:387-390 | a chunk's metadata is the caller's map plus `chunk_index`, `total_chunks` and `chunk_size`, which override same-named caller keys; the other caller keys are unchanged |
| Meta.AnnotateChunks | project/mcp_services/rag_service/server.py:498-510 | one record per chunk, in order, carrying the chunk and its index, count and size metadata over a copy of the caller's map |
| Meta.AverageSize | src/day7_mcp_rag_server.py:404 | the reported average is the floor of total length over chunk count |
| Grouping.GroupBy | src/day7_mcp_rag_server.py:593-598 | first-seen grouping: each key's bucket holds exactly its positions, in order, keys are distinct and in first-seen order, and the bucket sizes add up to the number of keys |
| Grouping.PositionsCorrect | src/day7_mcp_rag_server.py:596-598 | a bucket's positions are increasing and are exactly the positions holding its key |
| Grouping.FirstMemberIsFirstOccurrence | src/day7_mcp_rag_server.py:596-597 | a bucket's first member is its key's first occurrence |
| Grouping.AddLastKeepsGrouping | src/day7_mcp_rag_server.py:594-598 | one loop step (create the bucket if new, then append) keeps the grouping invariant and adds one member |
| Grouping.KeyHasBucket | src/day7_mcp_rag_server.py:596-598 | a key has a bucket exactly when it occurs among the keys |
| Grouping.KeysOfAddTo | src/day7_mcp_rag_server.py:596-598 | adding a position appends its key to the bucket keys only when the key is new |
| Grouping.FirstSeenKeysMembers | src/day3_advanced_rag_system.py:288-292 | the first-seen keys are exactly the distinct members of the list |
| Grouping.GroupByKeyOrder | src/day7_mcp_rag_server.py:593-598 | the buckets' keys are the first-seen keys, the order a Python dict keeps its insertion order in |
| Ranking.Sort | src/day3_advanced_rag_system.py:296-300 | the result is sorted by the order and is a permutation of the input |
| Ranking.SortedPermutationUnique | src/day3_advanced_rag_system.py:296-300 | two sorted permutations coincide when equivalent elements are equal, so the result does not depend on the sorting algorithm |
| Ranking.StrLeTotalPreorder | src/day6_mcp_file_server.py:324-325 | Python's string order is a total preorder |
| RagServer.AddDocument | src/day7_mcp_rag_server.py:365-405 | blank content is refused before splitting, an empty split is refused, otherwise every chunk is stored annotated after the existing records and the reply gives the count and the floor average |
| RagServer.AddDocumentStoresChunks | src/day7_mcp_rag_server.py:384-398 | a successful add keeps the old records and appends chunk i with `chunk_index` = i and `total_chunks` = n |
| RagServer.SourceLabel | src/day7_mcp_rag_server.py:526-528 | the label is `filename`, else `source`, else `文档块 i` |
| RagServer.AnswerPrompt | src/day7_mcp_rag_server.py:531-541 | the prompt opens with the fixed instructions |
| RagServer.AnswerPromptLayout | src/day7_mcp_rag_server.py:531-541 | the context sits right after the fixed instructions, and the prompt is exactly instructions, context and question part by length |
| RagServer.PromptContextAppend | src/day7_mcp_rag_server.py:519-531 | no hits give an empty context; one hit gives its part numbered 1; one more hit appends two separators and its part numbered `n + 1`, so the parts stand in retrieval order |
| RagServer.AnswerQuestion | src/day7_mcp_rag_server.py:503-567 | a blank question is refused (and only then); a failed search, then a failed LLM call, gives the failure reply with its error; an empty retrieval returns the sentinel; the reply is an answer iff the question is not blank, the search returns hits and the LLM call returns, and then it is the LLM's answer to the prompt built from the hits, with one label per hit |
| RagServer.NoGenerationWithoutContext | src/day7_mcp_rag_server.py:507-516 | with a search that returns no hits the reply does not depend on the LLM and is a refusal or the sentinel |
| RagServer.PromptHasEveryChunk | src/day7_mcp_rag_server.py:519-541 | every hit's numbered context part occurs in the prompt |
| RagServer.PromptEndsWithQuestion | src/day7_mcp_rag_server.py:533-541 | the prompt ends with the question heading, the question and the closing instruction, so the question occurs in it |
| RagServer.ListingKey | src/day7_mcp_rag_server.py:595 | rows group by `source`, else `filename`, else `未知来源` |
| RagServer.View | src/day7_mcp_rag_server.py:601-615 | a group shows its first three rows at most, and the remainder count is positive iff it has more than three |
| RagServer.ListDocuments | src/day7_mcp_rag_server.py:569-627 | no rows gives the empty-base reply (and only then); otherwise the views are the first-seen groups, with the totals and the floor average row length |
| RagServer.ListingAccountsForRows | src/day7_mcp_rag_server.py:593-602 | each view's size counts its source's rows, sources are distinct, every row's source has a view, and the sizes add up to the number of rows |
| RagServer.ShownRowsBelong | src/day7_mcp_rag_server.py:598-609 | every shown row exists and has the view's source |
| RagServer.MatchingIds | src/day7_mcp_rag_server.py:645 | an id matches iff its record holds every filter entry |
| RagServer.DeleteDocuments | src/day7_mcp_rag_server.py:634-657 | refuses unless confirmed, then refuses an empty filter, both leaving the store unchanged; no match changes nothing; otherwise exactly the matching records go and their count is reported, and a confirmed, non-empty filter with a match always deletes |
| RagServer.DeleteIdempotent | src/day7_mcp_rag_server.py:645-651 | deleting again with the same filter finds nothing |
| RagServer.DeleteKeepsNonMatching | src/day7_mcp_rag_server.py:651 | a record the filter does not match survives unchanged, confirmed or not |
| RagService.Dispatch | project/mcp_services/rag_service/server.py:397-479 | the three handled tools route to their handler with the documented defaults, or fail on a missing required argument; the six unhandled tools end in the execution error; any other name is an unknown tool |
| RagService.ErrorText | project/mcp_services/rag_service/server.py:470-479 | the unknown-tool text names the tool; the execution-error text opens with the tool's name |
| RagService.DispatchReachesHandlerOnlyForHandledTools | project/mcp_services/rag_service/server.py:407-471 | only `add_document`, `answer_question` and `get_collection_stats` reach a handler, and an unhandled tool fails with any arguments |
| RagService.AddDocument | project/mcp_services/rag_service/server.py:482-523 | blank content is refused; otherwise the chunks are stored annotated and the counter grows by their number; with no chunks the average divides by zero and the reply is the failure; non-blank content that splits into chunks is always added |
| RagService.CounterTracksStore | project/mcp_services/rag_service/server.py:513-516 | once the counter equals the number of stored records, it stays equal over any sequence of adds |
| RagService.StylePrefix | project/mcp_services/rag_service/server.py:552-558 | a style has a prefix iff it is `detailed`, `concise` or `analytical` |
| RagService.StylePrefixesDistinct | project/mcp_services/rag_service/server.py:552-556 | the three styles give three different prefixes |
| RagService.SourceLabel | project/mcp_services/rag_service/server.py:545-547 | the label is `title`, else `source`, else `文档块 i` |
| RagService.StylePrompt | project/mcp_services/rag_service/server.py:558-565 | the prompt opens with the style's prefix |
| RagService.StylePromptLayout | project/mcp_services/rag_service/server.py:558-565 | the prompt is the prefix and context heading, then the context, then the question part, each at its place and by length |
| RagService.StyleContextAppend | project/mcp_services/rag_service/server.py:538-549 | no hits give an empty context; one hit gives `[文档 1]: content`; one more hit appends a blank line and its part numbered `n + 1`, so the parts stand in retrieval order |
| RagService.StylePromptHasEveryPart | project/mcp_services/rag_service/server.py:558-565 | every retrieved chunk's numbered part `[文档 i]: content` occurs in the prompt, which ends with the question heading, the question and the closing instruction |
| RagService.AnswerQuestion | project/mcp_services/rag_service/server.py:525-581 | a failed search gives the failure reply with its error; an empty retrieval gives the sentinel (and only then); an unknown style then fails on its key; a failed LLM call gives the failure reply with its error; the reply is an answer iff the search returns hits, the style is known and the LLM call returns, and then it is the LLM's answer to the styled prompt, with one label per hit |
| RagService.DetailedStats | project/mcp_services/rag_service/server.py:583-614 | the total is the record count; a breakdown appears iff details are asked for and the collection is non-empty; categories and sources are counted in first-seen order, sources cut to the first ten |
| RagService.TallyMeaning | project/mcp_services/rag_service/server.py:603-611 | each counter counts its value's records exactly, values are distinct, every record's value has a counter, and the counts add up to the records |
| RagService.CategoryCountsAddUp | project/mcp_services/rag_service/server.py:606-613 | category counts add up to the number of records |
| RagService.SourceCountsAddUp | project/mcp_services/rag_service/server.py:606-614 | source counts add up to the number of records when there are at most ten sources |
| Workflow.AnalyzeRequirements | src/day4_workflow_orchestration.py:113-144 | the revision count becomes 0, the article is not complete, the checks are empty, and one step is recorded |
| Workflow.LineTitleMeaning | src/day4_workflow_orchestration.py:179-186 | a line yields a title iff, stripped, it is non-empty, has a Unicode digit (`str.isdigit`) among its first three characters and contains ` - `; every title is non-empty |
| Workflow.DigitExamples | src/day4_workflow_orchestration.py:181 | ASCII, full-width, circled, superscript, Arabic-Indic and Devanagari digits count as digits; letters, `⑩` and CJK numerals do not |
| Workflow.DigitLedTitle | src/day4_workflow_orchestration.py:179-186 | a line `t - rest` whose title has no space, starts with a digit and is unpadded yields exactly `t` |
| Workflow.TitleBeforeDash | src/day4_workflow_orchestration.py:184 | the part before the first ` - ` of `t - rest` is `t` when `t` has no space |
| Workflow.UnspacedTitleIsWhole | src/day4_workflow_orchestration.py:184-185 | an unpadded title without spaces strips to itself and holds no `. ` |
| Workflow.DigitFirstIsOutline | src/day4_workflow_orchestration.py:181-183 | a line that starts with a digit and holds ` - ` passes the outline test |
| Workflow.CircledOutlineLine | src/day4_workflow_orchestration.py:179-186 | `①引言 - 概述` yields the title `①引言` |
| Workflow.SomesExactly | src/day4_workflow_orchestration.py:179-186 | the parsed titles are exactly the titles the lines yield, and none is empty |
| Workflow.ParseOutline | src/day4_workflow_orchestration.py:176-190 | the outline is the parsed titles, or the four-section default when none parse; it is never empty and has no empty title |
| Workflow.CreateOutline | src/day4_workflow_orchestration.py:146-199 | the state's outline is the parsed reply and one step is recorded |
| Workflow.NoteMentionsSection | src/day4_workflow_orchestration.py:222 | a research note is `[section] `, the first 200 characters of the reply (all of a shorter one) and `...`: its length is exactly that sum and the reply prefix sits right after the section |
| Workflow.ResearchTopic | src/day4_workflow_orchestration.py:201-229 | one note per outline section is appended to the accumulated notes |
| Workflow.RelevantMeaning | src/day4_workflow_orchestration.py:243-246 | a section's relevant notes are exactly the notes containing its title, each as often as it occurs |
| Workflow.OwnNoteIsRelevant | src/day4_workflow_orchestration.py:222-246 | a section's own research note is among its relevant notes |
| Workflow.Lookup | src/day4_workflow_orchestration.py:271 | a title is absent iff no entry has it |
| Workflow.Put | src/day4_workflow_orchestration.py:271 | after `d[t] = x` the title maps to `x` and every other title keeps its value |
| Workflow.PutKeepsDistinct | src/day4_workflow_orchestration.py:271 | dict assignment keeps titles distinct |
| Workflow.PutAppendsNew | src/day4_workflow_orchestration.py:271 | a new title is appended at the end |
| Workflow.PutKeepsPositions | src/day4_workflow_orchestration.py:271 | existing entries keep their positions |
| Workflow.Drafts | src/day4_workflow_orchestration.py:239-271 | the section dict has exactly the outline's titles, each mapped to the text written from its relevant notes |
| Workflow.WriteSections | src/day4_workflow_orchestration.py:231-277 | the state's sections become that dict and one step is recorded |
| Workflow.DraftParts | src/day4_workflow_orchestration.py:293-302 | the parts are the title line, each section's heading and text in dict order, and the closing pair for a tutorial |
| Workflow.CombineTextStartsWithTitle | src/day4_workflow_orchestration.py:290-304 | the draft opens with the stripped title as a level-one heading |
| Workflow.CombinedDraftHasEverySection | src/day4_workflow_orchestration.py:295-304 | every section title and every section text occurs in the draft |
| Workflow.CombineDraft | src/day4_workflow_orchestration.py:279-311 | the draft is rebuilt from the section dict under this round's title |
| Workflow.NonEmptyMeaning | src/day4_workflow_orchestration.py:352 | filtering drops exactly the empty strings |
| Workflow.NonEmptyAppend | src/day4_workflow_orchestration.py:352 | filtering distributes over concatenation |
| Workflow.NonEmptyFromFront | src/day4_workflow_orchestration.py:352 | the first non-empty string leads the filtered list |
| Workflow.NonEmptyMembers | src/day4_workflow_orchestration.py:352 | the filtered list holds exactly the non-empty members |
| Workflow.KeptStrippedLines | src/day4_workflow_orchestration.py:352 | the kept lines are exactly the non-empty strips of the reply lines |
| Workflow.ReviewLinesMeaning | src/day4_workflow_orchestration.py:351-352 | the reviewer lines are exactly the non-empty strips of the stripped reply's lines |
| Workflow.NonBlankReplyGivesLine | src/day4_workflow_orchestration.py:351-352 | a reviewer reply that is not blank yields a suggestion line |
| Workflow.BlankReplyGivesNoLine | src/day4_workflow_orchestration.py:351-352 | a blank reviewer reply yields none |
| Workflow.Suggestions | src/day4_workflow_orchestration.py:332-352 | fixed suggestions for a failed length or structure check, then at most two reviewer lines while fewer than two revisions have been made |
| Workflow.SuggestionsContent | src/day4_workflow_orchestration.py:332-352 | the list is one fixed suggestion per failed check, then the first two reviewer lines while fewer than two revisions were made and nothing after; the too-short suggestion appears only when the length check failed or a reviewer line says the same |
| Workflow.QualityCheck | src/day4_workflow_orchestration.py:313-370 | length is `len > 500`, structure is every outline title in the draft, revision is count > 0; the suggestions follow `Suggestions` |
| Workflow.QualityRouter | src/day4_workflow_orchestration.py:372-386 | revise iff there are suggestions and fewer than two revisions |
| Workflow.ReviseArticle | src/day4_workflow_orchestration.py:388-431 | the count goes up by exactly one, the suggestions are cleared, the draft is the revision |
| Workflow.FinalizeArticle | src/day4_workflow_orchestration.py:433-448 | the article becomes complete and nothing else changes |
| Workflow.TraceOfRevision | src/day4_workflow_orchestration.py:90-103 | a revising round contributes combine, check and revise steps to the trace |
| Workflow.CheckRound | src/day4_workflow_orchestration.py:90 | one combine-and-check round records both steps and keeps the count |
| Workflow.Rounds | src/day4_workflow_orchestration.py:90-106 | the loop terminates complete, with at most two revisions when started below two, with no pending suggestion unless two revisions were made, and the final draft is built from the sections |
| Workflow.Research | src/day4_workflow_orchestration.py:86-88 | the first three nodes from the initial state give the parsed outline and its notes |
| Workflow.Prepare | src/day4_workflow_orchestration.py:86-89 | the four nodes before the loop give the section dict over the parsed outline |
| Workflow.PrepareSteps | src/day4_workflow_orchestration.py:86-89 | those nodes record their four steps in order |
| Workflow.WriteArticle | src/day4_workflow_orchestration.py:450-485 | the whole graph ends complete with at most two revisions, the recorded trace, and a draft built from the sections |
| Workflow.StructureCheckAlwaysPasses | src/day4_workflow_orchestration.py:327 | the structure check passes on every combined draft, since each outline title heads a section |
| Workflow.RoundSuggestsWhileReviewerTalks | src/day4_workflow_orchestration.py:341-352 | below two revisions, a reviewer reply that is not blank gives the round a suggestion |
| Workflow.TalkativeReviewerRevisesTwice | src/day4_workflow_orchestration.py:341-386 | a reviewer that always says something makes the loop revise exactly twice |
| Workflow.SilentReviewerFinalizesAtOnce | src/day4_workflow_orchestration.py:325-386 | a blank reviewer and a draft over 500 characters finalize without revision |
| FileServer.DirPrefix | src/day6_mcp_file_server.py:276 | the base as a directory prefix ends in exactly one separator |
| FileServer.SafePathMeaning | src/day6_mcp_file_server.py:272-277 | the corrected guard admits exactly the base and the paths inside it, and admits nothing the guard as written refuses |
| FileServer.AsWrittenAdmitsSiblings | src/day6_mcp_file_server.py:276 | the guard as written admits a sibling whose name extends the base's; the corrected guard refuses it |
| FileServer.SiblingExample | src/day6_mcp_file_server.py:276 | `/srv/data-old/secret.txt` passes the guard as written for base `/srv/data` |
| FileServer.ProgramServesSibling | src/day6_mcp_file_server.py:276 | under the guard as written, `read_file`, the file resource and `list_files` serve `/srv/data-old` for base `/srv/data`; under the corrected guard each refuses it |
| FileServer.SiblingSearchFails | src/day6_mcp_file_server.py:455-533 | under the guard as written, searching `/srv/data-old/secret.txt` for a word it holds replies with the `relative_to` error; the corrected guard refuses the path |
| FileServer.BaseName | src/day6_mcp_file_server.py:282 | the last path component is a suffix of the path without separators |
| FileServer.Suffix | src/day6_mcp_file_server.py:282 | a suffix is empty or a dot followed by at least one character, taken from the end of a name it is shorter than |
| FileServer.MimeType | src/day6_mcp_file_server.py:280-295 | the type is a table value or `text/plain` |
| FileServer.MimeTypeByLastDot | src/day6_mcp_file_server.py:280-295 | the type is the table entry for the lower-cased suffix from the base name's last dot when that dot is neither first nor last and the suffix is in the table, and `text/plain` otherwise |
| FileServer.MimeTypeWithoutDot | src/day6_mcp_file_server.py:282-295 | a base name without a dot is `text/plain` |
| FileServer.MimeTypeIgnoresCase | src/day6_mcp_file_server.py:282 | the type does not depend on the case of the file name |
| FileServer.SuffixOfPlainName | src/day6_mcp_file_server.py:282 | the suffix is the text from the last dot when that dot is neither first nor last |
| FileServer.HiddenFileIsPlainText | src/day6_mcp_file_server.py:282-295 | a dot-file without a further dot is `text/plain` |
| FileServer.FileLinesConcat | src/day6_mcp_file_server.py:374 | the file's lines, read back to back, give the file again |
| FileServer.FileLinesCount | src/day6_mcp_file_server.py:435 | there is one line per line break, plus one for an unterminated last line |
| FileServer.Locate | src/day6_mcp_file_server.py:300-309 | an unresolvable path, a path outside the base and a missing path are told apart, in that order; otherwise the item is found |
| FileServer.ListFiles | src/day6_mcp_file_server.py:297-344 | refusals first, then not-a-directory, then no match; otherwise directories and files, each sorted, are exactly the matched entries of each kind, as multisets; a found directory with a match is always listed |
| FileServer.ExcerptMeaning | src/day6_mcp_file_server.py:372-379 | at most `max_lines` right-stripped lines, plus a trailer giving the true line count iff the file is longer |
| FileServer.ExcerptLoop | src/day6_mcp_file_server.py:373-378 | the reading loop builds exactly that excerpt |
| FileServer.ReadFile | src/day6_mcp_file_server.py:351-389 | refusals first, then a directory is refused; for a found file, too large iff over 1 MiB (with its size), undecodable iff within the cap and not text, and the text otherwise: the excerpt with a positive limit and the whole text without one |
| FileServer.ReadWholeFile | src/day6_mcp_file_server.py:380-381 | without a positive limit a readable file comes back exactly as stored |
| FileServer.FileInfo | src/day6_mcp_file_server.py:396-452 | refusals first; file details iff a file is found, directory details iff a directory is; a file reports its suffix, and a line count only for the counted suffixes; a directory's counts are exactly its file and directory entries |
| FileServer.KindCounts | src/day6_mcp_file_server.py:443-445 | files plus directories do not exceed the entries |
| FileServer.InfoCountsLines | src/day6_mcp_file_server.py:432-436 | a readable file with a counted suffix reports its number of lines |
| FileServer.HitOf | src/day6_mcp_file_server.py:492-497 | a line contributes a hit iff it matches, carrying its number and stripped text |
| FileServer.HitsSound | src/day6_mcp_file_server.py:491-497 | every hit names a matching line by its 1-based number |
| FileServer.HitsOrdered | src/day6_mcp_file_server.py:491-497 | hits come in file order |
| FileServer.HitsComplete | src/day6_mcp_file_server.py:491-497 | every matching line has a hit |
| FileServer.Report | src/day6_mcp_file_server.py:479-503 | a candidate is reported iff it is a searched regular file with hits, and the report holds exactly its hits |
| FileServer.BinaryNeverReported | src/day6_mcp_file_server.py:484-486 | a file with a binary suffix is never reported |
| FileServer.ResultsSound | src/day6_mcp_file_server.py:479-503 | every result is some candidate's report |
| FileServer.ResultsComplete | src/day6_mcp_file_server.py:479-503 | every candidate's report is among the results |
| FileServer.ReportTotal | src/day6_mcp_file_server.py:519-526 | the report loop's total is the sum of the hit counts |
| FileServer.SearchContent | src/day6_mcp_file_server.py:455-533 | refusals first; nothing found iff no candidate file reports a hit; the `relative_to` error iff some candidate with hits lies outside the base, naming the first such report; otherwise every reported file is a candidate with hits, every candidate with hits is reported, each under its name below the base, and the total is the sum of hits; a present path is never refused |
| FileServer.Outcome | src/day6_mcp_file_server.py:479-530 | for any candidates and any report that keeps the candidate's path, the same three outcomes: nothing found, the naming error at the first report outside the base, or the renamed reports with their total |
| FileServer.RelativeTo | src/day6_mcp_file_server.py:501 | a name iff the path is the base or inside it, `.` for the base, and the base's directory prefix followed by the name otherwise |
| FileServer.Relativize | src/day6_mcp_file_server.py:499-503 | every report renamed below the base, in order, iff all are inside it; otherwise the failure names the first report outside it |
| FileServer.SearchIgnoresKeywordCase | src/day6_mcp_file_server.py:468-469 | a case-insensitive search gives the same answer for the keyword in any case |
| FileServer.SearchOneFile | src/day6_mcp_file_server.py:474-533 | searching a file reports nothing found without hits; with hits, the `relative_to` error for a file outside the base, and otherwise that file's hits alone under its name below the base |
| FileServer.OutsideFileSearchFails | src/day6_mcp_file_server.py:474-533 | an admitted file outside the base whose text has hits gives the `relative_to` error |
| FileServer.IntendedSearchOfFileNeverFails | src/day6_mcp_file_server.py:474-503 | under the corrected guard a file search never fails on the name |
| FileServer.Summarize | src/day6_mcp_file_server.py:521-526 | at most five hits shown, each cut to 100 characters, with a remainder iff there are more than five, and shown plus remainder equals the count |
| FileServer.FileResource | src/day6_mcp_file_server.py:184-210 | a path outside the base is refused; a text comes back exactly for a readable file inside it, typed by the file name, and anything else inside gives the plain-text unreadable reply |
| FileServer.ReadResource | src/day6_mcp_file_server.py:182-226 | `file:///` names a file resource, `tree:///` is the depth-3 tree, anything else is an unknown resource |
| FileServer.ResourceSchemesAreDisjoint | src/day6_mcp_file_server.py:182-226 | a file body (text, refusal or unreadable) comes iff the URI is `file:///…`, the tree iff it is `tree:///`, the unknown reply, quoting the URI, iff it is neither; only a file's text has a type other than `text/plain` |
| FileServer.RouteCall | src/day6_mcp_file_server.py:229-270 | each tool gets its documented defaults, a missing required argument fails, and any other name is an unknown tool |
| FileServer.RouteNeedsRequiredArguments | src/day6_mcp_file_server.py:229-270 | each call kind arises iff its own tool is named and, for `read_file`, `file_info` and `search_content`, its required argument is present; the failure arises iff that argument is missing |
| FileServer.UnknownToolText | src/day6_mcp_file_server.py:262 | the unknown-tool text ends in the tool's name |
| FileServer.GuardComesFirst | src/day6_mcp_file_server.py:302-303 | under either guard, each tool (taking the guard as a parameter) refuses a path the guard rejects, whatever the file system holds |
| FileTree.NodeLeTotalPreorder | src/day6_mcp_file_server.py:550 | directories-first-then-name is a total preorder |
| FileTree.Listing | src/day6_mcp_file_server.py:550 | the listing is a permutation of the entries with directories before files, each kind sorted by name |
| FileTree.ListingSorted | src/day6_mcp_file_server.py:550 | the listing is sorted by that order |
| FileTree.TreeLinesUnderPrefix | src/day6_mcp_file_server.py:552-570 | every line of a subtree starts with its prefix |
| FileTree.DeepestLevel | src/day6_mcp_file_server.py:552-568 | on the deepest drawn level each entry takes one line, its branch and label, with `└── ` on the last |
| FileTree.CutOff | src/day6_mcp_file_server.py:546-547 | at or below the maximum depth only an ellipsis is drawn |
| FileTree.TreeIgnoresListingOrder | src/day6_mcp_file_server.py:550 | the tree does not depend on the order the directory lists its entries in |
| Profile.NameAfter | src/day2_memory_conversation.py:157-168 | a name is taken only when the marker occurs; it is non-empty, shorter than 10, stripped and free of commas |
| Profile.Introduced | src/day2_memory_conversation.py:155-168 | within a line a `我叫` name wins over a `我是` name |
| Profile.NameStepIntroduced | src/day2_memory_conversation.py:155-168 | one loop step sets the name to the line's introduced name, if any |
| Profile.ProfessionStep | src/day2_memory_conversation.py:170-173 | `学生` gives 学生, else `专业` gives 专业学生, else the profession stays |
| Profile.LineInterestsMembers | src/day2_memory_conversation.py:175-180 | a line adds exactly the topics it mentions |
| Profile.ProfileOf | src/day2_memory_conversation.py:183-189 | the interests are never empty; goals and level are the fixed defaults |
| Profile.OverrideIsLastPick | src/day2_memory_conversation.py:154-173 | a value overridden line by line is the last line's value, or the default if no line gives one |
| Profile.CollectMembers | src/day2_memory_conversation.py:175-180 | appended values are exactly those some line gives |
| Profile.ScanParts | src/day2_memory_conversation.py:154-180 | the loop's name, profession and interests are the three independent folds |
| Profile.NameAndProfessionAreLast | src/day2_memory_conversation.py:150-173 | name and profession are those of the last line giving one, `未知` otherwise |
| Profile.InterestsAreMentioned | src/day2_memory_conversation.py:175-180 | an interest is collected iff some line mentions it |
| Profile.InterestsDefault | src/day2_memory_conversation.py:186 | the interests are `["未知"]` iff no line mentions a topic |
| Profile.IntroductionGivesName | src/day2_memory_conversation.py:157-162 | `我是x` yields exactly `x` for a short, stripped, comma-free x |
| KeywordTable.FirstMatch | src/day5_multi_agent_crew.py:41-43 | the first entry, in table order, whose key the query contains ignoring case; none iff no key is contained |
| KeywordTable.FirstMatchIgnoresCase | src/day1_simple_agent.py:108-110 | the match does not depend on the case of the query |
| SimpleAgent.WeatherQuery | src/day1_simple_agent.py:74-88 | a known city gets its four fields; any other gets the apology naming it |
| SimpleAgent.UnknownCityReadsBack | src/day1_simple_agent.py:88 | the apology contains the city between its fixed ends |
| SimpleAgent.UnknownCitiesDiffer | src/day1_simple_agent.py:88 | different unknown cities get different apologies |
| SimpleAgent.KnownCityIsNotRefused | src/day1_simple_agent.py:81-88 | a known city's reply is never an apology |
| SimpleAgent.KnowledgeSearch | src/day1_simple_agent.py:100-113 | the first topic, in table order, whose lower-cased key the lower-cased query contains; the fixed apology when none |
| SimpleAgent.KnowledgeSearchIgnoresCase | src/day1_simple_agent.py:108 | the answer does not depend on the case of the query |
| CrewTools.SearchTool | src/day5_multi_agent_crew.py:32-45 | the entry of the first keyword, in table order, the query contains ignoring case; otherwise the generic reply |
| CrewTools.NoResultQuotesQuery | src/day5_multi_agent_crew.py:45 | the generic reply contains the query |
| CrewTools.SearchToolIgnoresCase | src/day5_multi_agent_crew.py:41-43 | a matching query gets the same entry in any case |
| CrewTools.FoundKeywords | src/day5_multi_agent_crew.py:90-91 | the found keywords are exactly the list's keywords the text contains ignoring case, as a subsequence of the list |
| CrewTools.AnalysisTool | src/day5_multi_agent_crew.py:85-99 | chars is the length, lines is one more than the line breaks, words is the number of word starts, which is `len(text.split())`, the keywords are as found, and the quality label depends only on whether any was found |
| Text.WordsConcat | src/day5_multi_agent_crew.py:85 | `split()`'s words, back to back, are the text without its whitespace |
| Text.WordsEmptyIffBlank | src/day5_multi_agent_crew.py:85 | `split()` gives no word iff the text is blank |
| Text.WordsCountStarts | src/day5_multi_agent_crew.py:85 | the words of a suffix number the word starts in it |
| Text.WordCount | src/day5_multi_agent_crew.py:85 | `len(text.split())` is the number of positions holding a non-space after a space or at the start |
| Text.TwoWords | src/day5_multi_agent_crew.py:85 | `ab cd` splits into two words |
| MathServer.Call | src/day6_mcp_server_simple.py:91-135 | an unknown name is reported; a missing `a`, then a missing `b`, fails with the key error; divide by zero gives the error text; only divide gives a quotient, and divide with `a` and a non-zero `b` always does; the other tools with both arguments reply as `Apply` |
| MathServer.Apply | src/day6_mcp_server_simple.py:92-135 | a negative power of zero fails, of any other base is a reciprocal; otherwise the reply is the conversion error iff `a`, `b` or the exact result has over 4300 digits, and text otherwise |
| MathServer.Divide | src/day6_mcp_server_simple.py:112-116 | with a non-zero divisor, a quotient of the arguments iff `a` is given |
| MathServer.CallApplies | src/day6_mcp_server_simple.py:92-123 | with both arguments present the tools compute their operation |
| MathServer.AddReportsSum | src/day6_mcp_server_simple.py:92-97 | with operands and sum within the digit cap, the add reply states `a + b = ` followed by the sum |
| MathServer.MultiplyReportsProduct | src/day6_mcp_server_simple.py:99-104 | with operands and product within the digit cap, the multiply reply states `a × b = ` followed by the product |
| MathServer.PowerReportsPower | src/day6_mcp_server_simple.py:118-123 | with operands and power within the digit cap, the power reply for a natural exponent states `a ^ b = ` followed by the power |
| MathServer.OverLimitFails | src/day6_mcp_server_simple.py:92-135 | an add, multiply or natural power whose exact result has over 4300 digits is reported as the conversion error |
| MathServer.PowerOfTenDigits | src/day6_mcp_server_simple.py:119 | `10 ** n` has `n + 1` digits |
| MathServer.BigPowerOfTenFails | src/day6_mcp_server_simple.py:118-135 | `power(10, n)` for any `n >= 4300` is the conversion error, not an equation |
| MathServer.PowAdd | src/day6_mcp_server_simple.py:119 | powers add exponents |
| MathServer.DivideGuardComesFirst | src/day6_mcp_server_simple.py:107-111 | a zero divisor gives the error text before `a` is read |
| MathServer.UnknownToolReadsBack | src/day6_mcp_server_simple.py:125-129 | the unknown-tool text quotes the name |

## Left out

- The text splitter, embeddings, similarity search, BM25 and the ensemble weights are library code. The splitter's chunk list and the retrievers' ranked lists are inputs.
- LLM calls are inputs, and so are the prompt templates other than the assembled RAG prompts. Output parsing and the structured answer path are left out.
- Floating point is left out: similarity scores and `1-score`, percentages, `_format_size` (a parameter), and true division and negative powers in the math server. `Quotient` and `Reciprocal` stand for those replies.
- Reply texts that embed a float, a timestamp or a Python `repr` of metadata are replies of a datatype, not strings. This covers the success messages, the read header and the listing previews.
- Stdio/JSON-RPC plumbing, logging, persistence, timestamps and UI are left out.
- JSON argument conversion is left out: arguments arrive already typed.
- The file system is a map from resolved paths to items. `Path.resolve`, normalisation of `..` and links, and globbing are left out. The glob's matches are an input.
- File reading is modelled as universal-newline text. The `encoding` argument, decoding errors and special files are left out.
- Text.Lower: lower-casing is modelled on ASCII letters only, because Python's full Unicode case mapping is not modelled.
- RagService.DetailedStats: metadata entries that are `None` are not modelled, because the collection returns a map per record.
- Profile.ProfileOf: models only the fallback branch. The LLM extraction and the final `except` that returns `None` are left out, because both depend on the LLM call.
- CrewTools.AnalysisTool: the report's layout (`AnalysisText`) carries no contract beyond the fields it renders.
- `file_write_tool` and the `eval`-based calculator are left out, because they perform I/O or evaluate arbitrary code.
- Meta.Value: float metadata values are not modelled. The value type holds strings, integers, booleans and `None` only.
- Grouping.GroupBy: Python's key equality across types, where `True == 1 == 1.0` share one dict key, is not modelled. The grouping keys in src/day3_advanced_rag_system.py:287-291, src/day7_mcp_rag_server.py:593-597 and project/mcp_services/rag_service/server.py:606-611 compare `Value`s by constructor and payload, so `Flag(true)` and `Int(1)` fall into separate buckets in AdvancedRag.Fuse, RagServer.ListDocuments and RagService.DetailedStats.
- FileServer.ListFiles: `Path` sorting is modelled as string order (`StrLe`). Python orders `Path`s part by part, so a recursive listing with `utils.py` and `utils/helpers.py` puts `utils/helpers.py` first, while string order puts `utils.py` first because '.' < '/'. With the default `*` pattern every match shares the listed directory as parent, and the two orders agree.
- FileServer.SearchContent: the `relative_to` error text quotes both paths with plain single quotes. Python's `repr` of a path holding a quote or a control character is not modelled.
- RagServer.AddDocument: a failing vector-store call and its reply `添加文档失败：{e}` are not modelled, because the store is a value and adding to it cannot fail.
- RagServer.DeleteDocuments: a failing store lookup or delete and its reply `删除文档失败：{e}` are not modelled, because the store is a value.
- RagService.AddDocument: a failing vector-store call and its reply `❌ 添加文档失败: {e}` are not modelled, because the store is a value. The zero-chunk division failure is modelled.
- MathServer.Call: arguments are integers. Floats and other JSON values are not modelled, so non-integer results never arise.
- MathServer.Call: the `Quotient` of divide and the `Reciprocal` of a negative power stand for Python's float text, which is not modelled; so neither the digit cap on `a` and `b` nor the `OverflowError` of huge operands is modelled on those two branches.
- MathServer.Apply: the time and memory a huge power takes before its text is refused are not modelled.

## Findings

| source | as written | input that shows it | evidently intended | confidence | as-written member | corrected member |
|---|---|---|---|---|---|---|
| src/day6_mcp_file_server.py:276 | `str(resolved).startswith(str(self.base_path))` admits any path whose string extends the base's | base `/srv/data`, resolved path `/srv/data-old/secret.txt` | admit only the base directory itself and paths below it | not executed | FileServer.ProgramServesSibling | FileServer.SafePathMeaning |

=== FILE: advanced_rag.dfy ===
/**
 The deterministic parts of the advanced RAG pipeline: preparing documents
 before splitting, parsing the LLM's query variants, fusing the ranked lists
 retrieved for each variant, and formatting retrieved documents as context.
 The retrievers and the LLM are inputs: a search function from method and
 query to a ranked list, and the LLM's reply (or its absence when the call
 fails).
 */
module AdvancedRag {
  import opened Wrappers
  import opened Text
  import opened Meta
  import opened Grouping
  import opened Ranking

  // ---------------------------------------------------------------------------
  // Loading documents
  // ---------------------------------------------------------------------------

  /** One input document: its content, its optional metadata (absent = `{}`) and optional title. */
  datatype RawDoc = RawDoc(content: string, metadata: Metadata, title: Option<Value>)

  const DocIdKey: string := "doc_id"
  const SourceKey: string := "source"

  /** The `source` a loaded document receives: its title, else `Document_i`. */
  function LoadedSource(raw: RawDoc, i: nat): Value {
    match raw.title
    case Some(t) => t
    case None => Str("Document_" + NatToString(i))
  }

  /** A loaded document's metadata: the caller's map with `doc_id` and `source` set. */
  function LoadedMeta(raw: RawDoc, i: nat): (m: Metadata)
    ensures m.Keys == raw.metadata.Keys + {DocIdKey, SourceKey}
    ensures m[DocIdKey] == Int(i) && m[SourceKey] == LoadedSource(raw, i)
    ensures forall k :: k in raw.metadata && k != DocIdKey && k != SourceKey ==> m[k] == raw.metadata[k]
  {
    raw.metadata[DocIdKey := Int(i)][SourceKey := LoadedSource(raw, i)]
  }

  /** The document objects built before splitting: stripped content, caller metadata plus `doc_id` and `source`. */
  function PrepareDocuments(raws: seq<RawDoc>): (docs: seq<Doc>)
    ensures |docs| == |raws|
    ensures forall i :: 0 <= i < |docs| ==> docs[i].content == Strip(raws[i].content)
    ensures forall i :: 0 <= i < |docs| ==> docs[i].meta.Keys == raws[i].metadata.Keys + {DocIdKey, SourceKey}
    ensures forall i :: 0 <= i < |docs| ==>
      docs[i].meta[DocIdKey] == Int(i) && docs[i].meta[SourceKey] == LoadedSource(raws[i], i)
    ensures forall i, k :: 0 <= i < |docs| && k in raws[i].metadata && k != DocIdKey && k != SourceKey ==>
      docs[i].meta[k] == raws[i].metadata[k]
  {
    seq(|raws|, i requires 0 <= i < |raws| =>
      Doc(Strip(raws[i].content), LoadedMeta(raws[i], i)))
  }

  /** A title always wins over a `source` the caller put in the metadata. */
  lemma TitleOverridesSource(raws: seq<RawDoc>, i: nat)
    requires i < |raws| && raws[i].title.Some? && SourceKey in raws[i].metadata
    ensures PrepareDocuments(raws)[i].meta[SourceKey] == raws[i].title.value
  {
  }

  // ---------------------------------------------------------------------------
  // Query variants
  // ---------------------------------------------------------------------------

  const MaxQueries: nat := 4

  /** The variant a reply line offers: the stripped text after its first ':', if it has one. */
  function LineVariant(line: string): Option<string> {
    match After(line, ":")
    case None => None
    case Some(rest) => Some(Strip(rest))
  }

  /** A line offers a variant exactly when it has a ':', and the variant is the stripped text after the first one. */
  lemma LineVariantMeaning(line: string)
    ensures LineVariant(line).Some? <==> Contains(line, ":")
    ensures LineVariant(line).Some? ==>
      line == Before(line, ":") + ":" + After(line, ":").value && LineVariant(line).value == Strip(After(line, ":").value)
  {
  }

  /** The variant each reply line offers, line by line. */
  function LineVariants(lines: seq<string>): (vs: seq<Option<string>>)
    ensures |vs| == |lines| && forall i :: 0 <= i < |lines| ==> vs[i] == LineVariant(lines[i])
  {
    seq(|lines|, i requires 0 <= i < |lines| => LineVariant(lines[i]))
  }

  /** A line whose variant is `v` offers the non-empty variant `c`. */
  predicate Offers(v: Option<string>, c: string) {
    c != [] && v == Some(c)
  }

  /** The non-empty variant of a line, as a list of at most one string. */
  function Offered(v: Option<string>): (r: seq<string>)
    ensures |r| <= 1
    ensures forall c :: c in r <==> Offers(v, c)
  {
    match v
    case Some(c) => if c != [] then [c] else []
    case None => []
  }

  /** The non-empty variants offered by the reply lines, in line order, repetitions included. */
  function Candidates(vs: seq<Option<string>>): (cs: seq<string>)
    decreases |vs|
  {
    if vs == [] then [] else Candidates(vs[..|vs| - 1]) + Offered(vs[|vs| - 1])
  }

  lemma {:induction false} CandidateOffered(vs: seq<Option<string>>, c: string)
    requires c in Candidates(vs)
    ensures exists i :: 0 <= i < |vs| && Offers(vs[i], c)
    decreases |vs|
  {
    var n := |vs| - 1;
    var init := vs[..n];
    assert Candidates(vs) == Candidates(init) + Offered(vs[n]);
    if c in Candidates(init) {
      CandidateOffered(init, c);
      var i :| 0 <= i < n && Offers(init[i], c);
      assert init[i] == vs[i];
    } else {
      assert Offers(vs[n], c);
    }
  }

  lemma {:induction false} OfferedCandidate(vs: seq<Option<string>>, i: nat, c: string)
    requires i < |vs| && Offers(vs[i], c)
    ensures c in Candidates(vs)
    decreases |vs|
  {
    var n := |vs| - 1;
    var init := vs[..n];
    assert Candidates(vs) == Candidates(init) + Offered(vs[n]);
    if i < n {
      assert init[i] == vs[i];
      OfferedCandidate(init, i, c);
    } else {
      assert c in Offered(vs[n]);
    }
  }

  /** A candidate is exactly a non-empty variant some reply line offers. */
  lemma CandidatesExactly(lines: seq<string>)
    ensures forall c :: c in Candidates(LineVariants(lines)) <==>
      exists i :: 0 <= i < |lines| && c != [] && LineVariant(lines[i]) == Some(c)
  {
    var vs := LineVariants(lines);
    forall c | c in Candidates(vs)
      ensures exists i :: 0 <= i < |lines| && c != [] && LineVariant(lines[i]) == Some(c)
    {
      CandidateOffered(vs, c);
      var i :| 0 <= i < |vs| && Offers(vs[i], c);
    }
    forall c, i | 0 <= i < |lines| && c != [] && LineVariant(lines[i]) == Some(c)
      ensures c in Candidates(vs)
    {
      OfferedCandidate(vs, i, c);
    }
  }

  /** Appends each of `cs` to `acc` unless it is already there (the `not in` test). */
  function AddNew(acc: seq<string>, cs: seq<string>): (r: seq<string>)
    decreases |cs|
  {
    if cs == [] then acc
    else AddNew(if cs[0] in acc then acc else acc + [cs[0]], cs[1..])
  }

  lemma {:induction false} AddNewProperties(acc: seq<string>, cs: seq<string>)
    requires Distinct(acc)
    ensures Distinct(AddNew(acc, cs))
    ensures |AddNew(acc, cs)| >= |acc| && AddNew(acc, cs)[..|acc|] == acc
    ensures forall j :: 0 <= j < |cs| ==> cs[j] in AddNew(acc, cs)
    ensures forall x :: x in AddNew(acc, cs) ==> x in acc || x in cs
    decreases |cs|
  {
    if cs != [] {
      var next := if cs[0] in acc then acc else acc + [cs[0]];
      AddNewProperties(next, cs[1..]);
      assert cs == [cs[0]] + cs[1..];
      var r := AddNew(next, cs[1..]);
      assert r[..|acc|] == r[..|next|][..|acc|];
      assert forall j :: 1 <= j < |cs| ==> cs[j] == cs[1..][j - 1];
    }
  }

  /**
   Adding the candidates that are new, one by one, gives the distinct values
   of the keys followed by the candidates, in the order they are first seen.
   */
  lemma {:induction false} AddNewIsFirstSeen(ks: seq<string>, cs: seq<string>)
    ensures AddNew(FirstSeenKeys(ks), cs) == FirstSeenKeys(ks + cs)
    decreases |cs|
  {
    if cs == [] {
      assert ks + cs == ks;
    } else {
      var ks2 := ks + [cs[0]];
      assert ks2[..|ks2| - 1] == ks;
      FirstSeenKeysMembers(ks);
      var acc := FirstSeenKeys(ks);
      var next := if cs[0] in acc then acc else acc + [cs[0]];
      assert FirstSeenKeys(ks2) == next;
      assert AddNew(acc, cs) == AddNew(next, cs[1..]);
      AddNewIsFirstSeen(ks2, cs[1..]);
      assert ks2 + cs[1..] == ks + cs;
    }
  }

  /**
   The query followed by the first new candidates, at most four entries in
   all: the first four distinct values of the query and the candidates, in
   the order they are first seen.
   */
  function Variants(query: string, cs: seq<string>): (qs: seq<string>)
    ensures 1 <= |qs| <= MaxQueries && qs[0] == query
    ensures Distinct(qs)
    ensures forall j :: 1 <= j < |qs| ==> qs[j] in cs
    ensures |qs| < MaxQueries ==> forall c :: c in cs ==> c in qs
    ensures qs == SliceTo(FirstSeenKeys([query] + cs), MaxQueries)
  {
    var all := AddNew([query], cs);
    assert FirstSeenKeys([query]) == [query] by {
      assert [query][..0] == [];
    }
    AddNewIsFirstSeen([query], cs);
    AddNewProperties([query], cs);
    var qs := SliceTo(all, MaxQueries);
    assert forall j :: 0 <= j < |qs| ==> qs[j] == all[j];
    assert all[..1] == [query];
    assert all[0] == query;
    qs
  }

  /** `optimize_query`: the original query, then the new non-empty variants, at most four in all. */
  function OptimizeQuery(query: string, reply: Option<string>, sep: string): (qs: seq<string>)
    requires sep != []
    ensures 1 <= |qs| <= MaxQueries && qs[0] == query
    ensures Distinct(qs)
    ensures reply.None? ==> qs == [query]
    ensures reply.Some? ==> forall j :: 1 <= j < |qs| ==> qs[j] in Candidates(LineVariants(Split(Strip(reply.value), sep)))
    ensures reply.Some? && |qs| < MaxQueries ==>
      forall c :: c in Candidates(LineVariants(Split(Strip(reply.value), sep))) ==> c in qs
    ensures reply.Some? ==>
      qs == SliceTo(FirstSeenKeys([query] + Candidates(LineVariants(Split(Strip(reply.value), sep)))), MaxQueries)
  {
    match reply
    case None => [query]
    case Some(text) => Variants(query, Candidates(LineVariants(Split(Strip(text), sep))))
  }

  // ---------------------------------------------------------------------------
  // Retrieval and fusion
  // ---------------------------------------------------------------------------

  datatype Method = Semantic | Bm25 | Hybrid

  function ParseMethod(name: string): (r: Option<Method>)
    ensures r.Some? <==> name in {"semantic", "bm25", "hybrid"}
  {
    if name == "semantic" then Some(Semantic)
    else if name == "bm25" then Some(Bm25)
    else if name == "hybrid" then Some(Hybrid)
    else None
  }

  datatype RetrievalError = NotInitialized | UnsupportedMethod(name: string)

  /** A record's fusion key: its `source`, else `unknown`. */
  function SourceOf(d: Doc): Value {
    GetOr(d.meta, SourceKey, Str("unknown"))
  }

  function SourcesOf(docs: seq<Doc>): (ks: seq<Value>)
    ensures |ks| == |docs| && forall i :: 0 <= i < |docs| ==> ks[i] == SourceOf(docs[i])
  {
    seq(|docs|, i requires 0 <= i < |docs| => SourceOf(docs[i]))
  }

  /** The lists one after the other. */
  function Flatten<T>(lists: seq<seq<T>>): (r: seq<T>)
    decreases |lists|
  {
    if lists == [] then [] else Flatten(lists[..|lists| - 1]) + lists[|lists| - 1]
  }

  /** A fused record: the first-seen record of a source, where it was first seen and how often. */
  datatype Scored = Scored(first: nat, doc: Doc, score: nat)

  /** `sorted(..., key=score, reverse=True)` is stable: higher score first, ties by first sighting. */
  predicate Precedes(a: Scored, b: Scored) {
    a.score > b.score || (a.score == b.score && a.first <= b.first)
  }

  lemma PrecedesTotalPreorder()
    ensures TotalPreorder(Precedes)
  {
  }

  /** One fused record per bucket, in first-seen order. */
  function FirstSeen(all: seq<Doc>, bs: seq<Bucket<Value>>): (fs: seq<Scored>)
    requires IsGrouping(SourcesOf(all), bs)
    ensures |fs| == |bs|
    ensures forall p :: 0 <= p < |bs| ==>
      fs[p].first == bs[p].members[0] && fs[p].first < |all| && fs[p].doc == all[fs[p].first] && fs[p].score == |bs[p].members|
  {
    forall p | 0 <= p < |bs| ensures bs[p].members[0] < |all| {
      MembersBelow(SourcesOf(all), bs, p);
    }
    seq(|bs|, p requires 0 <= p < |bs| => Scored(bs[p].members[0], all[bs[p].members[0]], |bs[p].members|))
  }

  /** A fused record is the first retrieved record of its source and scores that source's retrieval count. */
  ghost predicate RecordFaithful(all: seq<Doc>, e: Scored) {
    && e.first < |all| && e.doc == all[e.first]
    && (forall j :: 0 <= j < e.first ==> SourceOf(all[j]) != SourceOf(e.doc))
    && e.score == Count(SourcesOf(all), SourceOf(e.doc))
  }

  ghost predicate SourcesDistinct(fused: seq<Scored>) {
    forall i, j :: 0 <= i < j < |fused| ==> SourceOf(fused[i].doc) != SourceOf(fused[j].doc)
  }

  /** Some fused record has source `v`. */
  ghost predicate HasSource(fused: seq<Scored>, v: Value) {
    exists j :: 0 <= j < |fused| && SourceOf(fused[j].doc) == v
  }

  ghost predicate SourcesCovered(all: seq<Doc>, fused: seq<Scored>) {
    forall i :: 0 <= i < |all| ==> HasSource(fused, SourceOf(all[i]))
  }

  /** What the fused records say about the retrieved records. */
  ghost predicate FusedFaithfully(all: seq<Doc>, fused: seq<Scored>) {
    && (forall i :: 0 <= i < |fused| ==> RecordFaithful(all, fused[i]))
    && SourcesDistinct(fused)
    && SourcesCovered(all, fused)
  }

  lemma FirstSeenFaithful(all: seq<Doc>, bs: seq<Bucket<Value>>)
    requires IsGrouping(SourcesOf(all), bs)
    ensures FusedFaithfully(all, FirstSeen(all, bs))
    ensures Distinct(FirstSeen(all, bs))
  {
    var keys := SourcesOf(all);
    var fs := FirstSeen(all, bs);
    forall p | 0 <= p < |fs|
      ensures SourceOf(fs[p].doc) == bs[p].key
      ensures forall j :: 0 <= j < fs[p].first ==> SourceOf(all[j]) != bs[p].key
    {
      PositionsCorrect(keys, bs[p].key);
      forall j | 0 <= j < fs[p].first
        ensures SourceOf(all[j]) != bs[p].key
      {
        if keys[j] == bs[p].key {
          FirstMemberIsFirstOccurrence(keys, bs, p, j);
        }
      }
    }
    forall i | 0 <= i < |all|
      ensures HasSource(fs, SourceOf(all[i]))
    {
      assert keys[i] in KeysOf(bs);
      var p :| 0 <= p < |bs| && KeysOf(bs)[p] == keys[i];
      assert SourceOf(fs[p].doc) == SourceOf(all[i]);
    }
  }

  lemma PermutedRecords(all: seq<Doc>, fs: seq<Scored>, r: seq<Scored>)
    requires forall i :: 0 <= i < |fs| ==> RecordFaithful(all, fs[i])
    requires multiset(r) == multiset(fs)
    ensures forall i :: 0 <= i < |r| ==> RecordFaithful(all, r[i])
  {
    forall i | 0 <= i < |r|
      ensures RecordFaithful(all, r[i])
    {
      assert r[i] in multiset(fs);
      var p :| 0 <= p < |fs| && fs[p] == r[i];
    }
  }

  lemma PermutedDistinct(fs: seq<Scored>, r: seq<Scored>)
    requires SourcesDistinct(fs) && Distinct(fs) && multiset(r) == multiset(fs)
    ensures SourcesDistinct(r)
  {
    DistinctPermutation(fs, r);
    forall i, j | 0 <= i < j < |r|
      ensures SourceOf(r[i].doc) != SourceOf(r[j].doc)
    {
      assert r[i] in multiset(fs) && r[j] in multiset(fs);
      var p :| 0 <= p < |fs| && fs[p] == r[i];
      var q :| 0 <= q < |fs| && fs[q] == r[j];
      assert p != q;
    }
  }

  lemma PermutedCovered(all: seq<Doc>, fs: seq<Scored>, r: seq<Scored>)
    requires SourcesCovered(all, fs) && multiset(r) == multiset(fs)
    ensures SourcesCovered(all, r)
  {
    forall i | 0 <= i < |all|
      ensures HasSource(r, SourceOf(all[i]))
    {
      var p :| 0 <= p < |fs| && SourceOf(fs[p].doc) == SourceOf(all[i]);
      assert fs[p] in multiset(r);
      var j :| 0 <= j < |r| && r[j] == fs[p];
      assert SourceOf(r[j].doc) == SourceOf(all[i]);
    }
  }

  /** A permutation of faithfully fused records is still faithful. */
  lemma PermutedFaithful(all: seq<Doc>, fs: seq<Scored>, r: seq<Scored>)
    requires FusedFaithfully(all, fs) && Distinct(fs) && multiset(r) == multiset(fs)
    ensures FusedFaithfully(all, r)
  {
    PermutedRecords(all, fs, r);
    PermutedDistinct(fs, r);
    PermutedCovered(all, fs, r);
  }

  /**
   The fused ranking of the retrieved lists: one record per source (the first
   seen), scored by how often the source was retrieved, best first, ties in
   first-seen order.
   */
  function Fuse(lists: seq<seq<Doc>>): (r: seq<Scored>)
    ensures FusedFaithfully(Flatten(lists), r)
    ensures SortedBy(r, Precedes)
  {
    var all := Flatten(lists);
    var bs := GroupBy(SourcesOf(all));
    var fs := FirstSeen(all, bs);
    FirstSeenFaithful(all, bs);
    PrecedesTotalPreorder();
    var r := Sort(fs, Precedes);
    PermutedFaithful(all, fs, r);
    r
  }

  function DocsOf(rs: seq<Scored>): (ds: seq<Doc>)
    ensures |ds| == |rs| && forall i :: 0 <= i < |rs| ==> ds[i] == rs[i].doc
  {
    seq(|rs|, i requires 0 <= i < |rs| => rs[i].doc)
  }

  /** The list one query contributes: the library cuts a semantic search to `k` itself, the others are cut here. */
  function ListFor(search: (Method, string) -> seq<Doc>, m: Method, q: string, k: int): seq<Doc> {
    if m == Semantic then search(m, q) else SliceTo(search(m, q), k)
  }

  function ListsFor(search: (Method, string) -> seq<Doc>, m: Method, qs: seq<string>, k: int): (ls: seq<seq<Doc>>)
    ensures |ls| == |qs| && forall i :: 0 <= i < |qs| ==> ls[i] == ListFor(search, m, qs[i], k)
  {
    seq(|qs|, i requires 0 <= i < |qs| => ListFor(search, m, qs[i], k))
  }

  /** The queries searched: the variants when optimising, otherwise the query alone. */
  function QueriesFor(query: string, optimize: bool, reply: Option<string>, sep: string): (qs: seq<string>)
    requires sep != []
    ensures !optimize ==> qs == [query]
    ensures 1 <= |qs| <= MaxQueries && qs[0] == query
  {
    if optimize then OptimizeQuery(query, reply, sep) else [query]
  }

  /** `retrieve_documents`: the top `k` fused records, or the error it raises. */
  function RetrieveDocuments(initialized: bool, query: string, methodName: string, k: int, optimize: bool,
                             reply: Option<string>, sep: string, search: (Method, string) -> seq<Doc>)
    : (r: Result<seq<Doc>, RetrievalError>)
    requires sep != []
    ensures !initialized ==> r == Failure(NotInitialized)
    ensures initialized && ParseMethod(methodName).None? ==> r == Failure(UnsupportedMethod(methodName))
    ensures r.Success? <==> initialized && ParseMethod(methodName).Some?
    ensures r.Success? ==>
      var fused := Fuse(ListsFor(search, ParseMethod(methodName).value, QueriesFor(query, optimize, reply, sep), k));
      r.value == DocsOf(SliceTo(fused, k))
    ensures r.Success? && k >= 0 ==> |r.value| <= k
  {
    if !initialized then Failure(NotInitialized)
    else
      var qs := QueriesFor(query, optimize, reply, sep);
      match ParseMethod(methodName)
      case None => Failure(UnsupportedMethod(methodName))
      case Some(m) => Success(DocsOf(SliceTo(Fuse(ListsFor(search, m, qs, k)), k)))
  }

  /** The top-`k` cut keeps what fusion promises: faithful records with distinct sources, best first. */
  lemma CutKeepsRanking(lists: seq<seq<Doc>>, k: int)
    ensures var cut := SliceTo(Fuse(lists), k);
      && SortedBy(cut, Precedes)
      && SourcesDistinct(cut)
      && (forall i :: 0 <= i < |cut| ==> RecordFaithful(Flatten(lists), cut[i]))
  {
    var r := Fuse(lists);
    var cut := SliceTo(r, k);
    assert forall i :: 0 <= i < |cut| ==> cut[i] == r[i];
  }

  // ---------------------------------------------------------------------------
  // Context formatting
  // ---------------------------------------------------------------------------

  const NoDocuments: string := "没有找到相关文档。"

  /** The label of the `i`-th (1-based) document: its `source`, else `文档i`. */
  function ContextLabel(d: Doc, i: nat): (r: string)
    ensures SourceKey in d.meta ==> r == Render(d.meta[SourceKey])
    ensures SourceKey !in d.meta ==> r == "文档" + NatToString(i)
  {
    Render(GetOr(d.meta, SourceKey, Str("文档" + NatToString(i))))
  }

  /** One context block: `[文档i: label]`, the separator, then the stripped content. */
  function ContextBlock(d: Doc, i: nat, sep: string): (b: string)
    ensures StartsWith(b, "[文档" + NatToString(i) + ": ") && b[0] == '['
  {
    var head := "[文档" + NatToString(i) + ": ";
    var b := head + ContextLabel(d, i) + "]" + sep + Strip(d.content);
    assert b[..|head|] == head;
    b
  }

  /** The facts `ContextBlockCarries` needs, for any head, label, separator and content. */
  lemma BlockShape(head: string, lab: string, sep: string, c: string)
    ensures var b := head + lab + "]" + sep + c;
      && |head| + |lab| < |b| && b[|head|..|head| + |lab|] == lab
      && |c| <= |b| && b[|b| - |c|..] == c
      && Contains(b, lab) && Contains(b, c)
  {
    var b := head + lab + "]" + sep + c;
    assert b == head + lab + ("]" + sep + c);
    MiddlePart(head, lab, "]" + sep + c);
    LastPart(head + lab + "]" + sep, c);
  }

  /**
   A block carries the document's label right after its numbered head, and ends
   with the document's stripped content.
   */
  lemma ContextBlockCarries(d: Doc, i: nat, sep: string)
    ensures var b := ContextBlock(d, i, sep); var n := |"[文档" + NatToString(i) + ": "|;
      n + |ContextLabel(d, i)| < |b| && b[n..n + |ContextLabel(d, i)|] == ContextLabel(d, i)
    ensures var b := ContextBlock(d, i, sep); var c := Strip(d.content);
      |c| <= |b| && b[|b| - |c|..] == c
    ensures Contains(ContextBlock(d, i, sep), ContextLabel(d, i)) && Contains(ContextBlock(d, i, sep), Strip(d.content))
  {
    BlockShape("[文档" + NatToString(i) + ": ", ContextLabel(d, i), sep, Strip(d.content));
  }

  /** `format_context`: the sentinel for no documents, else one numbered block per document. */
  function FormatContext(docs: seq<Doc>, sep: string): (r: string)
    ensures docs == [] ==> r == NoDocuments
    ensures docs != [] ==> r != [] && r[0] == '['
  {
    if docs == [] then NoDocuments
    else
      var blocks := ContextBlocks(docs, sep);
      FormatContextHead(blocks, sep + sep);
      Join(blocks, sep + sep)
  }

  function ContextBlocks(docs: seq<Doc>, sep: string): (bs: seq<string>)
    ensures |bs| == |docs| && forall i :: 0 <= i < |docs| ==> bs[i] == ContextBlock(docs[i], i + 1, sep)
  {
    seq(|docs|, i requires 0 <= i < |docs| => ContextBlock(docs[i], i + 1, sep))
  }

  lemma FormatContextHead(blocks: seq<string>, sep: string)
    requires blocks != [] && blocks[0] != [] && blocks[0][0] == '['
    ensures Join(blocks, sep) != [] && Join(blocks, sep)[0] == '['
  {
    if |blocks| > 1 {
      JoinCons(blocks[0], blocks[1..], sep);
      assert blocks == [blocks[0]] + blocks[1..];
    }
  }

  /** The sentinel is returned exactly when there is nothing to format. */
  lemma FormatContextSentinelIffEmpty(docs: seq<Doc>, sep: string)
    ensures FormatContext(docs, sep) == NoDocuments <==> docs == []
  {
    if docs != [] {
      assert NoDocuments[0] != '[';
    }
  }

  /** One more document appends its block, after two separators, to the context. */
  lemma FormatContextAppend(docs: seq<Doc>, d: Doc, sep: string)
    ensures FormatContext([d], sep) == ContextBlock(d, 1, sep)
    ensures docs != [] ==>
      FormatContext(docs + [d], sep) == FormatContext(docs, sep) + sep + sep + ContextBlock(d, |docs| + 1, sep)
  {
    assert FormatContext([d], sep) == ContextBlock(d, 1, sep) by {
      ContextBlocksSnoc([], d, sep);
      assert [] + [d] == [d];
    }
    if docs != [] {
      var b := ContextBlock(d, |docs| + 1, sep);
      var bs := ContextBlocks(docs, sep);
      assert FormatContext(docs + [d], sep) == Join(bs + [b], sep + sep) by {
        ContextBlocksSnoc(docs, d, sep);
      }
      assert Join(bs + [b], sep + sep) == Join(bs, sep + sep) + (sep + sep) + b by {
        JoinSnoc(bs, b, sep + sep);
      }
    }
  }

  lemma ContextBlocksSnoc(docs: seq<Doc>, d: Doc, sep: string)
    ensures ContextBlocks(docs + [d], sep) == ContextBlocks(docs, sep) + [ContextBlock(d, |docs| + 1, sep)]
  {
    var bs, cs := ContextBlocks(docs + [d], sep), ContextBlocks(docs, sep) + [ContextBlock(d, |docs| + 1, sep)];
    forall i | 0 <= i < |bs|
      ensures bs[i] == cs[i]
    {
      if i < |docs| {
        assert (docs + [d])[i] == docs[i];
      }
    }
  }

  /** Every document's block, with its 1-based number, appears in the context. */
  lemma FormatContextHasEveryBlock(docs: seq<Doc>, sep: string)
    ensures forall i :: 0 <= i < |docs| ==> Contains(FormatContext(docs, sep), ContextBlock(docs[i], i + 1, sep))
    ensures forall i :: 0 <= i < |docs| ==>
      Contains(FormatContext(docs, sep), ContextLabel(docs[i], i + 1)) && Contains(FormatContext(docs, sep), Strip(docs[i].content))
  {
    if docs != [] {
      JoinContainsParts(ContextBlocks(docs, sep), sep + sep);
      forall i | 0 <= i < |docs|
        ensures Contains(FormatContext(docs, sep), ContextLabel(docs[i], i + 1))
        ensures Contains(FormatContext(docs, sep), Strip(docs[i].content))
      {
        var b := ContextBlock(docs[i], i + 1, sep);
        assert Contains(FormatContext(docs, sep), b);
        ContextBlockCarries(docs[i], i + 1, sep);
        ContainsTransitive(FormatContext(docs, sep), b, ContextLabel(docs[i], i + 1));
        ContainsTransitive(FormatContext(docs, sep), b, Strip(docs[i].content));
      }
    }
  }
}

=== FILE: crew_tools.dfy ===
/**
 The two pure tools of the research-and-writing crew: `search_tool`, a canned
 keyword lookup standing in for web search, and `analysis_tool`, which counts
 the words, characters and lines of a text and lists the technical keywords
 it mentions.
 */
module CrewTools {
  import opened Wrappers
  import opened Text
  import opened KeywordTable

  const SearchResults: seq<Entry> := [
    Entry("人工智能", "人工智能（AI）是计算机科学的一个分支，致力于创建能够执行通常需要人类智能的任务的系统..."),
    Entry("机器学习", "机器学习是人工智能的一个子集，专注于算法和统计模型，使计算机系统能够从数据中学习..."),
    Entry("深度学习", "深度学习是机器学习的一个分支，使用人工神经网络来模拟人脑的学习过程..."),
    Entry("LangChain", "LangChain是一个开源框架，用于构建基于大型语言模型（LLM）的应用程序..."),
    Entry("CrewAI", "CrewAI是一个多Agent协作框架，允许创建一组AI代理来协同工作完成复杂任务...")
  ]

  /** The reply when no keyword matches; it quotes the query. */
  function NoResult(query: string): string {
    "关于'" + query + "'的搜索结果：这是一个相关的技术主题，需要进一步研究。"
  }

  /** `search_tool(query)`: the entry of the first keyword the query mentions, ignoring case. */
  function SearchTool(query: string): (r: string)
    ensures forall i: nat :: IsFirstMention(SearchResults, query, i) ==> r == "搜索结果：" + SearchResults[i].text
    ensures NoMention(SearchResults, query) ==> r == NoResult(query)
  {
    match FirstMatch(SearchResults, query)
    case Some(i) => "搜索结果：" + SearchResults[i].text
    case None => NoResult(query)
  }

  /** The fallback reply contains the query it answers. */
  lemma NoResultQuotesQuery(query: string)
    ensures Contains(NoResult(query), query)
  {
    ContainsSelf(query);
    ContainsInRight("关于'", query, query);
    ContainsInLeft("关于'" + query, "'的搜索结果：这是一个相关的技术主题，需要进一步研究。", query);
  }

  /** When some keyword matches, the query's case does not matter. */
  lemma SearchToolIgnoresCase(query: string)
    requires !NoMention(SearchResults, query)
    ensures SearchTool(Lower(query)) == SearchTool(query)
  {
    FirstMatchIgnoresCase(SearchResults, query);
  }

  /** The keywords `analysis_tool` looks for, in the order it reports them. */
  const Keywords: seq<string> := ["人工智能", "机器学习", "深度学习", "Agent", "AI"]

  /** The positions below `n` of the elements of `xs` that `keep` accepts, ascending. */
  function Kept(xs: seq<string>, n: nat, keep: string -> bool): (r: seq<nat>)
    requires n <= |xs|
    ensures forall k :: 0 <= k < |r| ==> r[k] < n && keep(xs[r[k]])
    ensures forall i :: 0 <= i < n && keep(xs[i]) ==> i in r
    ensures forall a, b :: 0 <= a < b < |r| ==> r[a] < r[b]
    decreases n
  {
    if n == 0 then [] else Kept(xs, n - 1, keep) + (if keep(xs[n - 1]) then [n - 1] else [])
  }

  /** `r` is `xs` at the ascending positions `idx`. */
  ghost predicate PicksAt(r: seq<string>, xs: seq<string>, idx: seq<nat>) {
    && |idx| == |r|
    && (forall k :: 0 <= k < |idx| ==> idx[k] < |xs| && xs[idx[k]] == r[k])
    && (forall a, b :: 0 <= a < b < |idx| ==> idx[a] < idx[b])
  }

  /** `[kw for kw in keywords if kw.lower() in text.lower()]`. */
  function FoundKeywords(text: string): (r: seq<string>)
    ensures forall k :: k in r <==> k in Keywords && Mentions(text, k)
    ensures exists idx :: PicksAt(r, Keywords, idx)
  {
    var idx := Kept(Keywords, |Keywords|, k => Mentions(text, k));
    var r := seq(|idx|, k requires 0 <= k < |idx| => Keywords[idx[k]]);
    assert PicksAt(r, Keywords, idx);
    assert forall k :: k in Keywords && Mentions(text, k) ==> k in r by {
      forall k | k in Keywords && Mentions(text, k)
        ensures k in r
      {
        var i :| 0 <= i < |Keywords| && Keywords[i] == k;
        var p :| 0 <= p < |idx| && idx[p] == i;
        assert r[p] == k;
      }
    }
    r
  }

  const HighQuality: string := "高质量技术内容"
  const NeedsDetail: string := "需要更多技术细节"

  /** The figures `analysis_tool` reports. */
  datatype Analysis = Analysis(words: nat, chars: nat, lines: nat, keywords: seq<string>, quality: string)

  /** `analysis_tool(text)` before formatting. */
  function AnalysisTool(text: string): (r: Analysis)
    ensures r.chars == |text|
    ensures r.lines == CountChar(text, '\n') + 1
    ensures r.words == 0 <==> IsBlank(text)
    ensures r.words == StartsFrom(text, 0)
    ensures forall k :: k in r.keywords <==> k in Keywords && Mentions(text, k)
    ensures exists idx :: PicksAt(r.keywords, Keywords, idx)
    ensures r.quality == (if r.keywords != [] then HighQuality else NeedsDetail)
  {
    SplitCharCount(text, '\n');
    WordsEmptyIffBlank(text);
    WordCount(text);
    var found := FoundKeywords(text);
    Analysis(|Words(text)|, |text|, |Split(text, "\n")|, found, if found != [] then HighQuality else NeedsDetail)
  }

  /** The report text: the template with its surrounding line breaks stripped. */
  function AnalysisText(a: Analysis): string {
    "文本分析结果：\n- 字数：" + NatToString(a.words) + " 词\n- 字符数：" + NatToString(a.chars)
      + " 字符\n- 行数：" + NatToString(a.lines) + " 行\n- 技术关键词："
      + (if a.keywords != [] then Join(a.keywords, ", ") else "无") + "\n- 内容质量：" + a.quality
  }
}

=== FILE: file_server.dfy ===
/**
 The file-manager MCP server of day 6 (`FileManagerMCPServer`): four tools
 (`list_files`, `read_file`, `file_info`, `search_content`) and two kinds of
 resources (`file:///<name>` and `tree:///`) over a directory tree confined
 to a base path.

 The file system is a map from resolved absolute paths to what is there;
 path resolution itself (`Path.resolve()`, symbolic links, `..`) happens
 outside the model and arrives as its result, `None` when it raised.
 */
module FileServer {
  import opened Wrappers
  import opened Text
  import opened Meta
  import opened Ranking
  import opened FileTree

  // ---------------------------------------------------------------------
  // The base-path guard
  // ---------------------------------------------------------------------

  /**
   `_is_safe_path` as written: the resolved path's text starts with the base
   path's text; a path whose resolution raised is refused.
   */
  predicate IsSafePathAsWritten(resolved: Option<string>, base: string) {
    resolved.Some? && StartsWith(resolved.value, base)
  }

  /** The base path as a directory prefix, ending in exactly one separator. */
  function DirPrefix(base: string): (r: string)
    ensures StartsWith(r, base) && r != [] && r[|r| - 1] == '/'
    ensures |r| == |base| || (|r| == |base| + 1 && (base == [] || base[|base| - 1] != '/'))
  {
    if base != [] && base[|base| - 1] == '/' then base else base + "/"
  }

  /** The guard as intended: the base directory itself or a path inside it. */
  predicate IsSafePath(resolved: Option<string>, base: string) {
    resolved.Some? && (resolved.value == base || StartsWith(resolved.value, DirPrefix(base)))
  }

  /**
   The guard as written admits every sibling of the base directory whose
   name extends the base's name: with base `/srv/data`, the path
   `/srv/data-old/secret.txt` passes.
   */
  lemma AsWrittenAdmitsSiblings(base: string, p: string)
    requires StartsWith(p, base) && |p| > |base| && p[|base|] != '/'
    requires base == [] || base[|base| - 1] != '/'
    ensures IsSafePathAsWritten(Some(p), base)
    ensures !IsSafePath(Some(p), base)
  {
    var dir := base + "/";
    assert dir[|base|] == '/';
  }

  lemma SiblingExample()
    ensures IsSafePathAsWritten(Some("/srv/data-old/secret.txt"), "/srv/data")
    ensures !IsSafePath(Some("/srv/data-old/secret.txt"), "/srv/data")
  {
    AsWrittenAdmitsSiblings("/srv/data", "/srv/data-old/secret.txt");
  }

  /**
   The intended guard admits exactly the base and the paths below it, and
   only paths the written guard admits too.
   */
  lemma SafePathMeaning(p: string, base: string)
    requires base == [] || base[|base| - 1] != '/'
    ensures IsSafePath(Some(p), base) <==> p == base || exists rest :: p == base + "/" + rest
    ensures IsSafePath(Some(p), base) ==> IsSafePathAsWritten(Some(p), base)
  {
    var dir := base + "/";
    if StartsWith(p, dir) {
      assert p == base + "/" + p[|dir|..];
      assert p[..|base|] == p[..|dir|][..|base|];
    }
    if p != base && exists rest :: p == base + "/" + rest {
      var rest :| p == base + "/" + rest;
      assert p[..|dir|] == dir;
    }
  }

  /**
   Which guard the tools run: `AsWritten` is the program's, `Intended` the
   corrected one. Every tool below takes the guard as a parameter, so each
   fact about the tools holds for the program as written.
   */
  datatype Guard = AsWritten | Intended

  predicate Admits(g: Guard, resolved: Option<string>, base: string) {
    match g
    case AsWritten => IsSafePathAsWritten(resolved, base)
    case Intended => IsSafePath(resolved, base)
  }

  // ---------------------------------------------------------------------
  // Names, suffixes and MIME types
  // ---------------------------------------------------------------------

  /** The index of the last `c` in `s` (`s.rfind(c)`), if any. */
  function LastIndexOf(s: string, c: char): (r: Option<nat>)
    ensures r.Some? ==> r.value < |s| && s[r.value] == c && forall j :: r.value < j < |s| ==> s[j] != c
    ensures r.None? ==> forall j :: 0 <= j < |s| ==> s[j] != c
    decreases |s|
  {
    if s == [] then None
    else if s[|s| - 1] == c then Some(|s| - 1)
    else LastIndexOf(s[..|s| - 1], c)
  }

  /** The last component of a path (`Path(p).name`). */
  function BaseName(p: string): (r: string)
    ensures |r| <= |p| && r == p[|p| - |r|..] && forall j :: 0 <= j < |r| ==> r[j] != '/'
  {
    match LastIndexOf(p, '/')
    case None => p
    case Some(i) => p[i + 1..]
  }

  /**
   `PurePath.suffix` of a name: from its last dot on, unless that dot is the
   first or the last character (a hidden file like `.gitignore`, or `name.`).
   */
  function Suffix(name: string): (r: string)
    ensures r == [] || (|r| >= 2 && |r| < |name| && r[0] == '.' && r == name[|name| - |r|..])
  {
    match LastIndexOf(name, '.')
    case None => ""
    case Some(i) => if 0 < i < |name| - 1 then name[i..] else ""
  }

  /** The table `_get_mime_type` consults. */
  const MimeTypes: map<string, string> := map[
    ".txt" := "text/plain",
    ".md" := "text/markdown",
    ".py" := "text/x-python",
    ".json" := "application/json",
    ".yaml" := "text/yaml",
    ".yml" := "text/yaml",
    ".html" := "text/html",
    ".css" := "text/css",
    ".js" := "text/javascript",
    ".ipynb" := "application/x-ipynb+json"
  ]

  /** `_get_mime_type(filename)`: the type of the lower-cased suffix, `text/plain` otherwise. */
  function MimeType(filename: string): (r: string)
    ensures r == "text/plain" || r in MimeTypes.Values
  {
    var ext := Lower(Suffix(BaseName(filename)));
    if ext in MimeTypes then MimeTypes[ext] else "text/plain"
  }

  /**
   The type of a file is decided by the last dot of its name: the table's
   entry for the lower-cased text from that dot on, when the dot is neither
   the first nor the last character and the table has an entry; plain text
   otherwise.
   */
  lemma MimeTypeByLastDot(filename: string, i: nat)
    requires var name := BaseName(filename); i < |name| && name[i] == '.' && forall j :: i < j < |name| ==> name[j] != '.'
    ensures var name := BaseName(filename);
      MimeType(filename) == if 0 < i < |name| - 1 && Lower(name[i..]) in MimeTypes then MimeTypes[Lower(name[i..])] else "text/plain"
  {
    var name := BaseName(filename);
    LastIndexOfAt(name, '.', i);
    var ext := Lower(Suffix(name));
    if 0 < i < |name| - 1 {
      assert Suffix(name) == name[i..];
    } else {
      assert Suffix(name) == "" && ext == "";
      assert "" !in MimeTypes;
    }
  }

  /** A name without a dot is plain text. */
  lemma MimeTypeWithoutDot(filename: string)
    requires forall j :: 0 <= j < |BaseName(filename)| ==> BaseName(filename)[j] != '.'
    ensures MimeType(filename) == "text/plain"
  {
    assert Lower("") == "";
  }

  /** Lower-casing moves no separator: the last `c` stays where it was. */
  lemma {:induction false} LastIndexOfLower(s: string, c: char)
    requires !('A' <= c <= 'Z') && !('a' <= c <= 'z')
    ensures LastIndexOf(Lower(s), c) == LastIndexOf(s, c)
    decreases |s|
  {
    if s != [] {
      assert Lower(s)[..|s| - 1] == Lower(s[..|s| - 1]);
      LastIndexOfLower(s[..|s| - 1], c);
    }
  }

  lemma BaseNameOfLower(p: string)
    ensures BaseName(Lower(p)) == Lower(BaseName(p))
  {
    var q := Lower(p);
    LastIndexOfLower(p, '/');
    match LastIndexOf(p, '/')
    case None =>
    case Some(i) =>
      assert BaseName(q) == q[i + 1..];
      assert BaseName(p) == p[i + 1..];
      LowerDrop(p, i + 1);
  }

  lemma SuffixOfLowerName(name: string)
    ensures Suffix(Lower(name)) == Lower(Suffix(name))
  {
    LastIndexOfLower(name, '.');
    assert Lower("") == "";
    match LastIndexOf(name, '.')
    case None =>
    case Some(i) =>
      if 0 < i < |name| - 1 {
        LowerDrop(name, i);
      }
  }

  lemma SuffixOfLower(filename: string)
    ensures Suffix(BaseName(Lower(filename))) == Lower(Suffix(BaseName(filename)))
  {
    BaseNameOfLower(filename);
    SuffixOfLowerName(BaseName(filename));
  }

  /** The MIME type does not depend on the case of the file name. */
  lemma MimeTypeIgnoresCase(filename: string)
    ensures MimeType(Lower(filename)) == MimeType(filename)
  {
    SuffixOfLower(filename);
    LowerIdempotent(Suffix(BaseName(filename)));
  }

  /** An occurrence of `c` with none after it is the last one. */
  lemma LastIndexOfAt(s: string, c: char, i: nat)
    requires i < |s| && s[i] == c && forall j :: i < j < |s| ==> s[j] != c
    ensures LastIndexOf(s, c) == Some(i)
  {
  }

  lemma SuffixOfPlainName(name: string, i: nat)
    requires forall j :: 0 <= j < |name| ==> name[j] != '/'
    requires i < |name| && name[i] == '.' && forall j :: i < j < |name| ==> name[j] != '.'
    ensures Suffix(BaseName(name)) == if 0 < i < |name| - 1 then name[i..] else ""
  {
    assert BaseName(name) == name;
    LastIndexOfAt(name, '.', i);
  }

  /**
   A hidden file whose only dot is its first character, such as `.gitignore`,
   has no suffix and is served as plain text.
   */
  lemma HiddenFileIsPlainText(name: string)
    requires name != [] && name[0] == '.'
    requires forall j :: 0 <= j < |name| ==> name[j] != '/' && (j > 0 ==> name[j] != '.')
    ensures MimeType(name) == "text/plain"
  {
    SuffixOfPlainName(name, 0);
    assert Lower("") == "";
  }

  // ---------------------------------------------------------------------
  // Lines of a text file
  // ---------------------------------------------------------------------

  /** Every piece but the last, each followed by the line break it was split at. */
  function Terminated(pieces: seq<string>): (r: seq<string>)
    ensures |r| == |pieces|
  {
    seq(|pieces|, i requires 0 <= i < |pieces| => pieces[i] + "\n")
  }

  /**
   The lines iterating over a text file yields: each with its line break,
   the last one without when the file does not end in a line break.
   */
  function FileLines(text: string): seq<string> {
    var pieces := Split(text, "\n");
    var lines := Terminated(pieces[..|pieces| - 1]);
    var last := pieces[|pieces| - 1];
    if last == [] then lines else lines + [last]
  }

  lemma {:induction false} ConcatTerminated(pieces: seq<string>)
    requires |pieces| >= 1
    ensures Concat(Terminated(pieces[..|pieces| - 1])) + pieces[|pieces| - 1] == Join(pieces, "\n")
    decreases |pieces|
  {
    if |pieces| > 1 {
      var tail := pieces[1..];
      ConcatTerminated(tail);
      var t := Terminated(pieces[..|pieces| - 1]);
      assert t[1..] == Terminated(tail[..|tail| - 1]);
      assert t[0] == pieces[0] + "\n";
      assert Concat(t) == pieces[0] + "\n" + Concat(t[1..]);
    }
  }

  lemma ConcatAppend(a: seq<string>, b: string)
    ensures Concat(a + [b]) == Concat(a) + b
    decreases |a|
  {
    if a != [] {
      assert (a + [b])[1..] == a[1..] + [b];
      ConcatAppend(a[1..], b);
    } else {
      assert [] + [b] == [b];
    }
  }

  /** The last piece of a split on line breaks is what follows the last line break. */
  lemma LastPieceEmptyIffEndsInBreak(text: string)
    ensures var pieces := Split(text, "\n");
      pieces[|pieces| - 1] == [] <==> text == [] || text[|text| - 1] == '\n'
  {
    var pieces := Split(text, "\n");
    var last := pieces[|pieces| - 1];
    JoinSplit(text, "\n");
    ConcatTerminated(pieces);
    var front := Concat(Terminated(pieces[..|pieces| - 1]));
    assert text == front + last;
    SplitPiecesAvoidSeparator(text, "\n");
    if last != [] && text[|text| - 1] == '\n' {
      assert last[|last| - 1] == '\n';
      OccursAtChar(last, '\n', |last| - 1);
    }
    if last == [] && text != [] && |pieces| > 1 {
      var init := pieces[..|pieces| - 1];
      var t := Terminated(init);
      assert t == Terminated(init[..|init| - 1]) + [init[|init| - 1] + "\n"];
      ConcatAppend(Terminated(init[..|init| - 1]), init[|init| - 1] + "\n");
    }
  }

  /** Reading the lines back to back gives the file again. */
  lemma FileLinesConcat(text: string)
    ensures Concat(FileLines(text)) == text
  {
    var pieces := Split(text, "\n");
    var last := pieces[|pieces| - 1];
    JoinSplit(text, "\n");
    ConcatTerminated(pieces);
    if last != [] {
      ConcatAppend(Terminated(pieces[..|pieces| - 1]), last);
    }
  }

  /** There is one line per line break, plus one for an unterminated last line. */
  lemma FileLinesCount(text: string)
    ensures |FileLines(text)| == CountChar(text, '\n') + (if text != [] && text[|text| - 1] != '\n' then 1 else 0)
  {
    SplitCharCount(text, '\n');
    LastPieceEmptyIffEndsInBreak(text);
  }

  // ---------------------------------------------------------------------
  // What a tool finds at a path
  // ---------------------------------------------------------------------

  /** What `is_file()` / `is_dir()` say about a directory entry. */
  datatype Kind = IsFile | IsDir | IsOther

  /**
   What lies at a resolved path: a file with its size and its text as UTF-8
   (`None` when it does not decode or cannot be read), or a directory with
   the kinds of its entries.
   */
  datatype Item = FileItem(size: nat, text: Option<string>) | DirItem(kinds: seq<Kind>)

  type FileSystem = map<string, Item>

  /** Why a tool refuses before looking at the path's contents. */
  datatype Refusal = Unresolvable | Denied | Missing

  datatype Lookup = Refused(why: Refusal) | Present(path: string, item: Item)

  /**
   The checks every tool makes, in the order they make them: resolution,
   then the guard, then existence.
   */
  function Locate(g: Guard, resolved: Option<string>, base: string, fs: FileSystem): (r: Lookup)
    ensures r == Refused(Unresolvable) <==> resolved.None?
    ensures r == Refused(Denied) <==> resolved.Some? && !Admits(g, resolved, base)
    ensures r == Refused(Missing) <==> Admits(g, resolved, base) && resolved.value !in fs
    ensures r.Present? ==> Admits(g, resolved, base) && r.path == resolved.value && r.item == fs[r.path]
  {
    if resolved.None? then Refused(Unresolvable)
    else if !Admits(g, resolved, base) then Refused(Denied)
    else if resolved.value !in fs then Refused(Missing)
    else Present(resolved.value, fs[resolved.value])
  }

  // ---------------------------------------------------------------------
  // list_files
  // ---------------------------------------------------------------------

  /** A path the glob matched, relative to the listed directory, and its kind. */
  datatype Entry = Entry(rel: string, kind: Kind)

  datatype ListReply =
    | ListRefused(why: Refusal)
    | NotADirectory
    | NoMatch
    | Listed(dirs: seq<string>, files: seq<string>)

  /** The relative paths of the entries of kind `k`, in glob order. */
  function OfKind(entries: seq<Entry>, k: Kind): (r: seq<string>)
    ensures |r| <= |entries|
    ensures forall x :: x in r <==> Entry(x, k) in entries
    decreases |entries|
  {
    if entries == [] then []
    else
      var rest := OfKind(entries[1..], k);
      assert forall e :: e in entries <==> e == entries[0] || e in entries[1..];
      if entries[0].kind == k then [entries[0].rel] + rest else rest
  }

  /**
   `_list_files`: `matched` is what `glob`/`rglob(pattern)` yields in the
   directory; directories and files are each listed in sorted order.
   */
  function ListFiles(g: Guard, resolved: Option<string>, base: string, fs: FileSystem, matched: seq<Entry>): (r: ListReply)
    ensures Locate(g, resolved, base, fs).Refused? ==> r == ListRefused(Locate(g, resolved, base, fs).why)
    ensures r == NotADirectory <==> Locate(g, resolved, base, fs).Present? && Locate(g, resolved, base, fs).item.FileItem?
    ensures r == NoMatch <==> Locate(g, resolved, base, fs).Present? && Locate(g, resolved, base, fs).item.DirItem? && matched == []
    ensures r.Listed? ==> SortedBy(r.dirs, StrLe) && SortedBy(r.files, StrLe)
    ensures r.Listed? ==> forall x :: (x in r.dirs <==> Entry(x, IsDir) in matched) && (x in r.files <==> Entry(x, IsFile) in matched)
    ensures r.Listed? ==> multiset(r.dirs) == multiset(OfKind(matched, IsDir)) && multiset(r.files) == multiset(OfKind(matched, IsFile))
    ensures Locate(g, resolved, base, fs).Present? && Locate(g, resolved, base, fs).item.DirItem? && matched != [] ==> r.Listed?
  {
    match Locate(g, resolved, base, fs)
    case Refused(why) => ListRefused(why)
    case Present(_, item) =>
      if item.FileItem? then NotADirectory
      else if matched == [] then NoMatch
      else
        StrLeTotalPreorder();
        var dirs := Sort(OfKind(matched, IsDir), StrLe);
        var files := Sort(OfKind(matched, IsFile), StrLe);
        assert forall x :: x in dirs <==> x in multiset(OfKind(matched, IsDir));
        assert forall x :: x in files <==> x in multiset(OfKind(matched, IsFile));
        Listed(dirs, files)
  }

  // ---------------------------------------------------------------------
  // read_file
  // ---------------------------------------------------------------------

  /** The largest file `read_file` returns: one mebibyte. */
  const MaxReadSize: nat := 1024 * 1024

  datatype ReadReply =
    | ReadRefused(why: Refusal)
    | IsDirectory
    | TooLarge(size: nat)
    | Undecodable
    | FileText(content: string)

  /** The line appended in place of the lines past the limit. */
  function Trailer(total: nat): string {
    "\n... (省略剩余内容，文件共 " + NatToString(total) + " 行)"
  }

  function RStripAll(lines: seq<string>): (r: seq<string>)
    ensures |r| == |lines| && forall i :: 0 <= i < |r| ==> r[i] == RStrip(lines[i])
  {
    seq(|lines|, i requires 0 <= i < |lines| => RStrip(lines[i]))
  }

  /** The lines `read_file` shows with a positive `max_lines`. */
  function Excerpt(lines: seq<string>, maxLines: int): (r: seq<string>)
    requires maxLines > 0
  {
    if |lines| > maxLines then RStripAll(lines[..maxLines]) + [Trailer(|lines|)]
    else RStripAll(lines)
  }

  /**
   An excerpt shows the first `maxLines` lines without trailing whitespace
   and, only when lines were left out, a trailer naming the file's line count.
   */
  lemma ExcerptMeaning(lines: seq<string>, maxLines: int)
    requires maxLines > 0
    ensures var r := Excerpt(lines, maxLines);
      && |r| <= maxLines + 1
      && (forall i :: 0 <= i < |r| && i < |lines| && i < maxLines ==> r[i] == RStrip(lines[i]))
      && (|lines| > maxLines <==> |r| == maxLines + 1)
      && (|lines| > maxLines ==> r[maxLines] == Trailer(|lines|))
      && (|lines| <= maxLines ==> |r| == |lines|)
  {
  }

  /**
   The loop `_read_file` runs over the file: right-strip each line until the
   limit; at the limit count the lines not yet read and stop.
   */
  method ExcerptLoop(lines: seq<string>, maxLines: int) returns (parts: seq<string>)
    requires maxLines > 0
    ensures parts == Excerpt(lines, maxLines)
  {
    parts := [];
    var i := 0;
    while i < |lines|
      invariant 0 <= i <= |lines| && i <= maxLines
      invariant parts == RStripAll(lines[..i])
    {
      if i >= maxLines {
        var unread := |lines| - (i + 1);
        parts := parts + [Trailer(unread + i + 1)];
        return;
      }
      assert lines[..i + 1] == lines[..i] + [lines[i]];
      parts := parts + [RStrip(lines[i])];
      i := i + 1;
    }
    assert lines[..i] == lines;
  }

  /** `_read_file` without the header it puts in front of the content. */
  function ReadFile(g: Guard, resolved: Option<string>, base: string, fs: FileSystem, maxLines: int): (r: ReadReply)
    ensures Locate(g, resolved, base, fs).Refused? ==> r == ReadRefused(Locate(g, resolved, base, fs).why)
    ensures r == IsDirectory <==> Locate(g, resolved, base, fs).Present? && Locate(g, resolved, base, fs).item.DirItem?
    ensures r.TooLarge? ==> r.size > MaxReadSize
    ensures r.FileText? ==> exists size: nat, text: string ::
      (&& Locate(g, resolved, base, fs) == Present(resolved.value, FileItem(size, Some(text)))
       && size <= MaxReadSize
       && r.content == (if maxLines > 0 then Join(Excerpt(FileLines(text), maxLines), "\n") else text))
    ensures var l := Locate(g, resolved, base, fs); l.Present? && l.item.FileItem? ==>
      && (r.TooLarge? <==> l.item.size > MaxReadSize)
      && (r.TooLarge? ==> r.size == l.item.size)
      && (r == Undecodable <==> l.item.size <= MaxReadSize && l.item.text.None?)
      && (r.FileText? <==> l.item.size <= MaxReadSize && l.item.text.Some?)
  {
    match Locate(g, resolved, base, fs)
    case Refused(why) => ReadRefused(why)
    case Present(_, DirItem(_)) => IsDirectory
    case Present(_, FileItem(size, text)) =>
      if size > MaxReadSize then TooLarge(size)
      else if text.None? then Undecodable
      else if maxLines > 0 then FileText(Join(Excerpt(FileLines(text.value), maxLines), "\n"))
      else FileText(text.value)
  }

  /** Without a positive line limit a file comes back exactly as stored. */
  lemma ReadWholeFile(g: Guard, path: string, base: string, fs: FileSystem, maxLines: int)
    requires Admits(g, Some(path), base) && path in fs && fs[path].FileItem?
    requires fs[path].size <= MaxReadSize && fs[path].text.Some? && maxLines <= 0
    ensures ReadFile(g, Some(path), base, fs, maxLines) == FileText(fs[path].text.value)
  {
  }

  // ---------------------------------------------------------------------
  // file_info
  // ---------------------------------------------------------------------

  /** The suffixes whose files get a line count. */
  const CountedSuffixes: set<string> := {".txt", ".md", ".py", ".js", ".json", ".yaml", ".yml"}

  datatype InfoReply =
    | InfoRefused(why: Refusal)
    | FileDetails(suffix: string, lineCount: Option<nat>)
    | DirDetails(fileCount: nat, dirCount: nat)

  /**
   `_file_info` without sizes, times and permissions: a file's suffix (empty
   is shown as "无") and line count, a directory's file and directory counts.
   */
  function FileInfo(g: Guard, resolved: Option<string>, base: string, fs: FileSystem): (r: InfoReply)
    ensures Locate(g, resolved, base, fs).Refused? ==> r == InfoRefused(Locate(g, resolved, base, fs).why)
    ensures r.FileDetails? ==> r.suffix == Suffix(BaseName(resolved.value))
    ensures r.FileDetails? && r.lineCount.Some? ==> r.suffix in CountedSuffixes
    ensures r.FileDetails? <==> Locate(g, resolved, base, fs).Present? && Locate(g, resolved, base, fs).item.FileItem?
    ensures r.DirDetails? <==> Locate(g, resolved, base, fs).Present? && Locate(g, resolved, base, fs).item.DirItem?
    ensures r.DirDetails? ==> var kinds := fs[resolved.value].kinds;
      && r.fileCount == multiset(kinds)[IsFile] && r.dirCount == multiset(kinds)[IsDir]
      && r.fileCount + r.dirCount <= |kinds|
  {
    match Locate(g, resolved, base, fs)
    case Refused(why) => InfoRefused(why)
    case Present(path, FileItem(_, text)) =>
      var suffix := Suffix(BaseName(path));
      FileDetails(suffix, if suffix in CountedSuffixes && text.Some? then Some(|FileLines(text.value)|) else None)
    case Present(_, DirItem(kinds)) =>
      KindCounts(kinds);
      DirDetails(multiset(kinds)[IsFile], multiset(kinds)[IsDir])
  }

  lemma {:induction false} KindCounts(kinds: seq<Kind>)
    ensures multiset(kinds)[IsFile] + multiset(kinds)[IsDir] <= |kinds|
    decreases |kinds|
  {
    if kinds != [] {
      KindCounts(kinds[1..]);
      assert kinds == [kinds[0]] + kinds[1..];
      assert multiset(kinds) == multiset{kinds[0]} + multiset(kinds[1..]);
    }
  }

  /** The line count of a text file is its number of line breaks, plus one for an unterminated last line. */
  lemma InfoCountsLines(g: Guard, path: string, base: string, fs: FileSystem)
    requires Admits(g, Some(path), base) && path in fs && fs[path].FileItem? && fs[path].text.Some?
    requires Suffix(BaseName(path)) in CountedSuffixes
    ensures var text := fs[path].text.value;
      FileInfo(g, Some(path), base, fs)
        == FileDetails(Suffix(BaseName(path)), Some(CountChar(text, '\n') + if text != [] && text[|text| - 1] != '\n' then 1 else 0))
  {
    FileLinesCount(fs[path].text.value);
  }

  // ---------------------------------------------------------------------
  // search_content
  // ---------------------------------------------------------------------

  /** The suffixes `search_content` never opens (compared case-sensitively). */
  const BinarySuffixes: set<string> := {".exe", ".dll", ".so", ".dylib", ".pdf", ".jpg", ".png", ".gif", ".zip", ".tar"}

  /** A path the search considers, as the target or the glob yields it, with its kind and its UTF-8 text. */
  datatype Candidate = Candidate(path: string, kind: Kind, text: Option<string>)

  /** A matching line: its 1-based number and its stripped text. */
  datatype Hit = Hit(lineNum: nat, content: string)

  datatype FileHits = FileHits(file: string, hits: seq<Hit>)

  datatype SearchReply =
    | SearchRefused(why: Refusal)
    | NothingFound(needle: string)
    | SearchResults(results: seq<FileHits>, total: nat)
    | SearchFailed(text: string)

  /** The keyword as searched: lower-cased unless the search is case-sensitive. */
  function Needle(keyword: string, caseSensitive: bool): string {
    if caseSensitive then keyword else Lower(keyword)
  }

  predicate LineMatches(line: string, needle: string, caseSensitive: bool) {
    Contains(if caseSensitive then line else Lower(line), needle)
  }

  /** The line test of a search for `needle`. */
  function Matcher(needle: string, caseSensitive: bool): string -> bool {
    line => LineMatches(line, needle, caseSensitive)
  }

  /** The hit line `n` contributes: one if it matches, none otherwise. */
  function HitOf(line: string, n: nat, matches: string -> bool): (r: seq<Hit>)
    ensures |r| <= 1 && (r != [] <==> matches(line))
    ensures r != [] ==> r[0] == Hit(n, Strip(line))
  {
    if matches(line) then [Hit(n, Strip(line))] else []
  }

  /** The matching lines among `lines`, numbered from 1. */
  function Hits(lines: seq<string>, matches: string -> bool): seq<Hit>
    decreases |lines|
  {
    if lines == [] then []
    else Hits(lines[..|lines| - 1], matches) + HitOf(lines[|lines| - 1], |lines|, matches)
  }

  /** Each of `h` is the hit of the line it names. */
  ghost predicate HitsAreMatches(lines: seq<string>, matches: string -> bool, h: seq<Hit>) {
    forall k :: 0 <= k < |h| ==>
      (1 <= h[k].lineNum <= |lines| && HitOf(lines[h[k].lineNum - 1], h[k].lineNum, matches) == [h[k]])
  }

  ghost predicate InFileOrder(h: seq<Hit>) {
    forall k, l :: 0 <= k < l < |h| ==> h[k].lineNum < h[l].lineNum
  }

  /** Every matching line of `lines` has a hit in `h`. */
  ghost predicate MatchesAreHits(lines: seq<string>, matches: string -> bool, h: seq<Hit>) {
    forall i :: 0 <= i < |lines| && matches(lines[i]) ==> exists k :: 0 <= k < |h| && h[k].lineNum == i + 1
  }

  lemma HitsSplit(lines: seq<string>, matches: string -> bool)
    requires lines != []
    ensures Hits(lines, matches) == Hits(lines[..|lines| - 1], matches) + HitOf(lines[|lines| - 1], |lines|, matches)
  {
  }

  /** Each hit names a matching line by its number and carries that line stripped. */
  lemma {:induction false} HitsSound(lines: seq<string>, matches: string -> bool)
    ensures HitsAreMatches(lines, matches, Hits(lines, matches))
    decreases |lines|
  {
    if lines != [] {
      var init := lines[..|lines| - 1];
      var line := lines[|lines| - 1];
      HitsSound(init, matches);
      var hi := Hits(init, matches);
      var tail := HitOf(line, |lines|, matches);
      HitsSplit(lines, matches);
      var h := hi + tail;
      forall k | 0 <= k < |h|
        ensures 1 <= h[k].lineNum <= |lines| && HitOf(lines[h[k].lineNum - 1], h[k].lineNum, matches) == [h[k]]
      {
        if k < |hi| {
          assert h[k] == hi[k];
          var n := hi[k].lineNum;
          assert 1 <= n <= |init| && HitOf(init[n - 1], n, matches) == [hi[k]];
          assert init[n - 1] == lines[n - 1];
        } else {
          assert k == |hi| && tail != [];
          assert h[k] == tail[0] == Hit(|lines|, Strip(line));
          assert tail == [tail[0]];
        }
      }
    }
  }

  /** The hits come in file order. */
  lemma {:induction false} HitsOrdered(lines: seq<string>, matches: string -> bool)
    ensures InFileOrder(Hits(lines, matches))
    decreases |lines|
  {
    if lines != [] {
      var init := lines[..|lines| - 1];
      var line := lines[|lines| - 1];
      HitsOrdered(init, matches);
      HitsSound(init, matches);
      var hi := Hits(init, matches);
      var tail := HitOf(line, |lines|, matches);
      HitsSplit(lines, matches);
      var h := hi + tail;
      forall k, l | 0 <= k < l < |h|
        ensures h[k].lineNum < h[l].lineNum
      {
        assert k < |hi|;
        assert h[k] == hi[k] && hi[k].lineNum <= |init|;
        if l < |hi| {
          assert h[l] == hi[l];
        } else {
          assert l == |hi| && tail != [];
          assert h[l] == tail[0];
        }
      }
    }
  }

  /** Every matching line has a hit. */
  lemma {:induction false} HitsComplete(lines: seq<string>, matches: string -> bool)
    ensures MatchesAreHits(lines, matches, Hits(lines, matches))
    decreases |lines|
  {
    if lines != [] {
      var init := lines[..|lines| - 1];
      var line := lines[|lines| - 1];
      HitsComplete(init, matches);
      var hi := Hits(init, matches);
      var tail := HitOf(line, |lines|, matches);
      HitsSplit(lines, matches);
      var h := hi + tail;
      forall i | 0 <= i < |lines| && matches(lines[i])
        ensures exists k :: 0 <= k < |h| && h[k].lineNum == i + 1
      {
        if i < |init| {
          assert init[i] == lines[i];
          var k :| 0 <= k < |hi| && hi[k].lineNum == i + 1;
          assert 0 <= k < |h| && h[k].lineNum == i + 1 by {
            assert h[k] == hi[k];
          }
        } else {
          assert 0 <= |hi| < |h| && h[|hi|].lineNum == i + 1 by {
            assert i == |init| && lines[i] == line && tail != [];
            assert h[|hi|] == tail[0];
          }
        }
      }
    }
  }

  /** Whether the search opens a candidate: a regular file, not binary by suffix, readable. */
  predicate Searched(c: Candidate) {
    c.kind == IsFile && Suffix(BaseName(c.path)) !in BinarySuffixes && c.text.Some?
  }

  /** What the search reports for one candidate: its hits, if it is opened and has any. */
  function Report(c: Candidate, needle: string, caseSensitive: bool): (r: Option<FileHits>)
    ensures r.Some? ==> Searched(c) && r.value.file == c.path && r.value.hits != []
    ensures r.Some? ==> r.value.hits == Hits(FileLines(c.text.value), Matcher(needle, caseSensitive))
    ensures r.None? ==> !Searched(c) || Hits(FileLines(c.text.value), Matcher(needle, caseSensitive)) == []
  {
    if !Searched(c) then None
    else
      var hits := Hits(FileLines(c.text.value), Matcher(needle, caseSensitive));
      if hits == [] then None else Some(FileHits(c.path, hits))
  }

  /** A file with a binary suffix is never reported. */
  lemma BinaryNeverReported(c: Candidate, needle: string, caseSensitive: bool)
    requires Suffix(BaseName(c.path)) in BinarySuffixes
    ensures Report(c, needle, caseSensitive) == None
  {
  }

  function Reporter(needle: string, caseSensitive: bool): Candidate -> Option<FileHits> {
    c => Report(c, needle, caseSensitive)
  }

  function Reported(r: Option<FileHits>): seq<FileHits> {
    if r.Some? then [r.value] else []
  }

  /** The reports of the candidates with hits, in the order they were found. */
  function Results(cands: seq<Candidate>, report: Candidate -> Option<FileHits>): seq<FileHits>
    decreases |cands|
  {
    if cands == [] then []
    else Results(cands[..|cands| - 1], report) + Reported(report(cands[|cands| - 1]))
  }

  /** Every result is the report of a candidate. */
  ghost predicate EachReported(cands: seq<Candidate>, report: Candidate -> Option<FileHits>, rs: seq<FileHits>) {
    forall k :: 0 <= k < |rs| ==> exists j :: 0 <= j < |cands| && report(cands[j]) == Some(rs[k])
  }

  ghost predicate AllReported(cands: seq<Candidate>, report: Candidate -> Option<FileHits>, rs: seq<FileHits>) {
    forall j :: 0 <= j < |cands| && report(cands[j]).Some? ==> report(cands[j]).value in rs
  }

  lemma {:induction false} ResultsSound(cands: seq<Candidate>, report: Candidate -> Option<FileHits>)
    ensures EachReported(cands, report, Results(cands, report))
    decreases |cands|
  {
    if cands != [] {
      var init := cands[..|cands| - 1];
      var c := cands[|cands| - 1];
      ResultsSound(init, report);
      var ri := Results(init, report);
      var tail := Reported(report(c));
      var rs := ri + tail;
      assert rs == Results(cands, report);
      forall k | 0 <= k < |rs|
        ensures exists j :: 0 <= j < |cands| && report(cands[j]) == Some(rs[k])
      {
        if k < |ri| {
          assert rs[k] == ri[k];
          var j :| 0 <= j < |init| && report(init[j]) == Some(ri[k]);
          assert cands[j] == init[j];
        } else {
          assert rs[k] == tail[0];
          assert cands[|init|] == c;
        }
      }
    }
  }

  /** Every candidate with a report is among the results. */
  lemma {:induction false} ResultsComplete(cands: seq<Candidate>, report: Candidate -> Option<FileHits>)
    ensures AllReported(cands, report, Results(cands, report))
    decreases |cands|
  {
    if cands != [] {
      var init := cands[..|cands| - 1];
      var c := cands[|cands| - 1];
      ResultsComplete(init, report);
      var ri := Results(init, report);
      var tail := Reported(report(c));
      var rs := ri + tail;
      assert rs == Results(cands, report);
      forall j | 0 <= j < |cands| && report(cands[j]).Some?
        ensures report(cands[j]).value in rs
      {
        if j < |init| {
          assert cands[j] == init[j];
        } else {
          assert cands[j] == c;
          assert rs[|ri|] == tail[0];
        }
      }
    }
  }

  /** The sum of the hit counts, as the report's total states it. */
  function TotalHits(rs: seq<FileHits>): nat
    decreases |rs|
  {
    if rs == [] then 0 else TotalHits(rs[..|rs| - 1]) + |rs[|rs| - 1].hits|
  }

  /** The loop that writes the report accumulates exactly the total. */
  method ReportTotal(rs: seq<FileHits>) returns (total: nat)
    ensures total == TotalHits(rs)
  {
    total := 0;
    var i := 0;
    while i < |rs|
      invariant 0 <= i <= |rs|
      invariant total == TotalHits(rs[..i])
    {
      assert rs[..i + 1][..i] == rs[..i];
      total := total + |rs[i].hits|;
      i := i + 1;
    }
    assert rs[..i] == rs;
  }

  /**
   `relative_to(base)`: the path below the base, `.` for the base itself, and
   nothing for a path outside it, where `relative_to` raises `ValueError`.
   */
  function RelativeTo(p: string, base: string): (r: Option<string>)
    ensures r.Some? <==> IsSafePath(Some(p), base)
    ensures r == Some(".") <== p == base
    ensures p != base && r.Some? ==> p == DirPrefix(base) + r.value
  {
    if p == base then Some(".")
    else if StartsWith(p, DirPrefix(base)) then Some(p[|DirPrefix(base)|..])
    else None
  }

  /** A reported file has a name below the base. */
  predicate Named(f: FileHits, base: string) {
    RelativeTo(f.file, base).Some?
  }

  /** Position `k` holds the first reported file without a name below the base. */
  predicate FirstUnnamed(rs: seq<FileHits>, base: string, k: int) {
    0 <= k < |rs| && !Named(rs[k], base) && forall j :: 0 <= j < k ==> Named(rs[j], base)
  }

  /** A failed search reports the first result without a name below the base. */
  predicate FailsAtFirstUnnamed(r: SearchReply, rs: seq<FileHits>, base: string) {
    r.SearchFailed? ==> exists k :: 0 <= k < |rs| && FirstUnnamed(rs, base, k) && r.text == NotInSubpath(rs[k].file, base)
  }

  /** Successful results are the reports, in order, each named below the base. */
  predicate ResultsNamed(r: SearchReply, rs: seq<FileHits>, base: string) {
    r.SearchResults? ==> |r.results| == |rs| && forall k :: 0 <= k < |rs| ==>
      Named(rs[k], base) && r.results[k] == FileHits(RelativeTo(rs[k].file, base).value, rs[k].hits)
  }

  /** The handler's reply to that `ValueError`: `错误：` and the message naming both paths. */
  function NotInSubpath(p: string, base: string): string {
    "错误：'" + p + "' is not in the subpath of '" + base + "'"
  }

  /**
   The results with each file named relative to the base, as they are
   collected; the first file outside the base raises instead.
   */
  function Relativize(rs: seq<FileHits>, base: string): (r: Result<seq<FileHits>, string>)
    ensures r.Success? <==> forall k :: 0 <= k < |rs| ==> Named(rs[k], base)
    ensures r.Success? ==> |r.value| == |rs| && forall k :: 0 <= k < |rs| ==>
      r.value[k] == FileHits(RelativeTo(rs[k].file, base).value, rs[k].hits)
    ensures r.Failure? ==> exists k :: FirstUnnamed(rs, base, k) && rs[k].file == r.error
    decreases |rs|
  {
    if rs == [] then Success([])
    else match RelativeTo(rs[0].file, base)
      case None => Failure(rs[0].file)
      case Some(name) =>
        match Relativize(rs[1..], base)
        case Failure(p) =>
          assert forall k :: 0 < k < |rs| ==> rs[k] == rs[1..][k - 1];
          var k :| FirstUnnamed(rs[1..], base, k) && rs[1..][k].file == p;
          assert FirstUnnamed(rs, base, k + 1);
          Failure(p)
        case Success(named) =>
          assert forall k :: 0 < k < |rs| ==> rs[k] == rs[1..][k - 1];
          Success([FileHits(name, rs[0].hits)] + named)
  }

  /**
   `_search_content`: the target file alone, or what `rglob(file_pattern)`
   yields below the target directory (`found`, full paths).
   */
  function SearchContent(g: Guard, keyword: string, caseSensitive: bool, resolved: Option<string>, base: string,
                         fs: FileSystem, found: seq<Candidate>): (r: SearchReply)
    ensures Locate(g, resolved, base, fs).Refused? ==> r == SearchRefused(Locate(g, resolved, base, fs).why)
    ensures r.NothingFound? ==> r.needle == Needle(keyword, caseSensitive)
    ensures r.SearchResults? ==> r.results != [] && r.total == TotalHits(r.results)
    ensures Locate(g, resolved, base, fs).Present? ==>
      var cands := SearchCandidates(resolved.value, fs[resolved.value], found);
      var report := Reporter(Needle(keyword, caseSensitive), caseSensitive);
      var rs := Results(cands, report);
      && !r.SearchRefused?
      && (r.NothingFound? <==> forall j :: 0 <= j < |cands| ==> report(cands[j]) == None)
      && (r.SearchFailed? <==> exists j :: 0 <= j < |cands| && report(cands[j]).Some? && RelativeTo(cands[j].path, base).None?)
      && FailsAtFirstUnnamed(r, rs, base)
      && EachReported(cands, report, rs) && AllReported(cands, report, rs)
      && ResultsNamed(r, rs, base)
  {
    match Locate(g, resolved, base, fs)
    case Refused(why) => SearchRefused(why)
    case Present(path, item) =>
      assert path == resolved.value && item == fs[path];
      var needle := Needle(keyword, caseSensitive);
      var cands := SearchCandidates(path, item, found);
      ReporterKeepsPath(needle, caseSensitive, cands);
      Outcome(cands, Reporter(needle, caseSensitive), base, needle)
  }

  /**
   The reply once the candidates are searched: nothing found without results,
   the naming error at the first result outside the base, or the results
   named below the base with their total.
   */
  function Outcome(cands: seq<Candidate>, report: Candidate -> Option<FileHits>, base: string, needle: string)
    : (r: SearchReply)
    requires KeepsPath(report, cands)
    ensures var rs := Results(cands, report);
      && !r.SearchRefused?
      && (r.NothingFound? ==> r.needle == needle)
      && (r.SearchResults? ==> r.results != [] && r.total == TotalHits(r.results))
      && (r.NothingFound? <==> forall j :: 0 <= j < |cands| ==> report(cands[j]) == None)
      && (r.SearchFailed? <==> exists j :: 0 <= j < |cands| && report(cands[j]).Some? && RelativeTo(cands[j].path, base).None?)
      && FailsAtFirstUnnamed(r, rs, base)
      && EachReported(cands, report, rs) && AllReported(cands, report, rs)
      && ResultsNamed(r, rs, base)
  {
    var results := Results(cands, report);
    ResultsSound(cands, report);
    ResultsComplete(cands, report);
    UnnamedAmong(cands, report, base, results);
    assert results != [] ==> exists j :: 0 <= j < |cands| && report(cands[j]) == Some(results[0]);
    if results == [] then NothingFound(needle)
    else match Relativize(results, base)
      case Failure(p) => SearchFailed(NotInSubpath(p, base))
      case Success(named) => SearchResults(named, TotalHits(named))
  }

  /** What a search opens: the target file alone, or what the glob found below the target directory. */
  function SearchCandidates(path: string, item: Item, found: seq<Candidate>): (cs: seq<Candidate>)
    ensures item.FileItem? ==> cs == [Candidate(path, IsFile, item.text)]
    ensures item.DirItem? ==> cs == found
  {
    if item.FileItem? then [Candidate(path, IsFile, item.text)] else found
  }

  /** The search's reports keep the candidate's path as the file's name. */
  predicate KeepsPath(report: Candidate -> Option<FileHits>, cands: seq<Candidate>) {
    forall j :: 0 <= j < |cands| && report(cands[j]).Some? ==> report(cands[j]).value.file == cands[j].path
  }

  lemma ReporterKeepsPath(needle: string, caseSensitive: bool, cands: seq<Candidate>)
    ensures KeepsPath(Reporter(needle, caseSensitive), cands)
  {
  }

  /** Some result lacks a name below the base iff some candidate with a report does. */
  lemma UnnamedAmong(cands: seq<Candidate>, report: Candidate -> Option<FileHits>, base: string, rs: seq<FileHits>)
    requires KeepsPath(report, cands) && EachReported(cands, report, rs) && AllReported(cands, report, rs)
    ensures (exists k :: 0 <= k < |rs| && !Named(rs[k], base))
        <==> exists j :: 0 <= j < |cands| && report(cands[j]).Some? && RelativeTo(cands[j].path, base).None?
  {
    if exists k :: 0 <= k < |rs| && !Named(rs[k], base) {
      var k :| 0 <= k < |rs| && !Named(rs[k], base);
      UnnamedResultHasCandidate(cands, report, base, rs, k);
    }
    if exists j :: 0 <= j < |cands| && report(cands[j]).Some? && RelativeTo(cands[j].path, base).None? {
      var j :| 0 <= j < |cands| && report(cands[j]).Some? && RelativeTo(cands[j].path, base).None?;
      UnnamedCandidateHasResult(cands, report, base, rs, j);
    }
  }

  /** A result without a name below the base comes from a candidate whose path has none. */
  lemma UnnamedResultHasCandidate(cands: seq<Candidate>, report: Candidate -> Option<FileHits>, base: string,
                                  rs: seq<FileHits>, k: int)
    requires KeepsPath(report, cands) && EachReported(cands, report, rs)
    requires 0 <= k < |rs| && !Named(rs[k], base)
    ensures exists j :: 0 <= j < |cands| && report(cands[j]).Some? && RelativeTo(cands[j].path, base).None?
  {
    var j :| 0 <= j < |cands| && report(cands[j]) == Some(rs[k]);
    assert rs[k].file == cands[j].path;
  }

  /** A reported candidate whose path has no name below the base leaves an unnamed result. */
  lemma UnnamedCandidateHasResult(cands: seq<Candidate>, report: Candidate -> Option<FileHits>, base: string,
                                  rs: seq<FileHits>, j: int)
    requires KeepsPath(report, cands) && AllReported(cands, report, rs)
    requires 0 <= j < |cands| && report(cands[j]).Some? && RelativeTo(cands[j].path, base).None?
    ensures exists k :: 0 <= k < |rs| && !Named(rs[k], base)
  {
    assert report(cands[j]).value in rs;
    var k :| 0 <= k < |rs| && rs[k] == report(cands[j]).value;
    assert rs[k].file == cands[j].path;
  }

  /** A case-insensitive search gives the same answer for the keyword in any case. */
  lemma SearchIgnoresKeywordCase(g: Guard, keyword: string, resolved: Option<string>, base: string, fs: FileSystem,
                                 found: seq<Candidate>)
    ensures SearchContent(g, Lower(keyword), false, resolved, base, fs, found)
      == SearchContent(g, keyword, false, resolved, base, fs, found)
  {
    LowerIdempotent(keyword);
  }

  /**
   Searching a single file reports its matching lines under its name below
   the base, or that nothing was found; a matching file outside the base
   fails on its name.
   */
  lemma SearchOneFile(g: Guard, keyword: string, caseSensitive: bool, path: string, base: string, fs: FileSystem,
                      found: seq<Candidate>)
    requires Admits(g, Some(path), base) && path in fs && fs[path].FileItem?
    ensures var needle := Needle(keyword, caseSensitive);
      var rep := Report(Candidate(path, IsFile, fs[path].text), needle, caseSensitive);
      SearchContent(g, keyword, caseSensitive, Some(path), base, fs, found)
        == if rep.None? then NothingFound(needle)
           else if RelativeTo(path, base).None? then SearchFailed(NotInSubpath(path, base))
           else SearchResults([FileHits(RelativeTo(path, base).value, rep.value.hits)], |rep.value.hits|)
  {
    var c := Candidate(path, IsFile, fs[path].text);
    var needle := Needle(keyword, caseSensitive);
    var report := Reporter(needle, caseSensitive);
    var rep := Report(c, needle, caseSensitive);
    var r := SearchContent(g, keyword, caseSensitive, Some(path), base, fs, found);
    assert Locate(g, Some(path), base, fs) == Present(path, fs[path]);
    assert SearchCandidates(path, fs[path], found) == [c];
    assert report(c) == rep;
    ResultsOfOne(c, report);
    if rep.Some? {
      var rs := Results([c], report);
      assert rs == [rep.value] && rs[0].file == path;
      if RelativeTo(path, base).None? {
        assert r.SearchFailed?;
        var k :| 0 <= k < |rs| && FirstUnnamed(rs, base, k) && r.text == NotInSubpath(rs[k].file, base);
        assert k == 0;
      } else {
        var named := FileHits(RelativeTo(path, base).value, rep.value.hits);
        assert r.SearchResults?;
        assert r.results == [named];
        TotalOfOne(named);
      }
    }
  }

  /** Under the intended guard a file target is always named below the base, so its search never fails. */
  lemma IntendedSearchOfFileNeverFails(keyword: string, caseSensitive: bool, path: string, base: string, fs: FileSystem,
                                       found: seq<Candidate>)
    requires Admits(Intended, Some(path), base) && path in fs && fs[path].FileItem?
    ensures !SearchContent(Intended, keyword, caseSensitive, Some(path), base, fs, found).SearchFailed?
  {
    SearchOneFile(Intended, keyword, caseSensitive, path, base, fs, found);
  }

  lemma ResultsOfOne(c: Candidate, report: Candidate -> Option<FileHits>)
    ensures Results([c], report) == Reported(report(c))
  {
    assert [c][..0] == [];
  }

  lemma TotalOfOne(f: FileHits)
    ensures TotalHits([f]) == |f.hits|
  {
    assert [f][..0] == [];
  }

  /** The most matches shown per file and the most characters shown per match. */
  const MaxShownHits: nat := 5
  const MaxShownChars: nat := 100

  /** How a file's hits are reported: the count, the first hits cut short, and how many more there are. */
  datatype FileSummary = FileSummary(file: string, count: nat, shown: seq<Hit>, more: Option<nat>)

  function Summarize(f: FileHits): (s: FileSummary)
    ensures s.file == f.file && s.count == |f.hits|
    ensures |s.shown| <= MaxShownHits
    ensures s.more.Some? <==> |f.hits| > MaxShownHits
    ensures |s.shown| + (if s.more.Some? then s.more.value else 0) == s.count
    ensures forall i :: 0 <= i < |s.shown| ==>
      s.shown[i].lineNum == f.hits[i].lineNum && s.shown[i].content == SliceTo(f.hits[i].content, MaxShownChars)
  {
    var first := SliceTo(f.hits, MaxShownHits);
    FileSummary(
      f.file, |f.hits|,
      seq(|first|, i requires 0 <= i < |first| => Hit(first[i].lineNum, SliceTo(first[i].content, MaxShownChars))),
      if |f.hits| > MaxShownHits then Some(|f.hits| - MaxShownHits) else None)
  }

  // ---------------------------------------------------------------------
  // Resources
  // ---------------------------------------------------------------------

  datatype ResourceBody =
    | ResourceDenied
    | ResourceUnreadable
    | ResourceText(text: string)
    | ProjectTree(lines: seq<string>)
    | UnknownResource(uri: string)

  datatype Resource = Resource(mime: string, body: ResourceBody)

  /** The depth of the published tree. */
  const TreeDepth: int := 3

  /** A `file:///<name>` resource: `resolved` is where the name leads under the base. */
  function FileResource(g: Guard, filename: string, resolved: Option<string>, base: string, fs: FileSystem): (r: Resource)
    ensures !Admits(g, resolved, base) ==> r == Resource("text/plain", ResourceDenied)
    ensures r.body.ResourceText? ==>
      (&& Admits(g, resolved, base) && resolved.value in fs && fs[resolved.value].FileItem?
       && fs[resolved.value].text == Some(r.body.text) && r.mime == MimeType(filename))
    ensures r.body.ResourceDenied? || r.body.ResourceText? || r == Resource("text/plain", ResourceUnreadable)
    ensures Admits(g, resolved, base) && resolved.value in fs && fs[resolved.value].FileItem? && fs[resolved.value].text.Some? ==>
      r == Resource(MimeType(filename), ResourceText(fs[resolved.value].text.value))
    ensures Admits(g, resolved, base) && !(resolved.value in fs && fs[resolved.value].FileItem? && fs[resolved.value].text.Some?) ==>
      r == Resource("text/plain", ResourceUnreadable)
  {
    if !Admits(g, resolved, base) then Resource("text/plain", ResourceDenied)
    else if resolved.value in fs && fs[resolved.value].FileItem? && fs[resolved.value].text.Some? then
      Resource(MimeType(filename), ResourceText(fs[resolved.value].text.value))
    else Resource("text/plain", ResourceUnreadable)
  }

  /**
   `handle_read_resource`: a file below the base by name, the project tree
   drawn from the base directory's `entries`, or an unknown-URI error.
   */
  function ReadResource(g: Guard, uri: string, resolved: Option<string>, base: string, fs: FileSystem,
                        entries: seq<Node>, size: nat -> string): (r: Resource)
    ensures StartsWith(uri, "file:///") ==> r == FileResource(g, uri[8..], resolved, base, fs)
    ensures uri == "tree:///" ==> r == Resource("text/plain", ProjectTree(TreeLines(DirNode("", entries), "", TreeDepth, 0, size)))
    ensures !StartsWith(uri, "file:///") && uri != "tree:///" ==> r == Resource("text/plain", UnknownResource(uri))
  {
    if StartsWith(uri, "file:///") then
      assert uri[0] == 'f';
      FileResource(g, uri[8..], resolved, base, fs)
    else if uri == "tree:///" then
      Resource("text/plain", ProjectTree(TreeLines(DirNode("", entries), "", TreeDepth, 0, size)))
    else Resource("text/plain", UnknownResource(uri))
  }

  /**
   Each URI scheme reaches its own handler: only `file:///` URIs read a file
   (and only they can be refused), only `tree:///` draws the tree, and the
   unknown-URI reply comes exactly for the other URIs, quoting them.
   */
  lemma ResourceSchemesAreDisjoint(g: Guard, uri: string, resolved: Option<string>, base: string, fs: FileSystem,
                                   entries: seq<Node>, size: nat -> string)
    ensures var r := ReadResource(g, uri, resolved, base, fs, entries, size);
      && (r.body.ResourceText? || r.body.ResourceDenied? || r.body.ResourceUnreadable? <==> StartsWith(uri, "file:///"))
      && (r.body.ProjectTree? <==> uri == "tree:///")
      && (r.body.UnknownResource? <==> !StartsWith(uri, "file:///") && uri != "tree:///")
      && (r.body.UnknownResource? ==> r.body.uri == uri)
      && (r.mime != "text/plain" ==> r.body.ResourceText?)
  {
    assert "tree:///"[0] != "file:///"[0];
  }

  // ---------------------------------------------------------------------
  // Tool dispatch
  // ---------------------------------------------------------------------

  datatype ToolCall =
    | ListCall(path: Value, pattern: Value, recursive: Value)
    | ReadCall(path: Value, encoding: Value, maxLines: Value)
    | InfoCall(path: Value)
    | SearchCall(keyword: Value, path: Value, filePattern: Value, caseSensitive: Value)
    | ToolFailed
    | UnknownTool(name: string)

  /**
   `handle_call_tool`'s branch selection with each tool's defaults; a
   missing required argument raises, which the handler reports as a failure.
   */
  function RouteCall(name: string, args: Metadata): (r: ToolCall)
    ensures name == "list_files" ==> r == ListCall(GetOr(args, "path", Str(".")), GetOr(args, "pattern", Str("*")),
                                                  GetOr(args, "recursive", Flag(false)))
    ensures name == "read_file" ==> r == (if "path" in args
      then ReadCall(args["path"], GetOr(args, "encoding", Str("utf-8")), GetOr(args, "max_lines", Int(-1)))
      else ToolFailed)
    ensures name == "file_info" ==> r == (if "path" in args then InfoCall(args["path"]) else ToolFailed)
    ensures name == "search_content" ==> r == (if "keyword" in args
      then SearchCall(args["keyword"], GetOr(args, "path", Str(".")), GetOr(args, "file_pattern", Str("*")),
                      GetOr(args, "case_sensitive", Flag(false)))
      else ToolFailed)
    ensures r.UnknownTool? <==> name !in {"list_files", "read_file", "file_info", "search_content"}
    ensures r.UnknownTool? ==> r.name == name
  {
    if name == "list_files" then
      ListCall(GetOr(args, "path", Str(".")), GetOr(args, "pattern", Str("*")), GetOr(args, "recursive", Flag(false)))
    else if name == "read_file" then
      if "path" in args
      then ReadCall(args["path"], GetOr(args, "encoding", Str("utf-8")), GetOr(args, "max_lines", Int(-1)))
      else ToolFailed
    else if name == "file_info" then
      if "path" in args then InfoCall(args["path"]) else ToolFailed
    else if name == "search_content" then
      if "keyword" in args
      then SearchCall(args["keyword"], GetOr(args, "path", Str(".")), GetOr(args, "file_pattern", Str("*")),
                      GetOr(args, "case_sensitive", Flag(false)))
      else ToolFailed
    else UnknownTool(name)
  }

  /**
   A tool's call is built only for its own name and only when its required
   argument is there; a missing one is the failure, and nothing else is.
   */
  lemma RouteNeedsRequiredArguments(name: string, args: Metadata)
    ensures var r := RouteCall(name, args);
      && (r.ListCall? <==> name == "list_files")
      && (r.ReadCall? <==> name == "read_file" && "path" in args)
      && (r.InfoCall? <==> name == "file_info" && "path" in args)
      && (r.SearchCall? <==> name == "search_content" && "keyword" in args)
      && (r.ToolFailed? <==>
            || (name in {"read_file", "file_info"} && "path" !in args)
            || (name == "search_content" && "keyword" !in args))
  {
  }

  /** The reply to an unknown tool, naming it. */
  function UnknownToolText(name: string): (r: string)
    ensures StartsWith(r, "错误：未知的工具 - ") && r[|"错误：未知的工具 - "|..] == name
  {
    "错误：未知的工具 - " + name
  }

  /** Under either guard, every tool refuses a path the guard rejects before it looks at what is there. */
  lemma GuardComesFirst(g: Guard, resolved: Option<string>, base: string, fs: FileSystem, fs2: FileSystem,
                        matched: seq<Entry>, maxLines: int, keyword: string, caseSensitive: bool,
                        found: seq<Candidate>, filename: string)
    requires resolved.Some? && !Admits(g, resolved, base)
    ensures ListFiles(g, resolved, base, fs, matched) == ListRefused(Denied) == ListFiles(g, resolved, base, fs2, matched)
    ensures ReadFile(g, resolved, base, fs, maxLines) == ReadRefused(Denied) == ReadFile(g, resolved, base, fs2, maxLines)
    ensures FileInfo(g, resolved, base, fs) == InfoRefused(Denied) == FileInfo(g, resolved, base, fs2)
    ensures SearchContent(g, keyword, caseSensitive, resolved, base, fs, found) == SearchRefused(Denied)
      == SearchContent(g, keyword, caseSensitive, resolved, base, fs2, found)
    ensures FileResource(g, filename, resolved, base, fs) == Resource("text/plain", ResourceDenied)
      == FileResource(g, filename, resolved, base, fs2)
  {
  }

  /**
   Searching a sibling file that holds the keyword: the guard as written lets
   the search open `/srv/data-old/secret.txt`, and `relative_to` then raises,
   so the reply is the error; the intended guard refuses the path.
   */
  lemma SiblingSearchFails()
    ensures var base := "/srv/data";
      var file := "/srv/data-old/secret.txt";
      var fs := map[file := FileItem(6, Some("secret"))];
      && SearchContent(AsWritten, "secret", true, Some(file), base, fs, []) == SearchFailed(NotInSubpath(file, base))
      && SearchContent(Intended, "secret", true, Some(file), base, fs, []) == SearchRefused(Denied)
  {
    var base := "/srv/data";
    var file := "/srv/data-old/secret.txt";
    var fs := map[file := FileItem(6, Some("secret"))];
    SiblingExample();
    SecretReported(file, "secret");
    OutsideFileSearchFails(AsWritten, "secret", true, file, base, fs, []);
    assert Locate(Intended, Some(file), base, fs) == Refused(Denied);
  }

  /** A file the guard lets through from outside the base, holding the keyword, fails the search on its name. */
  lemma OutsideFileSearchFails(g: Guard, keyword: string, caseSensitive: bool, path: string, base: string,
                               fs: FileSystem, found: seq<Candidate>)
    requires Admits(g, Some(path), base) && !IsSafePath(Some(path), base) && path in fs && fs[path].FileItem?
    requires Report(Candidate(path, IsFile, fs[path].text), Needle(keyword, caseSensitive), caseSensitive).Some?
    ensures SearchContent(g, keyword, caseSensitive, Some(path), base, fs, found) == SearchFailed(NotInSubpath(path, base))
  {
    SearchOneFile(g, keyword, caseSensitive, path, base, fs, found);
  }

  lemma SecretReported(path: string, t: string)
    requires path == "/srv/data-old/secret.txt" && t == "secret"
    ensures Report(Candidate(path, IsFile, Some(t)), t, true).Some?
  {
    SecretIsSearched();
    NoBreakInSecret(t);
    SingleLineReported(path, t);
  }

  lemma SecretIsSearched()
    ensures Suffix(BaseName("/srv/data-old/secret.txt")) !in BinarySuffixes
  {
    LastIndexOfAt("/srv/data-old/secret.txt", '/', 13);
    assert BaseName("/srv/data-old/secret.txt") == "secret.txt";
    LastIndexOfAt("secret.txt", '.', 6);
    assert Suffix("secret.txt") == ".txt";
  }

  lemma NoBreakInSecret(t: string)
    requires t == "secret"
    ensures t != [] && forall j :: 0 <= j < |t| ==> t[j] != '\n'
  {
  }

  /** A searched file whose text is one line reports that line for the line itself as keyword. */
  lemma SingleLineReported(path: string, t: string)
    requires Suffix(BaseName(path)) !in BinarySuffixes
    requires t != [] && forall j :: 0 <= j < |t| ==> t[j] != '\n'
    ensures Report(Candidate(path, IsFile, Some(t)), t, true).Some?
  {
    SingleLineHit(t);
  }

  /** A non-empty text without a line break is one line, and it matches itself. */
  lemma SingleLineHit(t: string)
    requires t != [] && forall j :: 0 <= j < |t| ==> t[j] != '\n'
    ensures FileLines(t) == [t]
    ensures Hits(FileLines(t), Matcher(t, true)) != []
  {
    assert !Contains(t, "\n") by {
      forall j | 0 <= j <= |t| - 1
        ensures !OccursAt(t, "\n", j)
      {
        assert t[j..j + 1][0] == t[j];
      }
    }
    assert Split(t, "\n") == [t];
    assert Contains(t, t) by { assert OccursAt(t, t, 0); }
    var none: seq<string> := [];
    assert [t][..0] == none;
    assert HitOf(t, 1, Matcher(t, true)) != [];
  }

  /**
   The program serves a sibling of its base directory: with base `/srv/data`,
   `read_file`, `list_files` and the `file:///` resource all reach
   `/srv/data-old`, which the intended guard keeps out.
   */
  lemma ProgramServesSibling(size: nat, text: string)
    requires size <= MaxReadSize
    ensures var base := "/srv/data";
      var file := "/srv/data-old/secret.txt";
      var fs := map[file := FileItem(size, Some(text)), "/srv/data-old" := DirItem([IsFile])];
      && ReadFile(AsWritten, Some(file), base, fs, 0) == FileText(text)
      && ReadFile(Intended, Some(file), base, fs, 0) == ReadRefused(Denied)
      && FileResource(AsWritten, "../data-old/secret.txt", Some(file), base, fs).body == ResourceText(text)
      && FileResource(Intended, "../data-old/secret.txt", Some(file), base, fs).body == ResourceDenied
      && ListFiles(AsWritten, Some("/srv/data-old"), base, fs, [Entry("secret.txt", IsFile)]).Listed?
      && ListFiles(Intended, Some("/srv/data-old"), base, fs, [Entry("secret.txt", IsFile)]) == ListRefused(Denied)
  {
    SiblingExample();
    AsWrittenAdmitsSiblings("/srv/data", "/srv/data-old");
  }
}

=== FILE: file_tree.dfy ===
/**
 The directory tree the file-manager server publishes as its `tree:///`
 resource (`_generate_tree`): entries sorted directories first and then by
 name, drawn with box-drawing markers, nested up to a maximum depth. The
 tree is returned as its lines; the resource text is each line followed by
 a line break.
 */
module FileTree {
  import opened Ranking

  /** A directory entry: a file with its size in bytes, or a directory with its entries. */
  datatype Node = FileNode(name: string, size: nat) | DirNode(name: string, children: seq<Node>)

  /** The sort key `(not item.is_dir(), item.name)`: directories before files, then by name. */
  predicate NodeLe(a: Node, b: Node) {
    (a.DirNode? && b.FileNode?) || (a.DirNode? == b.DirNode? && StrLe(a.name, b.name))
  }

  lemma NodeLeTotalPreorder()
    ensures TotalPreorder(NodeLe)
  {
    forall a: Node, b: Node
      ensures NodeLe(a, b) || NodeLe(b, a)
    {
      StrLeTotal(a.name, b.name);
    }
    forall a: Node, b: Node, c: Node | NodeLe(a, b) && NodeLe(b, c)
      ensures NodeLe(a, c)
    {
      if a.DirNode? == b.DirNode? && b.DirNode? == c.DirNode? {
        StrLeTransitive(a.name, b.name, c.name);
      }
    }
  }

  /** The entries of directory `d` in display order. */
  function Listing(d: Node): (r: seq<Node>)
    requires d.DirNode?
    ensures multiset(r) == multiset(d.children)
    ensures |r| == |d.children| && forall x :: x in r ==> x in d.children
    ensures forall i, j :: 0 <= i < j < |r| ==> (r[i].FileNode? ==> r[j].FileNode?)
    ensures forall i, j :: 0 <= i < j < |r| && r[i].DirNode? == r[j].DirNode? ==> StrLe(r[i].name, r[j].name)
  {
    NodeLeTotalPreorder();
    var r := Sort(d.children, NodeLe);
    assert |r| == |multiset(r)| == |multiset(d.children)| == |d.children|;
    assert forall x :: x in r ==> x in multiset(d.children);
    r
  }

  /** The branch drawn in front of an entry; the last entry of a directory closes it. */
  function Marker(last: bool): string {
    if last then "└── " else "├── "
  }

  /** What the lines below an entry are indented with. */
  function Indent(last: bool): string {
    if last then "    " else "│   "
  }

  /** An entry's text; `size` renders a file size (`_format_size`). */
  function Label(n: Node, size: nat -> string): string {
    match n
    case DirNode(name, _) => "📁 " + name + "/"
    case FileNode(name, bytes) => "📄 " + name + " (" + size(bytes) + ")"
  }

  /** `_generate_tree(d, prefix, maxDepth, depth)` as its lines. */
  function TreeLines(d: Node, prefix: string, maxDepth: int, depth: int, size: nat -> string): seq<string>
    requires d.DirNode?
    decreases d, 1
  {
    if depth >= maxDepth then [prefix + "..."]
    else EntryLines(d, Listing(d), 0, prefix, maxDepth, depth, size)
  }

  /** The lines drawn for `items[i..]`, the sorted entries of `d`. */
  function EntryLines(d: Node, items: seq<Node>, i: nat, prefix: string, maxDepth: int, depth: int,
                      size: nat -> string): seq<string>
    requires d.DirNode? && forall x :: x in items ==> x in d.children
    decreases d, 0, |items| - i
  {
    if i >= |items| then []
    else
      var last := i == |items| - 1;
      var item := items[i];
      assert item in d.children;
      var below := if item.DirNode? && depth < maxDepth - 1
        then TreeLines(item, prefix + Indent(last), maxDepth, depth + 1, size)
        else [];
      [prefix + Marker(last) + Label(item, size)] + below
        + EntryLines(d, items, i + 1, prefix, maxDepth, depth, size)
  }

  predicate AllStartWith(lines: seq<string>, prefix: string) {
    forall k :: 0 <= k < |lines| ==> |prefix| <= |lines[k]| && lines[k][..|prefix|] == prefix
  }

  lemma AllStartWithAppend(a: seq<string>, b: seq<string>, prefix: string)
    requires AllStartWith(a, prefix) && AllStartWith(b, prefix)
    ensures AllStartWith(a + b, prefix)
  {
    forall k | 0 <= k < |a + b|
      ensures |prefix| <= |(a + b)[k]| && (a + b)[k][..|prefix|] == prefix
    {
      if k < |a| {
        assert (a + b)[k] == a[k];
      } else {
        assert (a + b)[k] == b[k - |a|];
      }
    }
  }

  lemma StartWithLonger(lines: seq<string>, prefix: string, ext: string)
    requires AllStartWith(lines, prefix + ext)
    ensures AllStartWith(lines, prefix)
  {
    forall k | 0 <= k < |lines|
      ensures |prefix| <= |lines[k]| && lines[k][..|prefix|] == prefix
    {
      assert lines[k][..|prefix|] == lines[k][..|prefix + ext|][..|prefix|];
    }
  }

  /** Every line of a subtree starts with the prefix it was drawn with. */
  lemma {:induction false} TreeLinesUnderPrefix(d: Node, prefix: string, maxDepth: int, depth: int, size: nat -> string)
    requires d.DirNode?
    ensures AllStartWith(TreeLines(d, prefix, maxDepth, depth, size), prefix)
    decreases d, 1
  {
    if depth < maxDepth {
      EntryLinesUnderPrefix(d, Listing(d), 0, prefix, maxDepth, depth, size);
    }
  }

  lemma {:induction false} EntryLinesUnderPrefix(d: Node, items: seq<Node>, i: nat, prefix: string, maxDepth: int,
                                                 depth: int, size: nat -> string)
    requires d.DirNode? && forall x :: x in items ==> x in d.children
    ensures AllStartWith(EntryLines(d, items, i, prefix, maxDepth, depth, size), prefix)
    decreases d, 0, |items| - i
  {
    if i < |items| {
      var last := i == |items| - 1;
      var item := items[i];
      assert item in d.children;
      var head := prefix + Marker(last) + Label(item, size);
      assert head[..|prefix|] == prefix;
      var below := if item.DirNode? && depth < maxDepth - 1
        then TreeLines(item, prefix + Indent(last), maxDepth, depth + 1, size)
        else [];
      if item.DirNode? && depth < maxDepth - 1 {
        TreeLinesUnderPrefix(item, prefix + Indent(last), maxDepth, depth + 1, size);
        StartWithLonger(below, prefix, Indent(last));
      }
      EntryLinesUnderPrefix(d, items, i + 1, prefix, maxDepth, depth, size);
      var rest := EntryLines(d, items, i + 1, prefix, maxDepth, depth, size);
      AllStartWithAppend([head], below, prefix);
      AllStartWithAppend([head] + below, rest, prefix);
    }
  }

  /** The line drawn for the `k`-th entry of a listing, without anything below it. */
  function Row(prefix: string, items: seq<Node>, k: nat, size: nat -> string): string
    requires k < |items|
  {
    prefix + Marker(k == |items| - 1) + Label(items[k], size)
  }

  /** The rows `row(i)`, ..., `row(n - 1)`, one line each. */
  function Rows(n: nat, i: nat, row: nat -> string): (r: seq<string>)
    requires i <= n
    ensures |r| == n - i
    decreases n - i
  {
    if i == n then [] else [row(i)] + Rows(n, i + 1, row)
  }

  lemma {:induction false} RowsAt(n: nat, i: nat, row: nat -> string)
    requires i <= n
    ensures forall k :: 0 <= k < n - i ==> Rows(n, i, row)[k] == row(i + k)
    decreases n - i
  {
    if i < n {
      RowsAt(n, i + 1, row);
      var rest := Rows(n, i + 1, row);
      forall k | 0 <= k < n - i
        ensures Rows(n, i, row)[k] == row(i + k)
      {
        if k > 0 {
          assert Rows(n, i, row)[k] == rest[k - 1];
        }
      }
    }
  }

  /** `Row` as a total function of the position, for `Rows`. */
  function RowOf(prefix: string, items: seq<Node>, size: nat -> string): nat -> string {
    (k: nat) => if k < |items| then Row(prefix, items, k, size) else ""
  }

  /** On the deepest drawn level every entry takes exactly one line, its row. */
  lemma {:induction false} DeepestLevelRows(d: Node, items: seq<Node>, i: nat, prefix: string, maxDepth: int,
                                            depth: int, size: nat -> string)
    requires d.DirNode? && forall x :: x in items ==> x in d.children
    requires depth == maxDepth - 1 && i <= |items|
    ensures EntryLines(d, items, i, prefix, maxDepth, depth, size) == Rows(|items|, i, RowOf(prefix, items, size))
    decreases |items| - i
  {
    if i < |items| {
      DeepestLevelRows(d, items, i + 1, prefix, maxDepth, depth, size);
      DeepestStep(d, items, i, prefix, maxDepth, depth, size);
    }
  }

  /** One entry of the deepest level: its row, then the rows of the entries after it. */
  lemma DeepestStep(d: Node, items: seq<Node>, i: nat, prefix: string, maxDepth: int, depth: int,
                    size: nat -> string)
    requires d.DirNode? && forall x :: x in items ==> x in d.children
    requires depth == maxDepth - 1 && i < |items|
    ensures EntryLines(d, items, i, prefix, maxDepth, depth, size)
      == [Row(prefix, items, i, size)] + EntryLines(d, items, i + 1, prefix, maxDepth, depth, size)
  {
  }

  /**
   On the deepest drawn level every entry takes exactly one line, in listing
   order, and only the last one is drawn with "└── ".
   */
  lemma DeepestLevel(d: Node, prefix: string, maxDepth: int, size: nat -> string)
    requires d.DirNode?
    ensures var r := TreeLines(d, prefix, maxDepth, maxDepth - 1, size);
      var items := Listing(d);
      && |r| == |d.children|
      && forall k :: 0 <= k < |r| ==> r[k] == prefix + Marker(k == |r| - 1) + Label(items[k], size)
  {
    var items := Listing(d);
    DeepestLevelRows(d, items, 0, prefix, maxDepth, maxDepth - 1, size);
    var row := RowOf(prefix, items, size);
    RowsAt(|items|, 0, row);
    var r := Rows(|items|, 0, row);
    assert forall k :: 0 <= k < |r| ==> r[k] == row(k) == Row(prefix, items, k, size);
  }

  /** At or below the maximum depth only an ellipsis is drawn. */
  lemma CutOff(d: Node, prefix: string, maxDepth: int, depth: int, size: nat -> string)
    requires d.DirNode? && depth >= maxDepth
    ensures TreeLines(d, prefix, maxDepth, depth, size) == [prefix + "..."]
  {
  }

  /** No two entries of a directory share a name, as in any real directory. */
  predicate DistinctNames(s: seq<Node>) {
    forall i, j :: 0 <= i < j < |s| ==> s[i].name != s[j].name
  }

  lemma {:induction false} EntryLinesIgnoreOwner(d1: Node, d2: Node, items: seq<Node>, i: nat, prefix: string,
                                                 maxDepth: int, depth: int, size: nat -> string)
    requires d1.DirNode? && forall x :: x in items ==> x in d1.children
    requires d2.DirNode? && forall x :: x in items ==> x in d2.children
    ensures EntryLines(d1, items, i, prefix, maxDepth, depth, size) == EntryLines(d2, items, i, prefix, maxDepth, depth, size)
    decreases |items| - i
  {
    if i < |items| {
      EntryLinesIgnoreOwner(d1, d2, items, i + 1, prefix, maxDepth, depth, size);
    }
  }

  lemma ListingSorted(d: Node)
    requires d.DirNode?
    ensures SortedBy(Listing(d), NodeLe)
  {
    NodeLeTotalPreorder();
  }

  /** `le` orders the listing antisymmetrically when the names are distinct. */
  lemma ListingAntisymmetric(d: Node)
    requires d.DirNode? && DistinctNames(d.children)
    ensures AntisymmetricOn(Listing(d), NodeLe)
  {
    var r := Listing(d);
    forall i, j | 0 <= i < |r| && 0 <= j < |r| && NodeLe(r[i], r[j]) && NodeLe(r[j], r[i])
      ensures r[i] == r[j]
    {
      StrLeAntisymmetric(r[i].name, r[j].name);
      assert r[i] in multiset(d.children) && r[j] in multiset(d.children);
      var p :| 0 <= p < |d.children| && d.children[p] == r[i];
      var q :| 0 <= q < |d.children| && d.children[q] == r[j];
      assert p == q;
    }
  }

  /**
   The tree does not depend on the order the operating system lists a
   directory in: any two listings of the same entries draw the same lines.
   */
  lemma TreeIgnoresListingOrder(d1: Node, d2: Node, prefix: string, maxDepth: int, depth: int, size: nat -> string)
    requires d1.DirNode? && d2.DirNode?
    requires multiset(d1.children) == multiset(d2.children) && DistinctNames(d1.children)
    ensures TreeLines(d1, prefix, maxDepth, depth, size) == TreeLines(d2, prefix, maxDepth, depth, size)
  {
    if depth < maxDepth {
      var l1 := Listing(d1);
      var l2 := Listing(d2);
      ListingAntisymmetric(d1);
      NodeLeTotalPreorder();
      ListingSorted(d1);
      ListingSorted(d2);
      SortedPermutationUnique(l1, l2, NodeLe);
      EntryLinesIgnoreOwner(d1, d2, l1, 0, prefix, maxDepth, depth, size);
    }
  }
}

=== FILE: grouping.dfy ===
/**
 Grouping a sequence of keys in first-seen order, the way the source builds a
 Python dict by `if key not in d: d[key] = []` / `d[key].append(i)` (or
 `d[key] = d.get(key, 0) + 1`) and then walks it in insertion order.
 */
module Grouping {
  import opened Wrappers

  /** One dict entry: a key and the positions (ascending) at which it was seen. */
  datatype Bucket<K> = Bucket(key: K, members: seq<nat>)

  /** The positions at which `k` occurs in `keys`, ascending. */
  function Positions<K(==)>(keys: seq<K>, k: K): seq<nat>
    decreases |keys|
  {
    if |keys| == 0 then []
    else Positions(keys[..|keys| - 1], k) + (if keys[|keys| - 1] == k then [|keys| - 1] else [])
  }

  /** How many times `k` occurs in `keys`. */
  function Count<K(==)>(keys: seq<K>, k: K): nat {
    |Positions(keys, k)|
  }

  ghost predicate Increasing(xs: seq<nat>) {
    forall i, j :: 0 <= i < j < |xs| ==> xs[i] < xs[j]
  }

  /** `Positions(keys, k)` lists, in ascending order, exactly the indices of `keys` holding `k`. */
  lemma {:induction false} PositionsCorrect<K>(keys: seq<K>, k: K)
    ensures Increasing(Positions(keys, k))
    ensures forall j :: 0 <= j < |Positions(keys, k)| ==>
      Positions(keys, k)[j] < |keys| && keys[Positions(keys, k)[j]] == k
    ensures forall i :: 0 <= i < |keys| && keys[i] == k ==> i in Positions(keys, k)
    decreases |keys|
  {
    if |keys| > 0 {
      var n := |keys| - 1;
      var prefix := keys[..n];
      PositionsCorrect(prefix, k);
      assert forall i :: 0 <= i < n ==> keys[i] == prefix[i];
    }
  }

  lemma {:induction false} NoPositionsWhenAbsent<K>(keys: seq<K>, k: K)
    requires forall j :: 0 <= j < |keys| ==> keys[j] != k
    ensures Positions(keys, k) == []
    decreases |keys|
  {
    if |keys| > 0 {
      var prefix := keys[..|keys| - 1];
      assert forall j :: 0 <= j < |prefix| ==> prefix[j] == keys[j];
      NoPositionsWhenAbsent(prefix, k);
    }
  }

  /** The keys of the buckets, in bucket order. */
  function KeysOf<K>(bs: seq<Bucket<K>>): (ks: seq<K>)
    ensures |ks| == |bs|
    ensures forall p :: 0 <= p < |bs| ==> ks[p] == bs[p].key
  {
    seq(|bs|, p requires 0 <= p < |bs| => bs[p].key)
  }

  /** The total number of positions held by the buckets. */
  function TotalSize<K>(bs: seq<Bucket<K>>): nat
    decreases |bs|
  {
    if bs == [] then 0 else TotalSize(bs[..|bs| - 1]) + |bs[|bs| - 1].members|
  }

  /**
   `bs` is the first-seen grouping of `keys`: each bucket holds exactly the
   positions of its key, keys are distinct, every key of `keys` has a bucket,
   and buckets are ordered by the position at which their key first appears.
   */
  ghost predicate IsGrouping<K>(keys: seq<K>, bs: seq<Bucket<K>>) {
    && (forall p :: 0 <= p < |bs| ==> bs[p].members == Positions(keys, bs[p].key) && bs[p].members != [])
    && (forall p, q :: 0 <= p < q < |bs| ==> bs[p].key != bs[q].key)
    && (forall i :: 0 <= i < |keys| ==> keys[i] in KeysOf(bs))
    && (forall p, q :: 0 <= p < q < |bs| ==> bs[p].members[0] < bs[q].members[0])
  }

  /** The index of the bucket holding key `k`, if there is one. */
  function FindKey<K(==)>(bs: seq<Bucket<K>>, k: K): (r: Option<nat>)
    ensures r.Some? ==> r.value < |bs| && bs[r.value].key == k
    ensures r.None? ==> k !in KeysOf(bs)
    decreases |bs|
  {
    if |bs| == 0 then None
    else if bs[|bs| - 1].key == k then Some(|bs| - 1)
    else
      var r := FindKey(bs[..|bs| - 1], k);
      assert KeysOf(bs) == KeysOf(bs[..|bs| - 1]) + [bs[|bs| - 1].key];
      r
  }

  /** Records that key `k` was seen at position `i` (one dict update). */
  function AddTo<K(==)>(bs: seq<Bucket<K>>, k: K, i: nat): seq<Bucket<K>> {
    match FindKey(bs, k)
    case Some(p) => bs[p := bs[p].(members := bs[p].members + [i])]
    case None => bs + [Bucket(k, [i])]
  }

  lemma TotalSizeUpdate<K>(bs: seq<Bucket<K>>, p: nat, b: Bucket<K>)
    requires p < |bs|
    ensures TotalSize(bs[p := b]) == TotalSize(bs) - |bs[p].members| + |b.members|
    decreases |bs|
  {
    var n := |bs| - 1;
    if p < n {
      assert bs[p := b][..n] == bs[..n][p := b];
      TotalSizeUpdate(bs[..n], p, b);
    } else {
      assert bs[p := b][..n] == bs[..n];
    }
  }

  /** Every recorded position is below the length of the keys seen so far. */
  lemma MembersBelow<K>(keys: seq<K>, bs: seq<Bucket<K>>, p: nat)
    requires IsGrouping(keys, bs) && p < |bs|
    ensures bs[p].members[0] < |keys|
  {
    PositionsCorrect(keys, bs[p].key);
  }

  /** Recording the last key of `keys` in the bucket that already holds it. */
  lemma AddExistingKeepsGrouping<K>(keys: seq<K>, bs: seq<Bucket<K>>, p: nat)
    requires |keys| > 0 && IsGrouping(keys[..|keys| - 1], bs)
    requires p < |bs| && bs[p].key == keys[|keys| - 1]
    ensures IsGrouping(keys, bs[p := bs[p].(members := bs[p].members + [|keys| - 1])])
  {
    var i := |keys| - 1;
    var k := keys[i];
    var prefix := keys[..i];
    var r := bs[p := bs[p].(members := bs[p].members + [i])];
    forall q | 0 <= q < |r|
      ensures r[q].members == Positions(keys, r[q].key) && r[q].members != []
    {
      if q != p {
        assert bs[q].key != k;
      }
    }
    assert KeysOf(r) == KeysOf(bs);
    forall j | 0 <= j < |keys|
      ensures keys[j] in KeysOf(r)
    {
      if j < i {
        assert keys[j] == prefix[j];
      } else {
        assert KeysOf(r)[p] == k;
      }
    }
    forall q | 0 <= q < |r|
      ensures r[q].members[0] == bs[q].members[0]
    {
    }
  }

  /** Recording the last key of `keys` in a new bucket, the key being unseen so far. */
  lemma AddNewKeepsGrouping<K>(keys: seq<K>, bs: seq<Bucket<K>>)
    requires |keys| > 0 && IsGrouping(keys[..|keys| - 1], bs)
    requires keys[|keys| - 1] !in KeysOf(bs)
    ensures IsGrouping(keys, bs + [Bucket(keys[|keys| - 1], [|keys| - 1])])
  {
    var i := |keys| - 1;
    var k := keys[i];
    var prefix := keys[..i];
    var r := bs + [Bucket(k, [i])];
    assert forall j :: 0 <= j < |prefix| ==> prefix[j] in KeysOf(bs);
    NoPositionsWhenAbsent(prefix, k);
    forall q | 0 <= q < |r|
      ensures r[q].members == Positions(keys, r[q].key) && r[q].members != []
    {
      if q < |bs| {
        assert KeysOf(bs)[q] == bs[q].key;
      }
    }
    assert KeysOf(r) == KeysOf(bs) + [k];
    forall p, q | 0 <= p < q < |r|
      ensures r[p].key != r[q].key
    {
      if q == |bs| {
        assert KeysOf(bs)[p] == bs[p].key;
      }
    }
    forall j | 0 <= j < |keys|
      ensures keys[j] in KeysOf(r)
    {
      if j < i {
        assert keys[j] == prefix[j];
        assert keys[j] in KeysOf(bs);
      } else {
        assert KeysOf(r)[|bs|] == k;
      }
    }
    forall p | 0 <= p < |bs|
      ensures r[p].members[0] < i
    {
      MembersBelow(prefix, bs, p);
    }
  }

  /** Recording the last key of `keys` turns the grouping of its prefix into the grouping of `keys`. */
  lemma AddLastKeepsGrouping<K>(keys: seq<K>, bs: seq<Bucket<K>>)
    requires |keys| > 0 && IsGrouping(keys[..|keys| - 1], bs)
    ensures IsGrouping(keys, AddTo(bs, keys[|keys| - 1], |keys| - 1))
    ensures TotalSize(AddTo(bs, keys[|keys| - 1], |keys| - 1)) == TotalSize(bs) + 1
  {
    var i := |keys| - 1;
    var k := keys[i];
    match FindKey(bs, k)
    case Some(p) =>
      AddExistingKeepsGrouping(keys, bs, p);
      TotalSizeUpdate(bs, p, bs[p].(members := bs[p].members + [i]));
    case None =>
      AddNewKeepsGrouping(keys, bs);
      assert (bs + [Bucket(k, [i])])[..|bs|] == bs;
  }

  /** Groups `keys` by value, buckets in first-seen order. */
  function GroupBy<K(==)>(keys: seq<K>): (bs: seq<Bucket<K>>)
    ensures IsGrouping(keys, bs)
    ensures TotalSize(bs) == |keys|
    decreases |keys|
  {
    if |keys| == 0 then []
    else
      var bs := GroupBy(keys[..|keys| - 1]);
      AddLastKeepsGrouping(keys, bs);
      AddTo(bs, keys[|keys| - 1], |keys| - 1)
  }

  /** A key has a bucket exactly when it occurs. */
  lemma KeyHasBucket<K>(keys: seq<K>, bs: seq<Bucket<K>>, k: K)
    requires IsGrouping(keys, bs)
    ensures k in KeysOf(bs) <==> k in keys
  {
    if k in KeysOf(bs) {
      var p :| 0 <= p < |bs| && KeysOf(bs)[p] == k;
      PositionsCorrect(keys, k);
      assert keys[bs[p].members[0]] == k;
    }
  }

  /** One update appends the key to the key order when it has no bucket yet. */
  lemma KeysOfAddTo<K>(bs: seq<Bucket<K>>, k: K, i: nat)
    ensures KeysOf(AddTo(bs, k, i)) == KeysOf(bs) + (if k in KeysOf(bs) then [] else [k])
  {
    match FindKey(bs, k)
    case Some(p) =>
      assert KeysOf(bs[p := bs[p].(members := bs[p].members + [i])]) == KeysOf(bs);
    case None =>
      assert KeysOf(bs + [Bucket(k, [i])]) == KeysOf(bs) + [k];
  }

  /** The distinct keys in the order they are first seen, each appended when it first occurs. */
  function FirstSeenKeys<K(==)>(keys: seq<K>): seq<K>
    decreases |keys|
  {
    if keys == [] then []
    else
      var init := keys[..|keys| - 1];
      FirstSeenKeys(init) + (if keys[|keys| - 1] in init then [] else [keys[|keys| - 1]])
  }

  lemma {:induction false} FirstSeenKeysMembers<K>(keys: seq<K>)
    ensures forall x :: x in FirstSeenKeys(keys) <==> x in keys
    decreases |keys|
  {
    if keys != [] {
      var init := keys[..|keys| - 1];
      FirstSeenKeysMembers(init);
      assert keys == init + [keys[|keys| - 1]];
    }
  }

  /** The buckets of the grouping come in the order the keys are first seen. */
  lemma {:induction false} GroupByKeyOrder<K>(keys: seq<K>)
    ensures KeysOf(GroupBy(keys)) == FirstSeenKeys(keys)
    decreases |keys|
  {
    if keys != [] {
      var init := keys[..|keys| - 1];
      var x := keys[|keys| - 1];
      GroupByKeyOrder(init);
      assert GroupBy(keys) == AddTo(GroupBy(init), x, |init|);
      KeysOfAddTo(GroupBy(init), x, |init|);
      KeyHasBucket(init, GroupBy(init), x);
    }
  }

  /** A bucket's first position is the first occurrence of its key. */
  lemma FirstMemberIsFirstOccurrence<K>(keys: seq<K>, bs: seq<Bucket<K>>, p: nat, i: nat)
    requires IsGrouping(keys, bs) && p < |bs|
    requires i < |keys| && keys[i] == bs[p].key
    ensures bs[p].members[0] <= i
  {
    var m := bs[p].members;
    PositionsCorrect(keys, bs[p].key);
    assert i in m;
    var j :| 0 <= j < |m| && m[j] == i;
    if j > 0 {
      assert m[0] < m[j];
    }
  }
}

=== FILE: keyword_table.dfy ===
/**
 The canned lookup tables of the demo agents (`search_tool`, `knowledge_search`):
 a dict walked in insertion order, answering with the first entry whose key,
 lower-cased, occurs in the lower-cased query.
 */
module KeywordTable {
  import opened Wrappers
  import opened Text

  /** One dict item: a keyword and the canned text it answers with. */
  datatype Entry = Entry(key: string, text: string)

  /** Whether the query mentions `key`: `key.lower() in query.lower()`. */
  predicate Mentions(query: string, key: string) {
    ContainsIgnoreCase(query, key)
  }

  /** Entry `i` is the first whose key the query mentions. */
  predicate IsFirstMention(table: seq<Entry>, query: string, i: nat) {
    i < |table| && Mentions(query, table[i].key) && forall j :: 0 <= j < i ==> !Mentions(query, table[j].key)
  }

  /** The query mentions no key of the table. */
  predicate NoMention(table: seq<Entry>, query: string) {
    forall j :: 0 <= j < |table| ==> !Mentions(query, table[j].key)
  }

  /** The first position at or after `i` whose key the query mentions. */
  function FirstMatchFrom(table: seq<Entry>, query: string, i: nat): (r: Option<nat>)
    requires i <= |table|
    ensures r.Some? ==> i <= r.value < |table| && Mentions(query, table[r.value].key)
    ensures r.Some? ==> forall j :: i <= j < r.value ==> !Mentions(query, table[j].key)
    ensures r.None? ==> forall j :: i <= j < |table| ==> !Mentions(query, table[j].key)
    decreases |table| - i
  {
    if i == |table| then None
    else if Mentions(query, table[i].key) then Some(i)
    else FirstMatchFrom(table, query, i + 1)
  }

  /** The loop `for key, value in table.items(): if key.lower() in query.lower(): return ...`. */
  function FirstMatch(table: seq<Entry>, query: string): (r: Option<nat>)
    ensures r.Some? ==> IsFirstMention(table, query, r.value)
    ensures r.None? <==> NoMention(table, query)
  {
    FirstMatchFrom(table, query, 0)
  }

  /** The entry chosen is determined by which keys the query mentions, in table order. */
  lemma FirstMatchUnique(table: seq<Entry>, query: string, i: nat)
    requires IsFirstMention(table, query, i)
    ensures FirstMatch(table, query) == Some(i)
  {
  }

  /** Lower-casing the query first changes nothing: the lookup already ignores case. */
  lemma FirstMatchIgnoresCase(table: seq<Entry>, query: string)
    ensures FirstMatch(table, Lower(query)) == FirstMatch(table, query)
  {
    LowerIdempotent(query);
    assert forall k :: Mentions(Lower(query), k) <==> Mentions(query, k);
    var r := FirstMatch(table, query);
    if r.Some? {
      FirstMatchUnique(table, Lower(query), r.value);
    }
  }
}

=== FILE: math_server.dfy ===
/**
 The arithmetic MCP server's `handle_call_tool`: `add`, `multiply`, `divide`
 and `power` on the integer arguments `a` and `b`. An unknown tool name gets
 an error naming it, dividing by zero gets a fixed error, and a missing
 argument raises `KeyError`, which the handler turns into an error reply.
 */
module MathServer {
  import opened Text

  /** The JSON arguments of a call, restricted to integer values. */
  type Arguments = map<string, int>

  /**
   A reply. `Quotient` and `Reciprocal` stand for the floating-point results
   of `a / b` and of `a ** b` with negative `b`, whose text is not modelled.
   */
  datatype Reply = Text(text: string) | Quotient(a: int, b: int) | Reciprocal(a: int, b: int)

  const DivideByZero: string := "错误：除数不能为0"

  /** The reply built from an exception with message `detail`. */
  function Failed(detail: string): Reply {
    Text("错误：执行工具时出错 - " + detail)
  }

  /** `str(KeyError(key))`: the key in single quotes. */
  function KeyErrorText(key: string): string {
    "'" + key + "'"
  }

  /** Python's message for `0 ** b` with negative `b`. */
  const ZeroToNegative: string := "0.0 cannot be raised to a negative power"

  function UnknownTool(name: string): string {
    "错误：未知的工具 '" + name + "'"
  }

  /** `a ** n` for a natural exponent. */
  function Pow(a: int, n: nat): int
    decreases n
  {
    if n == 0 then 1 else a * Pow(a, n - 1)
  }

  /** Powers add their exponents. */
  lemma {:induction false} PowAdd(a: int, m: nat, n: nat)
    ensures Pow(a, m + n) == Pow(a, m) * Pow(a, n)
    decreases m
  {
    if m > 0 {
      PowAdd(a, m - 1, n);
      assert Pow(a, m + n) == a * Pow(a, m - 1 + n);
    }
  }

  /** The text `"{a} {op} {b} = "` that precedes a result. */
  function Equation(a: int, op: string, b: int): string {
    IntToString(a) + " " + op + " " + IntToString(b) + " = "
  }

  /** `name` is one of the four tools the server implements. */
  predicate IsTool(name: string) {
    name == "add" || name == "multiply" || name == "divide" || name == "power"
  }

  /**
   CPython's default cap on the decimal digits of an integer turned into text
   (`sys.get_int_max_str_digits()`); the sign does not count.
   */
  const MaxStrDigits: nat := 4300

  /** The `ValueError` message of `str(x)` for an integer over the cap. */
  const DigitLimitText: string :=
    "Exceeds the limit (4300 digits) for integer string conversion; use sys.set_int_max_str_digits() to increase the limit"

  /** The decimal digits of `x`, sign not counted. */
  function DigitCount(x: int): nat {
    |NatToString(if x < 0 then -x else x)|
  }

  /** `str(x)` succeeds. */
  predicate Printable(x: int) {
    DigitCount(x) <= MaxStrDigits
  }

  /** The operator each exact tool prints. */
  function Op(name: string): string {
    if name == "add" then "+" else if name == "multiply" then "×" else "^"
  }

  /** The exact integer result of `add`, `multiply` and `power` with a natural exponent. */
  function Exact(name: string, a: int, b: int): int
    requires name == "add" || name == "multiply" || (name == "power" && b >= 0)
  {
    if name == "add" then a + b else if name == "multiply" then a * b else Pow(a, b)
  }

  /**
   `add`, `multiply` and `power` once both arguments have been read. The
   f-string turns `a`, `b` and the result into text, and any of them over the
   digit cap raises `ValueError`, which the handler reports.
   */
  function Apply(name: string, a: int, b: int): (r: Reply)
    requires name == "add" || name == "multiply" || name == "power"
    ensures r.Text? || (name == "power" && b < 0 && a != 0 && r == Reciprocal(a, b))
    ensures name == "power" && b < 0 && a == 0 ==> r == Failed(ZeroToNegative)
    ensures name != "power" || b >= 0 ==>
      (r == Failed(DigitLimitText) <==> !(Printable(a) && Printable(b) && Printable(Exact(name, a, b))))
  {
    if name == "power" && b < 0 then
      if a == 0 then Failed(ZeroToNegative) else Reciprocal(a, b)
    else
      var x := Exact(name, a, b);
      if Printable(a) && Printable(b) && Printable(x) then
        var t := Equation(a, Op(name), b) + IntToString(x);
        assert t[0] == IntToString(a)[0];
        assert t[0] == '-' || '0' <= t[0] <= '9';
        assert Failed(DigitLimitText).text[0] == '错';
        Text(t)
      else Failed(DigitLimitText)
  }

  /** `divide` once `b` has been read and found non-zero: `a` is read only now. */
  function Divide(args: Arguments): (r: Reply)
    requires "b" in args && args["b"] != 0
    ensures r.Quotient? <==> "a" in args
    ensures r.Quotient? ==> r == Quotient(args["a"], args["b"])
  {
    if "a" !in args then Failed(KeyErrorText("a")) else Quotient(args["a"], args["b"])
  }

  /** `handle_call_tool(name, arguments)`. Arguments are read `a` first, then `b`, except by `divide`. */
  function Call(name: string, args: Arguments): (r: Reply)
    ensures !IsTool(name) ==> r == Text(UnknownTool(name))
    ensures IsTool(name) && name != "divide" && "a" !in args ==> r == Failed(KeyErrorText("a"))
    ensures IsTool(name) && "b" !in args && ("a" in args || name == "divide") ==> r == Failed(KeyErrorText("b"))
    ensures name == "divide" && "b" in args && args["b"] == 0 ==> r == Text(DivideByZero)
    ensures r.Quotient? ==>
      (name == "divide" && "a" in args && "b" in args && args["b"] != 0 && r == Quotient(args["a"], args["b"]))
    ensures name == "divide" && "a" in args && "b" in args && args["b"] != 0 ==> r == Quotient(args["a"], args["b"])
    ensures IsTool(name) && name != "divide" && "a" in args && "b" in args ==> r == Apply(name, args["a"], args["b"])
  {
    if !IsTool(name) then Text(UnknownTool(name))
    else if name == "divide" then
      if "b" !in args then Failed(KeyErrorText("b"))
      else if args["b"] == 0 then Text(DivideByZero)
      else Divide(args)
    else if "a" !in args then Failed(KeyErrorText("a"))
    else if "b" !in args then Failed(KeyErrorText("b"))
    else Apply(name, args["a"], args["b"])
  }

  /** With both arguments present, the three exact tools compute on them. */
  lemma CallApplies(name: string, a: int, b: int)
    requires name == "add" || name == "multiply" || name == "power"
    ensures Call(name, map["a" := a, "b" := b]) == Apply(name, a, b)
  {
    var args := map["a" := a, "b" := b];
    assert "a" in args && "b" in args && args["a"] == a && args["b"] == b;
  }

  /** A result written after its equation reads back as the number. */
  lemma ResultReadsBack(eq: string, x: int)
    ensures (eq + IntToString(x))[|eq|..] == IntToString(x)
    ensures ParseInt((eq + IntToString(x))[|eq|..]) == x
  {
    assert (eq + IntToString(x))[|eq|..] == IntToString(x);
    ParseIntToString(x);
  }

  /** `add` reports the equation and then `a + b`, which reads back from the text. */
  lemma AddReportsSum(a: int, b: int)
    requires Printable(a) && Printable(b) && Printable(a + b)
    ensures var r := Call("add", map["a" := a, "b" := b]);
      && r.Text?
      && StartsWith(r.text, Equation(a, "+", b))
      && ParseInt(r.text[|Equation(a, "+", b)|..]) == a + b
  {
    var eq := Equation(a, "+", b);
    CallApplies("add", a, b);
    ResultReadsBack(eq, a + b);
    assert (eq + IntToString(a + b))[..|eq|] == eq;
  }

  /** `multiply` reports the equation and then `a * b`, which reads back from the text. */
  lemma MultiplyReportsProduct(a: int, b: int)
    requires Printable(a) && Printable(b) && Printable(a * b)
    ensures var r := Call("multiply", map["a" := a, "b" := b]);
      && r.Text?
      && StartsWith(r.text, Equation(a, "×", b))
      && ParseInt(r.text[|Equation(a, "×", b)|..]) == a * b
  {
    var eq := Equation(a, "×", b);
    CallApplies("multiply", a, b);
    ResultReadsBack(eq, a * b);
    assert (eq + IntToString(a * b))[..|eq|] == eq;
  }

  /** `power` with a natural exponent reports `a ** b`, which reads back from the text. */
  lemma PowerReportsPower(a: int, b: nat)
    requires Printable(a) && Printable(b) && Printable(Pow(a, b))
    ensures var r := Call("power", map["a" := a, "b" := b]);
      && r.Text?
      && StartsWith(r.text, Equation(a, "^", b))
      && ParseInt(r.text[|Equation(a, "^", b)|..]) == Pow(a, b)
  {
    var eq := Equation(a, "^", b);
    CallApplies("power", a, b);
    ResultReadsBack(eq, Pow(a, b));
    assert (eq + IntToString(Pow(a, b)))[..|eq|] == eq;
  }

  /** A result over the digit cap is reported as the conversion error instead of the equation. */
  lemma OverLimitFails(name: string, a: int, b: int)
    requires name == "add" || name == "multiply" || (name == "power" && b >= 0)
    requires !Printable(Exact(name, a, b))
    ensures Call(name, map["a" := a, "b" := b]) == Failed(DigitLimitText)
  {
    CallApplies(name, a, b);
  }

  /** `10 ** n` has `n + 1` digits. */
  lemma {:induction false} PowerOfTenDigits(n: nat)
    ensures DigitCount(Pow(10, n)) == n + 1
    decreases n
  {
    if n > 0 {
      PowerOfTenDigits(n - 1);
      var m := Pow(10, n - 1);
      assert m >= 1 by { PowerOfTenPositive(n - 1); }
      assert Pow(10, n) == 10 * m;
      assert (10 * m) / 10 == m && (10 * m) % 10 == 0;
      assert NatToString(10 * m) == NatToString(m) + [DigitChar(0)];
    }
  }

  lemma {:induction false} PowerOfTenPositive(n: nat)
    ensures Pow(10, n) >= 1
    decreases n
  {
    if n > 0 {
      PowerOfTenPositive(n - 1);
    }
  }

  /** `power(10, n)` for `n >= 4300`, `power(10, 5000)` among them, fails on the digit cap. */
  lemma BigPowerOfTenFails(n: nat)
    requires n >= MaxStrDigits
    ensures Call("power", map["a" := 10, "b" := n]) == Failed(DigitLimitText)
  {
    PowerOfTenDigits(n);
    OverLimitFails("power", 10, n);
  }

  /** Dividing by zero is refused whatever else the call carries, `a` missing included. */
  lemma DivideGuardComesFirst(args: Arguments)
    requires "b" in args && args["b"] == 0
    ensures Call("divide", args) == Text(DivideByZero)
    ensures Call("divide", args - {"a"}) == Text(DivideByZero)
  {
  }

  /** The unknown-tool error names the tool, so it can be read back. */
  lemma UnknownToolReadsBack(name: string)
    ensures var t := UnknownTool(name);
      |t| == |"错误：未知的工具 '"| + |name| + 1 && t[|"错误：未知的工具 '"|..|t| - 1] == name
  {
    var t := UnknownTool(name);
    assert t == "错误：未知的工具 '" + name + "'";
    assert t[|"错误：未知的工具 '"|..|t| - 1] == name;
  }
}

=== FILE: meta.dfy ===
/**
 Document metadata as the vector stores keep it: a string-keyed map of scalar
 values, plus the per-chunk bookkeeping both RAG servers attach when a
 document is split into chunks.
 */
module Meta {
  import opened Wrappers
  import opened Text

  /**
   A metadata value: the strings, integers, booleans and `None` a Chroma metadata
   entry may hold. Floats are not modelled, and two values are equal only when
   they have the same constructor and payload.
   */
  datatype Value = Str(s: string) | Int(i: int) | Flag(b: bool) | Null

  type Metadata = map<string, Value>

  /** A stored record: page content and its metadata (LangChain's `Document`). */
  datatype Doc = Doc(content: string, meta: Metadata)

  /** What an f-string prints for a value (`str(v)`). */
  function Render(v: Value): string {
    match v
    case Str(s) => s
    case Int(i) => IntToString(i)
    case Flag(b) => if b then "True" else "False"
    case Null => "None"
  }

  /** `m.get(key, d)`. */
  function GetOr<V>(m: map<string, V>, key: string, d: V): (r: V)
    ensures key in m ==> r == m[key]
    ensures key !in m ==> r == d
  {
    if key in m then m[key] else d
  }

  /** The label of each record, numbered from 1 as `enumerate(docs, 1)` does. */
  function Labels(docs: seq<Doc>, labelOf: (Metadata, nat) -> string): (ls: seq<string>)
    ensures |ls| == |docs| && forall i :: 0 <= i < |docs| ==> ls[i] == labelOf(docs[i].meta, i + 1)
  {
    seq(|docs|, i requires 0 <= i < |docs| => labelOf(docs[i].meta, i + 1))
  }

  const ChunkIndexKey: string := "chunk_index"
  const TotalChunksKey: string := "total_chunks"
  const ChunkSizeKey: string := "chunk_size"

  predicate IsChunkKey(k: string) {
    k == ChunkIndexKey || k == TotalChunksKey || k == ChunkSizeKey
  }

  /**
   The metadata of chunk `i` of `n`, of length `size`: a copy of the caller's
   map with the three chunk keys set, overriding same-named caller entries.
   */
  function ChunkMeta(meta: Metadata, i: nat, n: nat, size: nat): (r: Metadata)
    ensures r.Keys == meta.Keys + {ChunkIndexKey, TotalChunksKey, ChunkSizeKey}
    ensures r[ChunkIndexKey] == Int(i) && r[TotalChunksKey] == Int(n) && r[ChunkSizeKey] == Int(size)
    ensures forall k :: k in meta && !IsChunkKey(k) ==> r[k] == meta[k]
  {
    meta[ChunkIndexKey := Int(i)][TotalChunksKey := Int(n)][ChunkSizeKey := Int(size)]
  }

  /** One stored record per chunk, each carrying the caller's metadata and its chunk bookkeeping. */
  function AnnotateChunks(meta: Metadata, chunks: seq<string>): (docs: seq<Doc>)
    ensures |docs| == |chunks|
    ensures forall i :: 0 <= i < |docs| ==> docs[i].content == chunks[i]
    ensures forall i :: 0 <= i < |docs| ==> docs[i].meta.Keys == meta.Keys + {ChunkIndexKey, TotalChunksKey, ChunkSizeKey}
    ensures forall i :: 0 <= i < |docs| ==>
      && docs[i].meta[ChunkIndexKey] == Int(i)
      && docs[i].meta[TotalChunksKey] == Int(|chunks|)
      && docs[i].meta[ChunkSizeKey] == Int(|chunks[i]|)
    ensures forall i, k :: 0 <= i < |docs| && k in meta && !IsChunkKey(k) ==> docs[i].meta[k] == meta[k]
  {
    seq(|chunks|, i requires 0 <= i < |chunks| => Doc(chunks[i], ChunkMeta(meta, i, |chunks|, |chunks[i]|)))
  }

  /** `sum(len(c) for c in chunks)`. */
  function TotalLength(chunks: seq<string>): nat
    decreases |chunks|
  {
    if chunks == [] then 0 else TotalLength(chunks[..|chunks| - 1]) + |chunks[|chunks| - 1]|
  }

  /** The reported average chunk size: the floor of total length over chunk count. */
  function AverageSize(chunks: seq<string>): (avg: nat)
    requires chunks != []
    ensures avg * |chunks| <= TotalLength(chunks) < (avg + 1) * |chunks|
  {
    TotalLength(chunks) / |chunks|
  }

}

=== FILE: profile.dfy ===
/**
 The fallback of `extract_user_profile`, used when the language model's
 profile cannot be parsed: a line-by-line scan of the conversation for a
 self-introduction ("我是…" / "我叫…"), a profession and topics of interest,
 with fixed defaults for everything it does not find.
 */
module Profile {
  import opened Wrappers
  import opened Text

  const Unknown: string := "未知"

  /** A name is accepted only when shorter than this. */
  const MaxNameLength: nat := 10

  /** The profile the fallback returns (a dict in the source). */
  datatype UserProfile = UserProfile(name: string, profession: string, interests: seq<string>,
                                     learningGoals: seq<string>, experienceLevel: string)

  /**
   The name a line offers after `marker`: `line.split(marker)[1]` cut at the
   first "，" and then at the first ",", stripped, and kept only when
   non-empty and shorter than `MaxNameLength`.
   */
  function NameAfter(line: string, marker: string): (r: Option<string>)
    requires marker != []
    ensures !Contains(line, marker) ==> r.None?
    ensures r.Some? ==> r.value != [] && |r.value| < MaxNameLength
    ensures r.Some? ==> !IsSpace(r.value[0]) && !IsSpace(r.value[|r.value| - 1])
    ensures r.Some? ==> !Contains(r.value, "，") && !Contains(r.value, ",")
  {
    match SecondPiece(line, marker)
    case None => None
    case Some(piece) =>
      var n := Strip(Before(Before(piece, "，"), ","));
      NameAvoidsCommas(piece);
      if n != [] && |n| < MaxNameLength then Some(n) else None
  }

  lemma NameAvoidsCommas(piece: string)
    ensures var n := Strip(Before(Before(piece, "，"), ","));
      !Contains(n, "，") && !Contains(n, ",")
  {
    var a := Before(piece, "，");
    var b := Before(a, ",");
    var n := Strip(b);
    StripInfix(b);
    StartsWithContains(a, b);
    AvoidedInPart(a, b, "，");
    AvoidedInPart(b, n, "，");
    AvoidedInPart(b, n, ",");
  }

  /** One line's effect on the name: "我是" first, then "我叫", each overriding what came before. */
  function NameStep(name: string, line: string): string {
    var afterIs := match NameAfter(line, "我是") case Some(n) => n case None => name;
    match NameAfter(line, "我叫") case Some(n) => n case None => afterIs
  }

  /** The name a line introduces, if any: within a line "我叫" wins over "我是". */
  function Introduced(line: string): (r: Option<string>)
    ensures r.Some? ==> Contains(line, "我是") || Contains(line, "我叫")
    ensures NameAfter(line, "我叫").Some? ==> r == NameAfter(line, "我叫")
    ensures NameAfter(line, "我叫").None? ==> r == NameAfter(line, "我是")
  {
    if NameAfter(line, "我叫").Some? then NameAfter(line, "我叫") else NameAfter(line, "我是")
  }

  lemma NameStepIntroduced(name: string, line: string)
    ensures NameStep(name, line) == match Introduced(line) case Some(n) => n case None => name
  {
  }

  /** One line's effect on the profession: "学生" is checked before "专业". */
  function ProfessionStep(profession: string, line: string): (r: string)
    ensures Contains(line, "学生") ==> r == "学生"
    ensures !Contains(line, "学生") && Contains(line, "专业") ==> r == "专业学生"
    ensures !Contains(line, "学生") && !Contains(line, "专业") ==> r == profession
  {
    if Contains(line, "学生") then "学生" else if Contains(line, "专业") then "专业学生" else profession
  }

  /** The three topics, each with the two spellings that count as mentioning it. */
  const Topics: seq<(string, string, string)> := [
    ("人工智能", "人工智能", "AI"), ("机器学习", "机器学习", "ML"), ("编程", "编程", "程序")
  ]

  predicate MentionsTopic(line: string, t: nat)
    requires t < |Topics|
  {
    Contains(line, Topics[t].1) || Contains(line, Topics[t].2)
  }

  /** The interests one line adds, in topic order; a topic is added once per line. */
  function LineInterests(line: string): seq<string> {
    (if MentionsTopic(line, 0) then [Topics[0].0] else [])
      + (if MentionsTopic(line, 1) then [Topics[1].0] else [])
      + (if MentionsTopic(line, 2) then [Topics[2].0] else [])
  }

  /** A line adds the topics it mentions and nothing else. */
  lemma LineInterestsMembers(line: string)
    ensures forall x :: x in LineInterests(line) <==> exists t :: 0 <= t < |Topics| && MentionsTopic(line, t) && x == Topics[t].0
  {
    var r := LineInterests(line);
    forall x | x in r
      ensures exists t :: 0 <= t < |Topics| && MentionsTopic(line, t) && x == Topics[t].0
    {
      if MentionsTopic(line, 0) && x == Topics[0].0 {
        assert 0 < |Topics|;
      } else if MentionsTopic(line, 1) && x == Topics[1].0 {
        assert 1 < |Topics|;
      } else {
        assert MentionsTopic(line, 2) && x == Topics[2].0;
      }
    }
  }

  /** What the scan has found after some lines. */
  datatype Found = Found(name: string, profession: string, interests: seq<string>)

  /** The `for line in lines` loop, one line at a time. */
  function Scan(lines: seq<string>): Found
    decreases |lines|
  {
    if lines == [] then Found(Unknown, Unknown, [])
    else
      var f := Scan(lines[..|lines| - 1]);
      var line := lines[|lines| - 1];
      Found(NameStep(f.name, line), ProfessionStep(f.profession, line), f.interests + LineInterests(line))
  }

  /** The profile built from the lines of a conversation history. */
  function ProfileOf(lines: seq<string>): (r: UserProfile)
    ensures r.interests != []
    ensures r.learningGoals == ["提升技能"] && r.experienceLevel == "beginner"
  {
    var f := Scan(lines);
    UserProfile(f.name, f.profession, if f.interests != [] then f.interests else [Unknown], ["提升技能"], "beginner")
  }

  /** The fallback profile of a conversation history, split into lines at each line break. */
  function FallbackProfile(history: string): UserProfile {
    ProfileOf(Split(history, "\n"))
  }

  /** The profession a line names, if any: "学生" is checked before "专业". */
  function ProfessionOf(line: string): Option<string> {
    if Contains(line, "学生") then Some("学生") else if Contains(line, "专业") then Some("专业学生") else None
  }

  /** The value `pick` gives the last line it gives one for, `d` when it gives none. */
  function Override(lines: seq<string>, pick: string -> Option<string>, d: string): string
    decreases |lines|
  {
    if lines == [] then d
    else match pick(lines[|lines| - 1])
      case Some(v) => v
      case None => Override(lines[..|lines| - 1], pick, d)
  }

  /** Line `j` is the last line `pick` gives a value for. */
  ghost predicate LastPicked(lines: seq<string>, pick: string -> Option<string>, j: int) {
    0 <= j < |lines| && pick(lines[j]).Some? && forall k :: j < k < |lines| ==> pick(lines[k]).None?
  }

  lemma {:induction false} OverrideIsLastPick(lines: seq<string>, pick: string -> Option<string>, d: string)
    ensures (forall k :: 0 <= k < |lines| ==> pick(lines[k]).None?) ==> Override(lines, pick, d) == d
    ensures forall j :: LastPicked(lines, pick, j) ==> Override(lines, pick, d) == pick(lines[j]).value
    decreases |lines|
  {
    if lines != [] {
      var init := lines[..|lines| - 1];
      OverrideIsLastPick(init, pick, d);
      assert forall k :: 0 <= k < |init| ==> init[k] == lines[k];
      forall j | LastPicked(lines, pick, j)
        ensures Override(lines, pick, d) == pick(lines[j]).value
      {
        if j < |init| {
          assert pick(lines[|lines| - 1]).None?;
          assert LastPicked(init, pick, j);
        }
      }
    }
  }

  /** The outputs of `f` for each line, run together in line order. */
  function Collect(lines: seq<string>, f: string -> seq<string>): seq<string>
    decreases |lines|
  {
    if lines == [] then [] else Collect(lines[..|lines| - 1], f) + f(lines[|lines| - 1])
  }

  lemma {:induction false} CollectMembers(lines: seq<string>, f: string -> seq<string>)
    ensures forall x :: x in Collect(lines, f) <==> exists k :: 0 <= k < |lines| && x in f(lines[k])
    decreases |lines|
  {
    if lines != [] {
      var init := lines[..|lines| - 1];
      CollectMembers(init, f);
      assert forall k :: 0 <= k < |init| ==> init[k] == lines[k];
      forall x | exists k :: 0 <= k < |lines| && x in f(lines[k])
        ensures x in Collect(lines, f)
      {
        var k :| 0 <= k < |lines| && x in f(lines[k]);
        if k < |init| {
          assert x in f(init[k]);
        }
      }
    }
  }

  /** The scan's three results, each stated on its own. */
  lemma {:induction false} ScanParts(lines: seq<string>)
    ensures Scan(lines).name == Override(lines, Introduced, Unknown)
    ensures Scan(lines).profession == Override(lines, ProfessionOf, Unknown)
    ensures Scan(lines).interests == Collect(lines, LineInterests)
    decreases |lines|
  {
    if lines != [] {
      var init := lines[..|lines| - 1];
      var line := lines[|lines| - 1];
      ScanParts(init);
      NameStepIntroduced(Scan(init).name, line);
    }
  }

  /**
   The name is the one the last introduction gives and "未知" when nobody
   introduces themselves; the profession likewise comes from the last line
   that names one.
   */
  lemma NameAndProfessionAreLast(lines: seq<string>)
    ensures (forall k :: 0 <= k < |lines| ==> Introduced(lines[k]).None?) ==> Scan(lines).name == Unknown
    ensures forall j :: LastPicked(lines, Introduced, j) ==> Scan(lines).name == Introduced(lines[j]).value
    ensures (forall k :: 0 <= k < |lines| ==> ProfessionOf(lines[k]).None?) ==> Scan(lines).profession == Unknown
    ensures forall j :: LastPicked(lines, ProfessionOf, j) ==> Scan(lines).profession == ProfessionOf(lines[j]).value
  {
    ScanParts(lines);
    OverrideIsLastPick(lines, Introduced, Unknown);
    OverrideIsLastPick(lines, ProfessionOf, Unknown);
  }

  lemma {:induction false} CollectEmpty(lines: seq<string>, f: string -> seq<string>)
    requires Collect(lines, f) == []
    ensures forall k :: 0 <= k < |lines| ==> f(lines[k]) == []
    decreases |lines|
  {
    if lines != [] {
      var init := lines[..|lines| - 1];
      CollectEmpty(init, f);
      assert forall k :: 0 <= k < |init| ==> init[k] == lines[k];
    }
  }

  /** An interest is listed exactly when some line mentions its topic. */
  lemma InterestsAreMentioned(lines: seq<string>)
    ensures forall x :: x in Scan(lines).interests <==> exists k :: 0 <= k < |lines| && x in LineInterests(lines[k])
  {
    ScanParts(lines);
    CollectMembers(lines, LineInterests);
  }

  /** No topic is called "未知". */
  lemma TopicsAreKnown(line: string)
    ensures Unknown !in LineInterests(line)
  {
    LineInterestsMembers(line);
    forall x | x in LineInterests(line)
      ensures x != Unknown
    {
      var t :| 0 <= t < |Topics| && MentionsTopic(line, t) && x == Topics[t].0;
    }
  }

  /** Collected interests are empty exactly when no line adds one, and never "未知" alone. */
  lemma CollectedInterests(lines: seq<string>)
    ensures var c := Collect(lines, LineInterests);
      && (c == [] <==> forall k :: 0 <= k < |lines| ==> LineInterests(lines[k]) == [])
      && c != [Unknown]
  {
    var c := Collect(lines, LineInterests);
    if c != [] {
      CollectMembers(lines, LineInterests);
      assert c[0] in c;
      var k :| 0 <= k < |lines| && c[0] in LineInterests(lines[k]);
      TopicsAreKnown(lines[k]);
    } else {
      CollectEmpty(lines, LineInterests);
    }
  }

  /** The interests fall back to "未知" exactly when no line mentions any topic. */
  lemma InterestsDefault(lines: seq<string>)
    ensures ProfileOf(lines).interests == [Unknown] <==> forall k :: 0 <= k < |lines| ==> LineInterests(lines[k]) == []
  {
    ScanParts(lines);
    CollectedInterests(lines);
  }

  /**
   Introducing oneself as "我是" followed by a short name, with no comma,
   whitespace at either end, or second "我是" in it, yields exactly that name.
   */
  lemma IntroductionGivesName(x: string)
    requires x != [] && |x| < MaxNameLength
    requires !IsSpace(x[0]) && !IsSpace(x[|x| - 1])
    requires !Contains(x, "，") && !Contains(x, ",") && !Contains(x, "我是")
    ensures NameAfter("我是" + x, "我是") == Some(x)
  {
    var line := "我是" + x;
    assert OccursAt(line, "我是", 0);
    assert Find(line, "我是") == Some(0);
    assert After(line, "我是") == Some(x);
    assert SecondPiece(line, "我是") == Some(x);
    assert Strip(x) == x;
  }
}

=== FILE: rag_server.dfy ===
/**
 The knowledge-base bookkeeping of the stand-alone RAG server: adding a
 document as annotated chunks, answering a question from retrieved chunks,
 listing the stored chunks grouped by source, and guarded deletion.
 The text splitter, the similarity search and the LLM are inputs; the
 vector store is modelled by the records it holds.
 */
module RagServer {
  import opened Wrappers
  import opened Text
  import opened Meta
  import opened Grouping

  // ---------------------------------------------------------------------------
  // Adding a document
  // ---------------------------------------------------------------------------

  datatype AddReply =
    | EmptyContent                                   // 错误：文档内容不能为空
    | CannotSplit                                    // 错误：无法分割文档内容
    | Added(chunkCount: nat, averageSize: nat)

  /**
   `_add_document`: blank content is refused before the splitter runs, an
   empty split is refused, otherwise every chunk is stored with its bookkeeping
   metadata and the reply reports the count and the floor of the average size.
   */
  function AddDocument(store: seq<Doc>, content: string, meta: Metadata, split: string -> seq<string>)
    : (r: (AddReply, seq<Doc>))
    ensures IsBlank(content) ==> r == (EmptyContent, store)
    ensures !IsBlank(content) && split(content) == [] ==> r == (CannotSplit, store)
    ensures !IsBlank(content) && split(content) != [] ==>
      var chunks := split(content);
      && r.0 == Added(|chunks|, AverageSize(chunks))
      && r.1 == store + AnnotateChunks(meta, chunks)
  {
    StripEmptyIffBlank(content);
    if Strip(content) == [] then (EmptyContent, store)
    else
      var chunks := split(content);
      if chunks == [] then (CannotSplit, store)
      else (Added(|chunks|, AverageSize(chunks)), store + AnnotateChunks(meta, chunks))
  }

  /** A successful add stores exactly the chunks, in order, after what was there. */
  lemma AddDocumentStoresChunks(store: seq<Doc>, content: string, meta: Metadata, split: string -> seq<string>)
    requires AddDocument(store, content, meta, split).0.Added?
    ensures var (reply, after) := AddDocument(store, content, meta, split);
      && |after| == |store| + reply.chunkCount
      && after[..|store|] == store
      && (forall i :: 0 <= i < reply.chunkCount ==>
            after[|store| + i].content == split(content)[i]
            && after[|store| + i].meta[ChunkIndexKey] == Int(i)
            && after[|store| + i].meta[TotalChunksKey] == Int(reply.chunkCount))
  {
    var chunks := split(content);
    var after := store + AnnotateChunks(meta, chunks);
    assert after[..|store|] == store;
  }

  // ---------------------------------------------------------------------------
  // Answering a question
  // ---------------------------------------------------------------------------

  datatype AnswerReply =
    | EmptyQuestion                                  // 错误：问题不能为空
    | NothingFound                                   // ❌ 知识库中没有找到相关信息来回答这个问题
    | Answered(prompt: string, response: string, sources: seq<string>)
    | AnswerFailed(error: string)                    // 回答问题失败：{e}

  const FilenameKey: string := "filename"
  const SourceKey: string := "source"

  /** The source label of the `i`-th (1-based) retrieved chunk: `filename`, else `source`, else `文档块 i`. */
  function SourceLabel(m: Metadata, i: nat): (r: string)
    ensures FilenameKey in m ==> r == Render(m[FilenameKey])
    ensures FilenameKey !in m && SourceKey in m ==> r == Render(m[SourceKey])
    ensures FilenameKey !in m && SourceKey !in m ==> r == "文档块 " + NatToString(i)
  {
    if FilenameKey in m then Render(m[FilenameKey])
    else Render(GetOr(m, SourceKey, Str("文档块 " + NatToString(i))))
  }

  function ContextPart(d: Doc, i: nat): string {
    "[上下文 " + NatToString(i) + "]: " + d.content
  }

  function ContextParts(docs: seq<Doc>): (ps: seq<string>)
    ensures |ps| == |docs| && forall i :: 0 <= i < |docs| ==> ps[i] == ContextPart(docs[i], i + 1)
  {
    seq(|docs|, i requires 0 <= i < |docs| => ContextPart(docs[i], i + 1))
  }

  const PromptHead: string := "基于以下上下文信息回答问题。请给出准确、有用的回答。如果上下文中没有足够的信息来完整回答问题，请明确说明。\n\n上下文信息：\n"
  const PromptQuestion: string := "\n\n问题："
  const PromptTail: string := "\n\n请基于上下文信息提供详细的回答："

  /** The prompt sent to the LLM: the fixed instructions, the numbered context, the question. */
  function AnswerPrompt(docs: seq<Doc>, question: string, sep: string): (p: string)
    ensures StartsWith(p, PromptHead)
  {
    var p := PromptHead + Join(ContextParts(docs), sep + sep) + PromptQuestion + question + PromptTail;
    assert p[..|PromptHead|] == PromptHead;
    p
  }

  /**
   `_answer_question`: a blank question is refused, an empty retrieval returns
   the sentinel without calling the LLM, otherwise the LLM answers the prompt
   built from the retrieved chunks. The similarity search (`retrieved`) and
   the LLM call may raise; the handler then replies with the error.
   */
  function AnswerQuestion(question: string, retrieved: Result<seq<Doc>, string>, llm: string -> Result<string, string>,
                          sep: string): (r: AnswerReply)
    ensures IsBlank(question) <==> r == EmptyQuestion
    ensures !IsBlank(question) && retrieved.Failure? ==> r == AnswerFailed(retrieved.error)
    ensures !IsBlank(question) && retrieved == Success([]) ==> r == NothingFound
    ensures r.Answered? <==>
      && !IsBlank(question) && retrieved.Success? && retrieved.value != []
      && llm(AnswerPrompt(retrieved.value, question, sep)).Success?
    ensures r.Answered? ==>
      var hits := retrieved.value;
      && r.prompt == AnswerPrompt(hits, question, sep)
      && llm(r.prompt) == Success(r.response)
      && |r.sources| == |hits|
      && (forall i :: 0 <= i < |hits| ==> r.sources[i] == SourceLabel(hits[i].meta, i + 1))
    ensures r.AnswerFailed? ==>
      || (retrieved.Failure? && r.error == retrieved.error)
      || (retrieved.Success? && llm(AnswerPrompt(retrieved.value, question, sep)) == Failure(r.error))
  {
    StripEmptyIffBlank(question);
    if Strip(question) == [] then EmptyQuestion
    else match retrieved
      case Failure(e) => AnswerFailed(e)
      case Success(hits) =>
        if hits == [] then NothingFound
        else
          var prompt := AnswerPrompt(hits, question, sep);
          match llm(prompt)
          case Failure(e) => AnswerFailed(e)
          case Success(response) => Answered(prompt, response, Labels(hits, SourceLabel))
  }

  /** The answer does not depend on the LLM when there is nothing to answer from. */
  lemma NoGenerationWithoutContext(question: string, llm1: string -> Result<string, string>,
                                   llm2: string -> Result<string, string>, sep: string)
    ensures AnswerQuestion(question, Success([]), llm1, sep) == AnswerQuestion(question, Success([]), llm2, sep)
    ensures AnswerQuestion(question, Success([]), llm1, sep) in {EmptyQuestion, NothingFound}
  {
  }

  /** The prompt closes with the question, under its heading and before the closing instruction. */
  lemma PromptEndsWithQuestion(docs: seq<Doc>, question: string, sep: string)
    ensures var p := AnswerPrompt(docs, question, sep);
      var tail := PromptQuestion + question + PromptTail;
      |tail| <= |p| && p[|p| - |tail|..] == tail
    ensures Contains(AnswerPrompt(docs, question, sep), question)
  {
    var ctx := Join(ContextParts(docs), sep + sep);
    var tail := PromptQuestion + question + PromptTail;
    assert AnswerPrompt(docs, question, sep) == (PromptHead + ctx) + tail;
    ContainsHalves(PromptQuestion, question);
    ContainsInLeft(PromptQuestion + question, PromptTail, question);
    ContainsInRight(PromptHead + ctx, tail, question);
  }

  /** The numbered context the prompt carries: the parts in retrieval order, two separators apart. */
  function PromptContext(docs: seq<Doc>, sep: string): string {
    Join(ContextParts(docs), sep + sep)
  }

  /** One more retrieved chunk appends its numbered part, after two separators, to the context. */
  lemma PromptContextAppend(docs: seq<Doc>, d: Doc, sep: string)
    ensures PromptContext([], sep) == ""
    ensures PromptContext([d], sep) == ContextPart(d, 1)
    ensures docs != [] ==> PromptContext(docs + [d], sep) == PromptContext(docs, sep) + sep + sep + ContextPart(d, |docs| + 1)
  {
    assert ContextParts([d]) == [ContextPart(d, 1)];
    if docs != [] {
      assert ContextParts(docs + [d]) == ContextParts(docs) + [ContextPart(d, |docs| + 1)];
      JoinSnoc(ContextParts(docs), ContextPart(d, |docs| + 1), sep + sep);
    }
  }

  /**
   The prompt is the fixed instructions, then the context, then the question
   part: the context sits right after the instructions and the lengths add up.
   */
  lemma AnswerPromptLayout(docs: seq<Doc>, question: string, sep: string)
    ensures var p := AnswerPrompt(docs, question, sep);
      var ctx := PromptContext(docs, sep);
      var tail := PromptQuestion + question + PromptTail;
      && |p| == |PromptHead| + |ctx| + |tail|
      && p[|PromptHead|..|PromptHead| + |ctx|] == ctx
  {
    var ctx := PromptContext(docs, sep);
    var tail := PromptQuestion + question + PromptTail;
    assert AnswerPrompt(docs, question, sep) == PromptHead + ctx + tail;
    MiddlePart(PromptHead, ctx, tail);
  }

  /** Every retrieved chunk's numbered context part reaches the prompt. */
  lemma PromptHasEveryChunk(docs: seq<Doc>, question: string, sep: string)
    ensures forall i :: 0 <= i < |docs| ==> Contains(AnswerPrompt(docs, question, sep), ContextPart(docs[i], i + 1))
  {
    var ctx := Join(ContextParts(docs), sep + sep);
    JoinContainsParts(ContextParts(docs), sep + sep);
    forall i | 0 <= i < |docs|
      ensures Contains(AnswerPrompt(docs, question, sep), ContextPart(docs[i], i + 1))
    {
      var part := ContextPart(docs[i], i + 1);
      assert Contains(ctx, ContextParts(docs)[i]);
      ContainsInRight(PromptHead, ctx, part);
      ContainsInLeft(PromptHead + ctx, PromptQuestion + question + PromptTail, part);
      assert PromptHead + ctx + PromptQuestion + question + PromptTail
          == (PromptHead + ctx) + (PromptQuestion + question + PromptTail);
    }
  }

  // ---------------------------------------------------------------------------
  // Listing documents
  // ---------------------------------------------------------------------------

  const UnknownSource: Value := Str("未知来源")
  const ShownPerSource: nat := 3

  /** The listing's grouping key: `source`, else `filename`, else `未知来源`. */
  function ListingKey(m: Metadata): (v: Value)
    ensures SourceKey in m ==> v == m[SourceKey]
    ensures SourceKey !in m && FilenameKey in m ==> v == m[FilenameKey]
    ensures SourceKey !in m && FilenameKey !in m ==> v == UnknownSource
  {
    GetOr(m, SourceKey, GetOr(m, FilenameKey, UnknownSource))
  }

  function ListingKeys(rows: seq<Doc>): (ks: seq<Value>)
    ensures |ks| == |rows| && forall i :: 0 <= i < |rows| ==> ks[i] == ListingKey(rows[i].meta)
  {
    seq(|rows|, i requires 0 <= i < |rows| => ListingKey(rows[i].meta))
  }

  /** One source's entry: its chunk count, the rows shown (at most three) and how many are left unshown. */
  datatype SourceView = SourceView(source: Value, size: nat, shown: seq<nat>, more: nat)

  datatype Listing =
    | EmptyBase                                      // 知识库为空
    | Listed(views: seq<SourceView>, total: nat, sourceCount: nat, totalChars: nat, averageChars: nat)

  function View(b: Bucket<Value>): (v: SourceView)
    ensures v.source == b.key && v.size == |b.members|
    ensures v.shown == b.members[..if |b.members| < ShownPerSource then |b.members| else ShownPerSource]
    ensures |v.shown| + v.more == v.size
    ensures v.more > 0 <==> v.size > ShownPerSource
  {
    var n := |b.members|;
    if n <= ShownPerSource then SourceView(b.key, n, b.members, 0)
    else SourceView(b.key, n, b.members[..ShownPerSource], n - ShownPerSource)
  }

  function Views(bs: seq<Bucket<Value>>): (vs: seq<SourceView>)
    ensures |vs| == |bs| && forall p :: 0 <= p < |bs| ==> vs[p] == View(bs[p])
  {
    seq(|bs|, p requires 0 <= p < |bs| => View(bs[p]))
  }

  function Contents(rows: seq<Doc>): (cs: seq<string>)
    ensures |cs| == |rows| && forall i :: 0 <= i < |rows| ==> cs[i] == rows[i].content
  {
    seq(|rows|, i requires 0 <= i < |rows| => rows[i].content)
  }

  /**
   `_list_documents` over the rows the collection returned: sources in
   first-seen order, each with its chunk count and first three rows, plus the
   totals and the floor of the average row length.
   */
  function ListDocuments(rows: seq<Doc>): (r: Listing)
    ensures rows == [] <==> r == EmptyBase
    ensures r.Listed? ==>
      var bs := GroupBy(ListingKeys(rows));
      && r.views == Views(bs)
      && r.total == |rows| && r.sourceCount == |bs|
      && r.totalChars == TotalLength(Contents(rows))
      && r.averageChars == AverageSize(Contents(rows))
  {
    if rows == [] then EmptyBase
    else
      var bs := GroupBy(ListingKeys(rows));
      var cs := Contents(rows);
      Listed(Views(bs), |rows|, |bs|, TotalLength(cs), AverageSize(cs))
  }

  /** The listing accounts for every row once: views are the distinct sources, sized by their counts. */
  lemma ListingAccountsForRows(rows: seq<Doc>)
    requires rows != []
    ensures var r := ListDocuments(rows);
      && (forall p :: 0 <= p < |r.views| ==> r.views[p].size == Count(ListingKeys(rows), r.views[p].source) > 0)
      && (forall p, q :: 0 <= p < q < |r.views| ==> r.views[p].source != r.views[q].source)
      && (forall i :: 0 <= i < |rows| ==> exists p :: 0 <= p < |r.views| && r.views[p].source == ListingKey(rows[i].meta))
      && TotalViewSize(r.views) == |rows|
  {
    var keys := ListingKeys(rows);
    var bs := GroupBy(keys);
    var vs := Views(bs);
    forall i | 0 <= i < |rows|
      ensures exists p :: 0 <= p < |vs| && vs[p].source == ListingKey(rows[i].meta)
    {
      assert keys[i] in KeysOf(bs);
      var p :| 0 <= p < |bs| && KeysOf(bs)[p] == keys[i];
      assert vs[p].source == keys[i];
    }
    ViewSizes(bs);
  }

  function TotalViewSize(vs: seq<SourceView>): nat
    decreases |vs|
  {
    if vs == [] then 0 else TotalViewSize(vs[..|vs| - 1]) + vs[|vs| - 1].size
  }

  lemma {:induction false} ViewSizes(bs: seq<Bucket<Value>>)
    ensures TotalViewSize(Views(bs)) == TotalSize(bs)
    decreases |bs|
  {
    if bs != [] {
      var init := bs[..|bs| - 1];
      ViewSizes(init);
      assert Views(bs)[..|bs| - 1] == Views(init);
    }
  }

  /** Every shown row belongs to its source, and rows are shown in storage order. */
  lemma ShownRowsBelong(rows: seq<Doc>, p: nat, j: nat)
    requires rows != [] && p < |ListDocuments(rows).views|
    requires j < |ListDocuments(rows).views[p].shown|
    ensures var v := ListDocuments(rows).views[p];
      v.shown[j] < |rows| && ListingKey(rows[v.shown[j]].meta) == v.source
  {
    var keys := ListingKeys(rows);
    var bs := GroupBy(keys);
    PositionsCorrect(keys, bs[p].key);
  }

  // ---------------------------------------------------------------------------
  // Deleting documents
  // ---------------------------------------------------------------------------

  datatype DeleteReply =
    | NeedsConfirmation                              // ❌ 删除操作需要确认。请设置 confirm=true
    | NeedsFilter                                    // ❌ 删除操作需要提供过滤条件以确保安全
    | NoMatch                                        // 没有找到匹配条件的文档
    | Deleted(count: nat)

  /** A record matches a filter when it holds every filter entry. */
  predicate Matches(d: Doc, filter: Metadata) {
    forall k :: k in filter ==> k in d.meta && d.meta[k] == filter[k]
  }

  function MatchingIds(store: map<string, Doc>, filter: Metadata): (ids: set<string>)
    ensures ids <= store.Keys
    ensures forall id :: id in ids <==> id in store && Matches(store[id], filter)
  {
    set id | id in store && Matches(store[id], filter)
  }

  /**
   `_delete_documents`: refuses unless confirmed, refuses an empty filter,
   both before the store is read; otherwise removes the matching records.
   */
  function DeleteDocuments(store: map<string, Doc>, filter: Metadata, confirm: bool): (r: (DeleteReply, map<string, Doc>))
    ensures !confirm ==> r == (NeedsConfirmation, store)
    ensures confirm && filter == map[] ==> r == (NeedsFilter, store)
    ensures confirm && filter != map[] && MatchingIds(store, filter) == {} ==> r == (NoMatch, store)
    ensures confirm && filter != map[] && MatchingIds(store, filter) != {} ==> r.0.Deleted?
    ensures r.0.Deleted? ==>
      && confirm && filter != map[]
      && r.0.count == |MatchingIds(store, filter)| > 0
      && r.1.Keys == store.Keys - MatchingIds(store, filter)
      && (forall id :: id in r.1 ==> r.1[id] == store[id] && !Matches(store[id], filter))
    ensures r.1.Keys <= store.Keys
  {
    if !confirm then (NeedsConfirmation, store)
    else if filter == map[] then (NeedsFilter, store)
    else
      var ids := MatchingIds(store, filter);
      if ids == {} then (NoMatch, store)
      else (Deleted(|ids|), map id | id in store && id !in ids :: store[id])
  }

  /** Deleting again with the same filter finds nothing. */
  lemma DeleteIdempotent(store: map<string, Doc>, filter: Metadata)
    requires filter != map[]
    ensures var after := DeleteDocuments(store, filter, true).1;
      DeleteDocuments(after, filter, true) == (NoMatch, after)
  {
    var after := DeleteDocuments(store, filter, true).1;
    assert MatchingIds(after, filter) == {};
  }

  /** A deletion keeps every record the filter does not match. */
  lemma DeleteKeepsNonMatching(store: map<string, Doc>, filter: Metadata, confirm: bool, id: string)
    requires id in store && !Matches(store[id], filter)
    ensures var after := DeleteDocuments(store, filter, confirm).1;
      id in after && after[id] == store[id]
  {
  }
}

=== FILE: rag_service.dfy ===
/**
 The document-assistant RAG service: tool dispatch, adding a document with a
 running chunk counter, answering in one of three styles, and the detailed
 collection statistics. The text splitter, the similarity search and the LLM
 are inputs; the vector store is modelled by the records it holds.
 */
module RagService {
  import opened Wrappers
  import opened Text
  import opened Meta
  import opened Grouping

  // ---------------------------------------------------------------------------
  // Dispatch
  // ---------------------------------------------------------------------------

  /** A JSON argument value of a tool call. */
  datatype Arg = Text(s: string) | Number(n: int) | Switch(b: bool) | MetaArg(m: Metadata) | OtherArg

  type Args = map<string, Arg>

  /** Where a tool call goes: a handler with its arguments (defaults filled in), or an error reply. */
  datatype Route =
    | AddDocumentCall(content: Arg, metadata: Arg, chunkSize: Arg)
    | AnswerQuestionCall(question: Arg, contextK: Arg, style: Arg, includeSources: Arg)
    | StatsCall(detailed: Arg)
    | ExecutionError(tool: string)                   // ❌ 执行工具 {name} 时出错: …
    | UnknownTool(tool: string)                      // ❌ 未知的工具: {name}

  /** Tools the dispatcher names but the class gives no handler for: calling them raises. */
  const UnhandledTools: set<string> :=
    {"batch_add_documents", "search_documents", "semantic_search", "multi_turn_chat",
     "summarize_documents", "clear_collection"}

  const HandledTools: set<string> := {"add_document", "answer_question", "get_collection_stats"}

  /** `handle_call_tool`'s branch selection, with the `KeyError` of a missing required argument. */
  function Dispatch(name: string, args: Args): (r: Route)
    ensures name in UnhandledTools ==> r == ExecutionError(name)
    ensures name !in UnhandledTools && name !in HandledTools ==> r == UnknownTool(name)
    ensures name == "add_document" ==>
      r == (if "content" in args then AddDocumentCall(args["content"], GetOr(args, "metadata", MetaArg(map[])), GetOr(args, "chunk_size", Number(1000)))
            else ExecutionError(name))
    ensures name == "answer_question" ==>
      r == (if "question" in args
            then AnswerQuestionCall(args["question"], GetOr(args, "context_k", Number(3)),
                                    GetOr(args, "answer_style", Text("detailed")), GetOr(args, "include_sources", Switch(true)))
            else ExecutionError(name))
    ensures name == "get_collection_stats" ==> r == StatsCall(GetOr(args, "detailed", Switch(false)))
  {
    if name == "add_document" then
      if "content" in args then AddDocumentCall(args["content"], GetOr(args, "metadata", MetaArg(map[])), GetOr(args, "chunk_size", Number(1000)))
      else ExecutionError(name)
    else if name == "answer_question" then
      if "question" in args
      then AnswerQuestionCall(args["question"], GetOr(args, "context_k", Number(3)),
                              GetOr(args, "answer_style", Text("detailed")), GetOr(args, "include_sources", Switch(true)))
      else ExecutionError(name)
    else if name == "get_collection_stats" then StatsCall(GetOr(args, "detailed", Switch(false)))
    else if name in UnhandledTools then ExecutionError(name)
    else UnknownTool(name)
  }

  /** The text of an error route. */
  function ErrorText(r: Route): (t: string)
    requires r.ExecutionError? || r.UnknownTool?
    ensures r.UnknownTool? ==> t == "❌ 未知的工具: " + r.tool
    ensures r.ExecutionError? ==> StartsWith(t, "❌ 执行工具 " + r.tool + " 时出错: ")
  {
    if r.UnknownTool? then "❌ 未知的工具: " + r.tool
    else
      var t := "❌ 执行工具 " + r.tool + " 时出错: ";
      assert t[..|t|] == t;
      t
  }

  /** Only the three handled tools ever reach a handler, whatever the arguments. */
  lemma DispatchReachesHandlerOnlyForHandledTools(name: string, args: Args)
    ensures var r := Dispatch(name, args);
      !(r.ExecutionError? || r.UnknownTool?) ==> name in HandledTools
    ensures name in UnhandledTools ==> forall a: Args :: Dispatch(name, a).ExecutionError?
  {
  }

  // ---------------------------------------------------------------------------
  // Adding a document
  // ---------------------------------------------------------------------------

  /** The service's view of the collection: its records and the running `total_chunks` counter. */
  datatype State = State(store: seq<Doc>, totalChunks: nat)

  datatype AddReply =
    | EmptyContent                                   // ❌ 文档内容不能为空
    | AddFailed                                      // ❌ 添加文档失败: … (no chunks: the average divides by zero)
    | Added(chunkCount: nat, averageSize: nat)

  /**
   `_add_document`: blank content is refused before splitting; the chunks are
   stored with their bookkeeping metadata and the counter grows by their
   number. With no chunks the average divides by zero, so the call fails after
   having added nothing.
   */
  function AddDocument(st: State, content: string, meta: Metadata, split: string -> seq<string>): (r: (AddReply, State))
    ensures IsBlank(content) ==> r == (EmptyContent, st)
    ensures !IsBlank(content) && split(content) == [] ==> r == (AddFailed, st)
    ensures !IsBlank(content) && split(content) != [] ==> r.0.Added?
    ensures r.0.Added? ==>
      var chunks := split(content);
      && !IsBlank(content) && chunks != []
      && r.0 == Added(|chunks|, AverageSize(chunks))
      && r.1 == State(st.store + AnnotateChunks(meta, chunks), st.totalChunks + |chunks|)
  {
    StripEmptyIffBlank(content);
    if Strip(content) == [] then (EmptyContent, st)
    else
      var chunks := split(content);
      var st' := State(st.store + AnnotateChunks(meta, chunks), st.totalChunks + |chunks|);
      if chunks == [] then
        assert st'.store == st.store;
        (AddFailed, st')
      else (Added(|chunks|, AverageSize(chunks)), st')
  }

  /** The counter stays equal to the number of stored records once they agree. */
  lemma {:induction false} CounterTracksStore(st: State, contents: seq<string>, meta: Metadata, split: string -> seq<string>)
    requires st.totalChunks == |st.store|
    ensures var after := AddAll(st, contents, meta, split); after.totalChunks == |after.store|
    decreases |contents|
  {
    if contents != [] {
      var next := AddDocument(st, contents[0], meta, split).1;
      CounterTracksStore(next, contents[1..], meta, split);
    }
  }

  /** Adding several documents one after the other. */
  function AddAll(st: State, contents: seq<string>, meta: Metadata, split: string -> seq<string>): State
    decreases |contents|
  {
    if contents == [] then st else AddAll(AddDocument(st, contents[0], meta, split).1, contents[1..], meta, split)
  }

  // ---------------------------------------------------------------------------
  // Answering
  // ---------------------------------------------------------------------------

  /** The fixed instruction each answer style puts at the head of the prompt. */
  function StylePrefix(style: string): (r: Option<string>)
    ensures r.Some? <==> style in {"detailed", "concise", "analytical"}
  {
    if style == "detailed" then Some("请基于上下文信息提供详细、全面的回答。")
    else if style == "concise" then Some("请基于上下文信息提供简洁、要点明确的回答。")
    else if style == "analytical" then Some("请基于上下文信息进行深入分析，提供有见解的回答。")
    else None
  }

  lemma StylePrefixesDistinct()
    ensures StylePrefix("detailed") != StylePrefix("concise")
    ensures StylePrefix("detailed") != StylePrefix("analytical")
    ensures StylePrefix("concise") != StylePrefix("analytical")
  {
    assert StylePrefix("detailed").value[10] != StylePrefix("concise").value[10];
    assert StylePrefix("detailed").value[8] != StylePrefix("analytical").value[8];
    assert StylePrefix("concise").value[8] != StylePrefix("analytical").value[8];
  }

  datatype AnswerReply =
    | NothingFound                                   // ❌ 知识库中没有找到相关信息来回答这个问题
    | AnswerFailed(style: string)                    // ❌ 回答问题失败: 'style'
    | AnswerError(error: string)                     // ❌ 回答问题失败: {e}
    | Answered(prompt: string, response: string, sources: seq<string>)

  const TitleKey: string := "title"
  const SourceKey: string := "source"

  /** The source label of the `i`-th (1-based) hit: `title`, else `source`, else `文档块 i`. */
  function SourceLabel(m: Metadata, i: nat): (r: string)
    ensures TitleKey in m ==> r == Render(m[TitleKey])
    ensures TitleKey !in m && SourceKey in m ==> r == Render(m[SourceKey])
    ensures TitleKey !in m && SourceKey !in m ==> r == "文档块 " + NatToString(i)
  {
    Render(GetOr(m, TitleKey, GetOr(m, SourceKey, Str("文档块 " + NatToString(i)))))
  }

  function ContextParts(docs: seq<Doc>): (ps: seq<string>)
    ensures |ps| == |docs| && forall i :: 0 <= i < |docs| ==> ps[i] == "[文档 " + NatToString(i + 1) + "]: " + docs[i].content
  {
    seq(|docs|, i requires 0 <= i < |docs| => "[文档 " + NatToString(i + 1) + "]: " + docs[i].content)
  }

  /** The prompt: the style's instruction, the numbered context, the question. */
  function StylePrompt(prefix: string, docs: seq<Doc>, question: string): (p: string)
    ensures StartsWith(p, prefix)
  {
    var p := prefix + "\n\n上下文信息：\n" + Join(ContextParts(docs), "\n\n") + "\n\n问题：" + question + "\n\n请基于上下文信息回答问题：";
    assert p[..|prefix|] == prefix;
    p
  }

  /** The heading in front of the context. */
  const ContextHeading: string := "\n\n上下文信息：\n"

  /** The closing question part. */
  function QuestionPart(question: string): string {
    "\n\n问题：" + question + "\n\n请基于上下文信息回答问题："
  }

  /** The numbered context the styled prompt carries: the parts in retrieval order, a blank line apart. */
  function StyleContext(docs: seq<Doc>): string {
    Join(ContextParts(docs), "\n\n")
  }

  /** One more retrieved chunk appends its numbered part, after a blank line, to the context. */
  lemma StyleContextAppend(docs: seq<Doc>, d: Doc)
    ensures StyleContext([]) == ""
    ensures StyleContext([d]) == "[文档 " + NatToString(1) + "]: " + d.content
    ensures docs != [] ==>
      StyleContext(docs + [d]) == StyleContext(docs) + "\n\n" + ("[文档 " + NatToString(|docs| + 1) + "]: " + d.content)
  {
    assert ContextParts([d]) == ["[文档 " + NatToString(1) + "]: " + d.content];
    if docs != [] {
      var x := "[文档 " + NatToString(|docs| + 1) + "]: " + d.content;
      assert ContextParts(docs + [d]) == ContextParts(docs) + [x];
      JoinSnoc(ContextParts(docs), x, "\n\n");
    }
  }

  /**
   The styled prompt is the prefix, the context heading, the context and the
   question part: the context sits right after the heading and the lengths add up.
   */
  lemma StylePromptLayout(prefix: string, docs: seq<Doc>, question: string)
    ensures var p := StylePrompt(prefix, docs, question);
      var head := prefix + ContextHeading;
      var ctx := StyleContext(docs);
      && |p| == |head| + |ctx| + |QuestionPart(question)|
      && p[|head|..|head| + |ctx|] == ctx
      && p[|head| + |ctx|..] == QuestionPart(question)
  {
    var head := prefix + ContextHeading;
    var ctx := StyleContext(docs);
    assert StylePrompt(prefix, docs, question) == head + ctx + QuestionPart(question);
    MiddlePart(head, ctx, QuestionPart(question));
    assert (head + ctx + QuestionPart(question))[|head| + |ctx|..] == QuestionPart(question);
  }

  /**
   The styled prompt carries every retrieved chunk's numbered part, and closes
   with the question under its heading before the closing instruction.
   */
  lemma StylePromptHasEveryPart(prefix: string, docs: seq<Doc>, question: string)
    ensures forall i :: 0 <= i < |docs| ==>
      Contains(StylePrompt(prefix, docs, question), "[文档 " + NatToString(i + 1) + "]: " + docs[i].content)
    ensures var p := StylePrompt(prefix, docs, question);
      var tail := "\n\n问题：" + question + "\n\n请基于上下文信息回答问题：";
      |tail| <= |p| && p[|p| - |tail|..] == tail
    ensures Contains(StylePrompt(prefix, docs, question), question)
  {
    var head := prefix + "\n\n上下文信息：\n";
    var ctx := Join(ContextParts(docs), "\n\n");
    var tail := "\n\n问题：" + question + "\n\n请基于上下文信息回答问题：";
    assert StylePrompt(prefix, docs, question) == (head + ctx) + tail;
    JoinContainsParts(ContextParts(docs), "\n\n");
    forall i | 0 <= i < |docs|
      ensures Contains(StylePrompt(prefix, docs, question), "[文档 " + NatToString(i + 1) + "]: " + docs[i].content)
    {
      var part := ContextParts(docs)[i];
      assert Contains(ctx, part);
      ContainsInRight(head, ctx, part);
      ContainsInLeft(head + ctx, tail, part);
    }
    ContainsHalves("\n\n问题：", question);
    ContainsInLeft("\n\n问题：" + question, "\n\n请基于上下文信息回答问题：", question);
    ContainsInRight(head + ctx, tail, question);
  }

  /**
   `_answer_question`: an empty retrieval returns the sentinel; an unknown
   style fails with a `KeyError` after retrieval and before generation;
   otherwise the LLM answers the styled prompt. There is no blank-question
   check. The similarity search (`retrieved`) and the LLM call may raise; the
   handler then replies with the error.
   */
  function AnswerQuestion(question: string, retrieved: Result<seq<Doc>, string>, style: string,
                          llm: string -> Result<string, string>): (r: AnswerReply)
    ensures retrieved.Failure? ==> r == AnswerError(retrieved.error)
    ensures retrieved == Success([]) <==> r == NothingFound
    ensures retrieved.Success? && retrieved.value != [] && StylePrefix(style).None? ==> r == AnswerFailed(style)
    ensures r.Answered? <==>
      && retrieved.Success? && retrieved.value != [] && StylePrefix(style).Some?
      && llm(StylePrompt(StylePrefix(style).value, retrieved.value, question)).Success?
    ensures r.Answered? ==>
      var hits := retrieved.value;
      && StartsWith(r.prompt, StylePrefix(style).value)
      && r.prompt == StylePrompt(StylePrefix(style).value, hits, question)
      && llm(r.prompt) == Success(r.response)
      && |r.sources| == |hits|
      && (forall i :: 0 <= i < |hits| ==> r.sources[i] == SourceLabel(hits[i].meta, i + 1))
    ensures r.AnswerError? ==>
      || (retrieved.Failure? && r.error == retrieved.error)
      || (retrieved.Success? && StylePrefix(style).Some?
          && llm(StylePrompt(StylePrefix(style).value, retrieved.value, question)) == Failure(r.error))
  {
    match retrieved
    case Failure(e) => AnswerError(e)
    case Success(hits) =>
      if hits == [] then NothingFound
      else
        match StylePrefix(style)
        case None => AnswerFailed(style)
        case Some(prefix) =>
          var prompt := StylePrompt(prefix, hits, question);
          match llm(prompt)
          case Failure(e) => AnswerError(e)
          case Success(response) => Answered(prompt, response, Labels(hits, SourceLabel))
  }

  // ---------------------------------------------------------------------------
  // Detailed statistics
  // ---------------------------------------------------------------------------

  const CategoryKey: string := "category"
  const MaxSources: nat := 10

  /** One counter entry of the statistics: a value and how many records carry it. */
  datatype Tally = Tally(key: Value, count: nat)

  datatype Breakdown = Breakdown(categories: seq<Tally>, sources: seq<Tally>)

  datatype Stats = Stats(totalChunks: nat, breakdown: Option<Breakdown>)

  function Tallies(bs: seq<Bucket<Value>>): (ts: seq<Tally>)
    ensures |ts| == |bs| && forall p :: 0 <= p < |bs| ==> ts[p] == Tally(bs[p].key, |bs[p].members|)
  {
    seq(|bs|, p requires 0 <= p < |bs| => Tally(bs[p].key, |bs[p].members|))
  }

  function CategoryKeys(metas: seq<Metadata>): (ks: seq<Value>)
    ensures |ks| == |metas| && forall i :: 0 <= i < |metas| ==> ks[i] == GetOr(metas[i], CategoryKey, Str("未分类"))
  {
    seq(|metas|, i requires 0 <= i < |metas| => GetOr(metas[i], CategoryKey, Str("未分类")))
  }

  function SourceKeys(metas: seq<Metadata>): (ks: seq<Value>)
    ensures |ks| == |metas| && forall i :: 0 <= i < |metas| ==> ks[i] == GetOr(metas[i], SourceKey, Str("未知来源"))
  {
    seq(|metas|, i requires 0 <= i < |metas| => GetOr(metas[i], SourceKey, Str("未知来源")))
  }

  /**
   `_get_detailed_stats` over the collection's metadata: the record count, and
   when details are asked for and the collection is not empty, the category and
   source counters in first-seen order, sources cut to the first ten entries.
   */
  function DetailedStats(metas: seq<Metadata>, detailed: bool): (r: Stats)
    ensures r.totalChunks == |metas|
    ensures r.breakdown.Some? <==> detailed && metas != []
    ensures r.breakdown.Some? ==>
      && r.breakdown.value.categories == Tallies(GroupBy(CategoryKeys(metas)))
      && r.breakdown.value.sources == SliceTo(Tallies(GroupBy(SourceKeys(metas))), MaxSources)
      && |r.breakdown.value.sources| <= MaxSources
  {
    if detailed && |metas| > 0 then
      Stats(|metas|, Some(Breakdown(Tallies(GroupBy(CategoryKeys(metas))), SliceTo(Tallies(GroupBy(SourceKeys(metas))), MaxSources))))
    else Stats(|metas|, None)
  }

  function TallyTotal(ts: seq<Tally>): nat
    decreases |ts|
  {
    if ts == [] then 0 else TallyTotal(ts[..|ts| - 1]) + ts[|ts| - 1].count
  }

  lemma {:induction false} TalliesTotal(bs: seq<Bucket<Value>>)
    ensures TallyTotal(Tallies(bs)) == TotalSize(bs)
    decreases |bs|
  {
    if bs != [] {
      var init := bs[..|bs| - 1];
      TalliesTotal(init);
      assert Tallies(bs)[..|bs| - 1] == Tallies(init);
    }
  }

  /** Each counter counts its value's records exactly, keys are distinct, and the counts add up to the records. */
  lemma TallyMeaning(keys: seq<Value>)
    ensures var ts := Tallies(GroupBy(keys));
      && TallyTotal(ts) == |keys|
      && (forall p :: 0 <= p < |ts| ==> ts[p].count == Count(keys, ts[p].key) > 0)
      && (forall p, q :: 0 <= p < q < |ts| ==> ts[p].key != ts[q].key)
      && KeysCovered(keys, ts)
  {
    var bs := GroupBy(keys);
    var ts := Tallies(bs);
    TalliesTotal(bs);
    TalliesCover(keys);
    forall p | 0 <= p < |ts|
      ensures ts[p].count == Count(keys, ts[p].key) > 0
    {
      assert ts[p] == Tally(bs[p].key, |bs[p].members|);
      assert bs[p].members == Positions(keys, bs[p].key) && bs[p].members != [];
    }
    forall p, q | 0 <= p < q < |ts|
      ensures ts[p].key != ts[q].key
    {
      assert ts[p].key == bs[p].key && ts[q].key == bs[q].key;
    }
  }

  /** Every key has a counter. */
  ghost predicate KeysCovered(keys: seq<Value>, ts: seq<Tally>) {
    forall i :: 0 <= i < |keys| ==> exists p :: 0 <= p < |ts| && ts[p].key == keys[i]
  }

  lemma TalliesCover(keys: seq<Value>)
    ensures KeysCovered(keys, Tallies(GroupBy(keys)))
  {
    var bs := GroupBy(keys);
    var ts := Tallies(bs);
    forall i | 0 <= i < |keys|
      ensures exists p :: 0 <= p < |ts| && ts[p].key == keys[i]
    {
      assert keys[i] in KeysOf(bs);
      var p :| 0 <= p < |bs| && KeysOf(bs)[p] == keys[i];
      assert ts[p].key == keys[i];
    }
  }

  /** Category counts add up to the number of records. */
  lemma CategoryCountsAddUp(metas: seq<Metadata>)
    requires metas != []
    ensures TallyTotal(DetailedStats(metas, true).breakdown.value.categories) == |metas|
  {
    TallyMeaning(CategoryKeys(metas));
  }

  /** Source counts add up to the number of records when at most ten sources exist. */
  lemma SourceCountsAddUp(metas: seq<Metadata>)
    requires metas != [] && |GroupBy(SourceKeys(metas))| <= MaxSources
    ensures TallyTotal(DetailedStats(metas, true).breakdown.value.sources) == |metas|
  {
    TallyMeaning(SourceKeys(metas));
  }
}

=== FILE: ranking.dfy ===
/**
 Python's `sorted(xs, key=..., reverse=...)`: a stable sort by a total
 preorder, written as an insertion sort over sequences. Stability comes from
 inserting each element in front of the first element it precedes, so
 equivalent elements keep their input order.
 */
module Ranking {

  /** `le` is a total preorder: total and transitive. */
  ghost predicate TotalPreorder<T(!new)>(le: (T, T) -> bool) {
    && (forall a, b :: le(a, b) || le(b, a))
    && (forall a, b, c :: le(a, b) && le(b, c) ==> le(a, c))
  }

  /** Every element precedes every later one. */
  ghost predicate SortedBy<T>(s: seq<T>, le: (T, T) -> bool) {
    forall i, j :: 0 <= i < j < |s| ==> le(s[i], s[j])
  }

  /** Places `x` in front of the first element of `s` that it precedes. */
  function Insert<T(==,!new)>(x: T, s: seq<T>, le: (T, T) -> bool): (r: seq<T>)
    requires TotalPreorder(le) && SortedBy(s, le)
    ensures SortedBy(r, le)
    ensures multiset(r) == multiset(s) + multiset{x}
    decreases |s|
  {
    if s == [] then [x]
    else if le(x, s[0]) then
      [x] + s
    else
      var rest := Insert(x, s[1..], le);
      HeadPrecedesInsertion(x, s, rest, le);
      assert s == [s[0]] + s[1..];
      [s[0]] + rest
  }

  /** When `x` goes after the head of `s`, that head precedes everything after it. */
  lemma HeadPrecedesInsertion<T(!new)>(x: T, s: seq<T>, rest: seq<T>, le: (T, T) -> bool)
    requires TotalPreorder(le) && SortedBy(s, le) && s != [] && !le(x, s[0])
    requires SortedBy(rest, le) && multiset(rest) == multiset(s[1..]) + multiset{x}
    ensures SortedBy([s[0]] + rest, le)
  {
    forall j | 0 <= j < |rest|
      ensures le(s[0], rest[j])
    {
      assert rest[j] in multiset(rest);
      if rest[j] != x {
        assert rest[j] in multiset(s[1..]);
        var k :| 0 <= k < |s[1..]| && s[1..][k] == rest[j];
        assert s[k + 1] == rest[j];
      }
    }
  }

  /** `sorted(s)` under the order `le`. */
  function Sort<T(==,!new)>(s: seq<T>, le: (T, T) -> bool): (r: seq<T>)
    requires TotalPreorder(le)
    ensures SortedBy(r, le)
    ensures multiset(r) == multiset(s)
    decreases |s|
  {
    if s == [] then []
    else
      assert s == [s[0]] + s[1..];
      Insert(s[0], Sort(s[1..], le), le)
  }

  ghost predicate Distinct<T>(s: seq<T>) {
    forall i, j :: 0 <= i < j < |s| ==> s[i] != s[j]
  }

  lemma DistinctOccursOnce<T>(s: seq<T>, x: T)
    requires Distinct(s)
    ensures multiset(s)[x] <= 1
    decreases |s|
  {
    if s != [] {
      assert s == [s[0]] + s[1..];
      DistinctOccursOnce(s[1..], x);
      if s[0] == x {
        assert x !in s[1..];
      }
    }
  }

  lemma RepeatOccursTwice<T>(s: seq<T>, i: nat, j: nat)
    requires i < j < |s| && s[i] == s[j]
    ensures multiset(s)[s[i]] >= 2
  {
    assert s == s[..j] + [s[j]] + s[j + 1..];
    assert s[..j][i] == s[i];
  }

  /** A permutation of a repetition-free sequence is repetition-free. */
  lemma DistinctPermutation<T>(a: seq<T>, b: seq<T>)
    requires multiset(a) == multiset(b) && Distinct(a)
    ensures Distinct(b)
  {
    forall i, j | 0 <= i < j < |b|
      ensures b[i] != b[j]
    {
      if b[i] == b[j] {
        RepeatOccursTwice(b, i, j);
        DistinctOccursOnce(a, b[i]);
      }
    }
  }

  lemma TailPermutation<T>(a: seq<T>, b: seq<T>)
    requires multiset(a) == multiset(b) && a != [] && b != [] && a[0] == b[0]
    ensures multiset(a[1..]) == multiset(b[1..])
  {
    assert a == [a[0]] + a[1..];
    assert b == [b[0]] + b[1..];
    assert multiset(a[1..]) == multiset(a) - multiset{a[0]};
    assert multiset(b[1..]) == multiset(b) - multiset{b[0]};
  }

  /** `le` orders the elements of `s` antisymmetrically: equivalent elements are equal. */
  ghost predicate AntisymmetricOn<T>(s: seq<T>, le: (T, T) -> bool) {
    forall i, j :: 0 <= i < |s| && 0 <= j < |s| && le(s[i], s[j]) && le(s[j], s[i]) ==> s[i] == s[j]
  }

  lemma SameHead<T>(a: seq<T>, b: seq<T>, le: (T, T) -> bool)
    requires AntisymmetricOn(a, le)
    requires SortedBy(a, le) && SortedBy(b, le)
    requires multiset(a) == multiset(b) && a != []
    ensures b != [] && a[0] == b[0]
  {
    assert a[0] in multiset(b);
    assert b[0] in multiset(a);
    var i :| 0 <= i < |a| && a[i] == b[0];
    var j :| 0 <= j < |b| && b[j] == a[0];
    if i > 0 && j > 0 {
      assert le(a[0], a[i]) && le(b[0], b[j]);
    }
  }

  /**
   Sorting determines the result: two sorted permutations of the same elements
   coincide when no two distinct elements are equivalent. So `Sort` agrees
   with every other stable or unstable sort under such an order.
   */
  lemma {:induction false} SortedPermutationUnique<T>(a: seq<T>, b: seq<T>, le: (T, T) -> bool)
    requires AntisymmetricOn(a, le)
    requires SortedBy(a, le) && SortedBy(b, le)
    requires multiset(a) == multiset(b)
    ensures a == b
    decreases |a|
  {
    if a != [] {
      SameHead(a, b, le);
      TailPermutation(a, b);
      assert forall i :: 0 <= i < |a| - 1 ==> a[1..][i] == a[i + 1];
      SortedPermutationUnique(a[1..], b[1..], le);
      assert a == [a[0]] + a[1..];
      assert b == [b[0]] + b[1..];
    } else {
      assert |b| == |multiset(b)|;
    }
  }

  /** Python's `<=` on strings: lexicographic by code point, a prefix first. */
  predicate StrLe(a: string, b: string)
    decreases |a|
  {
    a == [] || (b != [] && (a[0] < b[0] || (a[0] == b[0] && StrLe(a[1..], b[1..]))))
  }

  lemma {:induction false} StrLeTotal(a: string, b: string)
    ensures StrLe(a, b) || StrLe(b, a)
    decreases |a|
  {
    if a != [] && b != [] && a[0] == b[0] {
      StrLeTotal(a[1..], b[1..]);
    }
  }

  lemma {:induction false} StrLeTransitive(a: string, b: string, c: string)
    requires StrLe(a, b) && StrLe(b, c)
    ensures StrLe(a, c)
    decreases |a|
  {
    if a != [] && a[0] == b[0] && b[0] == c[0] {
      StrLeTransitive(a[1..], b[1..], c[1..]);
    }
  }

  lemma {:induction false} StrLeAntisymmetric(a: string, b: string)
    requires StrLe(a, b) && StrLe(b, a)
    ensures a == b
    decreases |a|
  {
    if a != [] {
      StrLeAntisymmetric(a[1..], b[1..]);
      assert a == [a[0]] + a[1..] && b == [b[0]] + b[1..];
    }
  }

  lemma StrLeTotalPreorder()
    ensures TotalPreorder(StrLe)
  {
    forall a, b
      ensures StrLe(a, b) || StrLe(b, a)
    {
      StrLeTotal(a, b);
    }
    forall a, b, c | StrLe(a, b) && StrLe(b, c)
      ensures StrLe(a, c)
    {
      StrLeTransitive(a, b, c);
    }
  }
}

=== FILE: simple_agent.dfy ===
/**
 The two canned tools of the single-agent demo: `weather_query`, an exact
 lookup of a city in a fixed table, and `knowledge_search`, the first topic
 of a fixed knowledge base that the query mentions.
 */
module SimpleAgent {
  import opened Wrappers
  import opened Text
  import opened KeywordTable

  /** One row of the simulated weather table. */
  datatype Weather = Weather(sky: string, temperature: int, humidity: int, wind: string)

  const WeatherData: map<string, Weather> := map[
    "北京" := Weather("晴", 25, 45, "3级"),
    "上海" := Weather("多云", 22, 65, "2级"),
    "广州" := Weather("小雨", 28, 80, "1级"),
    "深圳" := Weather("阴", 27, 75, "2级")
  ]

  const NoWeatherPrefix: string := "抱歉，暂无"
  const NoWeatherSuffix: string := "的天气数据"

  /** The four fields after the city heading, as `weather_query` formats them. */
  function WeatherFields(w: Weather): string {
    w.sky + "，温度" + IntToString(w.temperature) + "°C，湿度" + IntToString(w.humidity) + "%，风力" + w.wind
  }

  /** `weather_query(city)`: the city's four fields, or an apology naming the city. */
  function WeatherQuery(city: string): (r: string)
    ensures city in WeatherData ==> r == city + "天气：" + WeatherFields(WeatherData[city])
    ensures city !in WeatherData ==> r == NoWeatherPrefix + city + NoWeatherSuffix
  {
    if city in WeatherData then city + "天气：" + WeatherFields(WeatherData[city])
    else NoWeatherPrefix + city + NoWeatherSuffix
  }

  /** The apology names the city asked about: it can be read back from the reply. */
  lemma UnknownCityReadsBack(city: string)
    requires city !in WeatherData
    ensures var r := WeatherQuery(city);
      |r| == |NoWeatherPrefix| + |city| + |NoWeatherSuffix|
      && r[|NoWeatherPrefix|..|r| - |NoWeatherSuffix|] == city
  {
    var r := WeatherQuery(city);
    assert r == NoWeatherPrefix + city + NoWeatherSuffix;
    assert r[|NoWeatherPrefix|..|r| - |NoWeatherSuffix|] == city;
  }

  /** So different unknown cities get different replies. */
  lemma UnknownCitiesDiffer(c1: string, c2: string)
    requires c1 !in WeatherData && c2 !in WeatherData && c1 != c2
    ensures WeatherQuery(c1) != WeatherQuery(c2)
  {
    UnknownCityReadsBack(c1);
    UnknownCityReadsBack(c2);
  }

  /** A known city is never answered with the apology. */
  lemma KnownCityIsNotRefused(known: string, other: string)
    requires known in WeatherData && other !in WeatherData
    ensures WeatherQuery(known) != WeatherQuery(other)
  {
    var r := WeatherQuery(known);
    assert known == "北京" || known == "上海" || known == "广州" || known == "深圳";
    assert r[0] == known[0];
    assert WeatherQuery(other)[0] == NoWeatherPrefix[0] == '抱';
  }

  const KnowledgeBase: seq<Entry> := [
    Entry("langchain", "LangChain是一个用于开发由语言模型驱动的应用程序的框架。它提供了一套工具、组件和接口，简化了创建由大型语言模型(LLM)驱动的应用程序的过程。"),
    Entry("agent", "AI Agent是一个能够感知环境、做出决策并采取行动的智能系统。它具有自主性、反应性、主动性和社交能力等特征。"),
    Entry("rag", "RAG（Retrieval-Augmented Generation）是一种结合了信息检索和生成式AI的技术，通过检索相关文档来增强语言模型的生成能力。"),
    Entry("向量数据库", "向量数据库是专门用于存储和检索高维向量数据的数据库系统，常用于语义搜索、推荐系统和AI应用中。")
  ]

  const NoKnowledge: string := "抱歉，知识库中暂无相关信息"

  /** The answer `knowledge_search` gives for a topic. */
  function KnowledgeAnswer(e: Entry): string {
    "关于" + e.key + "的信息：" + e.text
  }

  /** `knowledge_search(query)`: the first topic the query mentions, ignoring case. */
  function KnowledgeSearch(query: string): (r: string)
    ensures forall i: nat :: IsFirstMention(KnowledgeBase, query, i) ==> r == KnowledgeAnswer(KnowledgeBase[i])
    ensures NoMention(KnowledgeBase, query) ==> r == NoKnowledge
  {
    match FirstMatch(KnowledgeBase, query)
    case Some(i) => KnowledgeAnswer(KnowledgeBase[i])
    case None => NoKnowledge
  }

  /** The answer depends on the query only up to case. */
  lemma KnowledgeSearchIgnoresCase(query: string)
    ensures KnowledgeSearch(Lower(query)) == KnowledgeSearch(query)
  {
    FirstMatchIgnoresCase(KnowledgeBase, query);
  }
}

=== FILE: text.dfy ===
/**
 The handful of Python `str` operations the modelled code relies on, over
 `string` (a sequence of Unicode scalar values, as Python's `str` is):
 whitespace stripping, substring search, `split`/`join`, ASCII lower-casing,
 decimal rendering of integers and slicing with a possibly negative bound.
 */
module Text {
  import opened Wrappers

  /** Python's `str.isspace()`: the characters `strip()` and `split()` treat as whitespace. */
  predicate IsSpace(c: char) {
    || ('\t' <= c <= '\r') || ('\U{1c}' <= c <= '\U{1f}') || c == ' '
    || c == '\U{85}' || c == '\U{a0}' || c == '\U{1680}'
    || ('\U{2000}' <= c <= '\U{200a}') || c == '\U{2028}' || c == '\U{2029}'
    || c == '\U{202f}' || c == '\U{205f}' || c == '\U{3000}'
  }

  /** True iff `s` consists of whitespace only (Python: `not s.strip()`). */
  predicate IsBlank(s: string) {
    forall i :: 0 <= i < |s| ==> IsSpace(s[i])
  }

  /** `s.lstrip()`: the suffix of `s` left after dropping leading whitespace. */
  function LStrip(s: string): (r: string)
    ensures |r| <= |s| && r == s[|s| - |r|..]
    ensures forall i :: 0 <= i < |s| - |r| ==> IsSpace(s[i])
    ensures r == [] || !IsSpace(r[0])
  {
    if s != [] && IsSpace(s[0]) then LStrip(s[1..]) else s
  }

  /** `s.rstrip()`: the prefix of `s` left after dropping trailing whitespace. */
  function RStrip(s: string): (r: string)
    ensures |r| <= |s| && r == s[..|r|]
    ensures forall i :: |r| <= i < |s| ==> IsSpace(s[i])
    ensures r == [] || !IsSpace(r[|r| - 1])
  {
    if s != [] && IsSpace(s[|s| - 1]) then RStrip(s[..|s| - 1]) else s
  }

  /** The number of leading whitespace characters of `s`. */
  function LeadingSpaces(s: string): (n: nat)
    ensures n <= |s|
  {
    |s| - |LStrip(s)|
  }

  /** `s.strip()`: `s` without its leading and trailing whitespace. */
  function Strip(s: string): (r: string)
    ensures |r| <= |s|
    ensures r == [] || (!IsSpace(r[0]) && !IsSpace(r[|r| - 1]))
  {
    RStrip(LStrip(s))
  }

  /** A text with no whitespace at either end is its own strip. */
  lemma StripUnpadded(s: string)
    requires s != [] && !IsSpace(s[0]) && !IsSpace(s[|s| - 1])
    ensures Strip(s) == s
  {
    assert LStrip(s) == s;
  }

  lemma LStripEmptyIffBlank(s: string)
    ensures LStrip(s) == [] <==> IsBlank(s)
  {
    var l := LStrip(s);
    if l != [] {
      assert s[|s| - |l|] == l[0];
    }
  }

  /** Stripping leaves nothing exactly when the string is all whitespace. */
  lemma StripEmptyIffBlank(s: string)
    ensures Strip(s) == [] <==> IsBlank(s)
  {
    LStripEmptyIffBlank(s);
  }

  /** `sub` occurs in `s` starting at index `i`. */
  predicate OccursAt(s: string, sub: string, i: int) {
    0 <= i && i + |sub| <= |s| && s[i..i + |sub|] == sub
  }

  /** Python's `sub in s` (true for the empty `sub`). */
  predicate Contains(s: string, sub: string) {
    exists i | 0 <= i <= |s| - |sub| :: OccursAt(s, sub, i)
  }

  /** `s.startswith(prefix)`. */
  predicate StartsWith(s: string, prefix: string) {
    |prefix| <= |s| && s[..|prefix|] == prefix
  }

  function FindFrom(s: string, sub: string, k: nat): (r: Option<nat>)
    requires k <= |s| + 1
    ensures r.Some? ==> k <= r.value && OccursAt(s, sub, r.value)
    ensures r.Some? ==> forall j :: k <= j < r.value ==> !OccursAt(s, sub, j)
    ensures r.None? ==> forall j :: k <= j ==> !OccursAt(s, sub, j)
    decreases |s| + 1 - k
  {
    if k + |sub| > |s| then None
    else if s[k..k + |sub|] == sub then Some(k)
    else FindFrom(s, sub, k + 1)
  }

  /** `s.find(sub)`: the index of the first occurrence of `sub`, if any. */
  function Find(s: string, sub: string): (r: Option<nat>)
    ensures r.Some? ==> OccursAt(s, sub, r.value)
    ensures r.Some? ==> forall j :: 0 <= j < r.value ==> !OccursAt(s, sub, j)
    ensures r.None? <==> !Contains(s, sub)
  {
    FindFrom(s, sub, 0)
  }

  /** The text before the first occurrence of `sub` does not contain `sub`. */
  lemma NoOccurrenceBeforeFirst(s: string, sub: string, i: nat)
    requires sub != [] && Find(s, sub) == Some(i)
    ensures !Contains(s[..i], sub)
  {
    forall j | 0 <= j <= i - |sub|
      ensures !OccursAt(s[..i], sub, j)
    {
      assert s[..i][j..j + |sub|] == s[j..j + |sub|];
      assert !OccursAt(s, sub, j);
    }
  }

  /** `s.split(sep)` for a non-empty separator: the pieces between occurrences of `sep`. */
  function Split(s: string, sep: string): (r: seq<string>)
    requires sep != []
    ensures |r| >= 1
    decreases |s|
  {
    match Find(s, sep)
    case None => [s]
    case Some(i) => [s[..i]] + Split(s[i + |sep|..], sep)
  }

  /** No piece of a split contains the separator. */
  lemma {:induction false} SplitPiecesAvoidSeparator(s: string, sep: string)
    requires sep != []
    ensures forall i :: 0 <= i < |Split(s, sep)| ==> !Contains(Split(s, sep)[i], sep)
    decreases |s|
  {
    match Find(s, sep)
    case None =>
    case Some(i) =>
      var rest := s[i + |sep|..];
      NoOccurrenceBeforeFirst(s, sep, i);
      SplitPiecesAvoidSeparator(rest, sep);
      var r := Split(s, sep);
      assert r == [s[..i]] + Split(rest, sep);
      forall k | 0 <= k < |r|
        ensures !Contains(r[k], sep)
      {
        if k > 0 {
          assert r[k] == Split(rest, sep)[k - 1];
        }
      }
  }

  /** `sep.join(parts)`. */
  function Join(parts: seq<string>, sep: string): string
    decreases |parts|
  {
    if |parts| == 0 then ""
    else if |parts| == 1 then parts[0]
    else parts[0] + sep + Join(parts[1..], sep)
  }

  lemma JoinCons(a: string, rest: seq<string>, sep: string)
    requires |rest| >= 1
    ensures Join([a] + rest, sep) == a + sep + Join(rest, sep)
  {
    assert ([a] + rest)[1..] == rest;
  }

  /** Joining one more part appends the separator and the part. */
  lemma {:induction false} JoinSnoc(parts: seq<string>, x: string, sep: string)
    requires |parts| >= 1
    ensures Join(parts + [x], sep) == Join(parts, sep) + sep + x
    decreases |parts|
  {
    if |parts| == 1 {
      assert (parts + [x])[1..] == [x];
    } else {
      assert (parts + [x])[1..] == parts[1..] + [x];
      JoinSnoc(parts[1..], x, sep);
    }
  }

  lemma ContainsInLeft(a: string, b: string, sub: string)
    requires Contains(a, sub)
    ensures Contains(a + b, sub)
  {
    var i :| 0 <= i <= |a| - |sub| && OccursAt(a, sub, i);
    assert (a + b)[i..i + |sub|] == a[i..i + |sub|];
    assert OccursAt(a + b, sub, i);
  }

  lemma ContainsInRight(a: string, b: string, sub: string)
    requires Contains(b, sub)
    ensures Contains(a + b, sub)
  {
    var i :| 0 <= i <= |b| - |sub| && OccursAt(b, sub, i);
    assert (a + b)[|a| + i..|a| + i + |sub|] == b[i..i + |sub|];
    assert OccursAt(a + b, sub, |a| + i);
  }

  lemma ContainsSelf(s: string)
    ensures Contains(s, s)
  {
    assert OccursAt(s, s, 0);
  }

  /** Both halves of a concatenation occur in it. */
  lemma ContainsHalves(a: string, b: string)
    ensures Contains(a + b, a) && Contains(a + b, b)
  {
    ContainsSelf(a);
    ContainsSelf(b);
    ContainsInLeft(a, b, a);
    ContainsInRight(a, b, b);
  }

  /** The middle of three concatenated strings sits right after the first and occurs in the whole. */
  lemma MiddlePart(a: string, b: string, c: string)
    ensures var s := a + b + c; |a| + |b| + |c| == |s| && s[|a|..|a| + |b|] == b && Contains(s, b)
  {
    var s := a + b + c;
    assert s[|a|..|a| + |b|] == b;
    assert OccursAt(s, b, |a|);
  }

  /** The second of two concatenated strings ends the whole and occurs in it. */
  lemma LastPart(a: string, b: string)
    ensures var s := a + b; |b| <= |s| && s[|s| - |b|..] == b && Contains(s, b)
  {
    var s := a + b;
    assert s[|a|..] == b;
    assert OccursAt(s, b, |a|);
  }

  /** Containment is transitive. */
  lemma ContainsTransitive(a: string, b: string, c: string)
    requires Contains(a, b) && Contains(b, c)
    ensures Contains(a, c)
  {
    var i :| 0 <= i <= |a| - |b| && OccursAt(a, b, i);
    var j :| 0 <= j <= |b| - |c| && OccursAt(b, c, j);
    forall k | 0 <= k < |c|
      ensures a[i + j + k] == c[k]
    {
      assert b[j + k] == c[k];
      assert a[i + (j + k)] == b[j + k];
    }
    assert a[i + j..i + j + |c|] == c;
    assert OccursAt(a, c, i + j);
  }

  /** A text that avoids `sub` has no part that contains it. */
  lemma AvoidedInPart(a: string, b: string, sub: string)
    requires Contains(a, b) && !Contains(a, sub)
    ensures !Contains(b, sub)
  {
    if Contains(b, sub) {
      ContainsTransitive(a, b, sub);
    }
  }

  lemma StartsWithContains(s: string, prefix: string)
    requires StartsWith(s, prefix)
    ensures Contains(s, prefix)
  {
    assert OccursAt(s, prefix, 0);
  }

  /** The stripped text is a part of the original. */
  lemma StripInfix(s: string)
    ensures Contains(s, Strip(s))
  {
    var l := LStrip(s);
    var r := Strip(s);
    var k := |s| - |l|;
    assert r == l[..|r|];
    assert s[k..k + |r|] == r;
    assert OccursAt(s, r, k);
  }

  /** Joining whitespace-only parts with a whitespace-only separator gives whitespace only. */
  lemma {:induction false} JoinOfBlanksIsBlank(parts: seq<string>, sep: string)
    requires IsBlank(sep)
    ensures (forall i :: 0 <= i < |parts| ==> IsBlank(parts[i])) ==> IsBlank(Join(parts, sep))
    decreases |parts|
  {
    if |parts| > 1 && forall i :: 0 <= i < |parts| ==> IsBlank(parts[i]) {
      JoinOfBlanksIsBlank(parts[1..], sep);
      assert forall i :: 0 <= i < |parts| - 1 ==> parts[1..][i] == parts[i + 1];
      var tail := Join(parts[1..], sep);
      var j := parts[0] + sep + tail;
      forall k | 0 <= k < |j|
        ensures IsSpace(j[k])
      {
        if k < |parts[0]| {
          assert j[k] == parts[0][k];
        } else if k < |parts[0]| + |sep| {
          assert j[k] == sep[k - |parts[0]|];
        } else {
          assert j[k] == tail[k - |parts[0]| - |sep|];
        }
      }
    }
  }

  /** Every part occurs in the joined text. */
  lemma {:induction false} JoinContainsParts(parts: seq<string>, sep: string)
    ensures forall i :: 0 <= i < |parts| ==> Contains(Join(parts, sep), parts[i])
    decreases |parts|
  {
    if |parts| == 1 {
      ContainsSelf(parts[0]);
    } else if |parts| > 1 {
      var rest := parts[1..];
      JoinContainsParts(rest, sep);
      ContainsSelf(parts[0]);
      ContainsInLeft(parts[0], sep + Join(rest, sep), parts[0]);
      assert parts[0] + sep + Join(rest, sep) == parts[0] + (sep + Join(rest, sep));
      forall i | 1 <= i < |parts|
        ensures Contains(Join(parts, sep), parts[i])
      {
        assert parts[i] == rest[i - 1];
        ContainsInRight(parts[0] + sep, Join(rest, sep), parts[i]);
      }
    }
  }

  /** `s` is the text before an occurrence of `sep`, `sep`, and the text after it. */
  lemma SplitAround(s: string, sep: string, i: nat)
    requires OccursAt(s, sep, i)
    ensures s == s[..i] + sep + s[i + |sep|..]
  {
    assert s == s[..i] + s[i..i + |sep|] + s[i + |sep|..];
  }

  /** Joining the pieces of a split with the same separator gives back the original text. */
  lemma {:induction false} JoinSplit(s: string, sep: string)
    requires sep != []
    ensures Join(Split(s, sep), sep) == s
    decreases |s|
  {
    match Find(s, sep)
    case None =>
    case Some(i) =>
      var rest := s[i + |sep|..];
      JoinSplit(rest, sep);
      JoinCons(s[..i], Split(rest, sep), sep);
      SplitAround(s, sep, i);
  }

  /** How many times the character `c` occurs in `s`. */
  function CountChar(s: string, c: char): nat
    decreases |s|
  {
    if s == [] then 0 else (if s[0] == c then 1 else 0) + CountChar(s[1..], c)
  }

  lemma {:induction false} CountCharConcat(a: string, b: string, c: char)
    ensures CountChar(a + b, c) == CountChar(a, c) + CountChar(b, c)
    decreases |a|
  {
    if a != [] {
      assert (a + b)[1..] == a[1..] + b;
      assert (a + b)[0] == a[0];
      CountCharConcat(a[1..], b, c);
    } else {
      assert a + b == b;
    }
  }

  lemma OccursAtChar(s: string, c: char, j: nat)
    requires j < |s|
    ensures OccursAt(s, [c], j) <==> s[j] == c
  {
    assert s[j..j + 1] == [s[j]];
  }

  lemma {:induction false} CountCharAbsent(s: string, c: char)
    requires forall j :: 0 <= j < |s| ==> s[j] != c
    ensures CountChar(s, c) == 0
    decreases |s|
  {
    if s != [] {
      assert forall j :: 0 <= j < |s| - 1 ==> s[1..][j] == s[j + 1];
      CountCharAbsent(s[1..], c);
    }
  }

  lemma CharsBeforeFirst(s: string, c: char, n: nat)
    requires n <= |s| && forall j :: 0 <= j < n ==> !OccursAt(s, [c], j)
    ensures forall j :: 0 <= j < n ==> s[..n][j] != c
  {
    forall j | 0 <= j < n
      ensures s[..n][j] != c
    {
      OccursAtChar(s, c, j);
    }
  }

  /** Splitting on a single character gives one more piece than there are occurrences of it. */
  lemma {:induction false} SplitCharCount(s: string, c: char)
    ensures |Split(s, [c])| == CountChar(s, c) + 1
    decreases |s|
  {
    match Find(s, [c])
    case None =>
      CharsBeforeFirst(s, c, |s|);
      assert s[..|s|] == s;
      CountCharAbsent(s, c);
    case Some(i) =>
      var rest := s[i + 1..];
      CharsBeforeFirst(s, c, i);
      CountCharAbsent(s[..i], c);
      SplitAround(s, [c], i);
      assert s == s[..i] + ([c] + rest);
      CountCharConcat(s[..i], [c] + rest, c);
      assert ([c] + rest)[1..] == rest && ([c] + rest)[0] == c;
      assert CountChar([c] + rest, c) == 1 + CountChar(rest, c);
      SplitCharCount(rest, c);
      assert Split(s, [c]) == [s[..i]] + Split(rest, [c]);
  }

  /** The part of `s` before the first `sep` (Python: `s.split(sep)[0]`). */
  function Before(s: string, sep: string): (r: string)
    requires sep != []
    ensures StartsWith(s, r)
    ensures Contains(s, sep) ==> OccursAt(s, sep, |r|) && !Contains(r, sep)
    ensures !Contains(s, sep) ==> r == s
  {
    match Find(s, sep)
    case None => s
    case Some(i) =>
      NoOccurrenceBeforeFirst(s, sep, i);
      s[..i]
  }

  /** The part of `s` after the first `sep` (Python: `s.split(sep, 1)[1]`), if `sep` occurs. */
  function After(s: string, sep: string): (r: Option<string>)
    requires sep != []
    ensures r.Some? <==> Contains(s, sep)
    ensures r.Some? ==> s == Before(s, sep) + sep + r.value
  {
    match Find(s, sep)
    case None => None
    case Some(i) =>
      SplitAround(s, sep, i);
      Some(s[i + |sep|..])
  }

  /** Python's `s.split(sep)[1]` when `sep` occurs: the text between the first and second `sep`. */
  function SecondPiece(s: string, sep: string): (r: Option<string>)
    requires sep != []
    ensures r.Some? <==> Contains(s, sep)
    ensures r.Some? ==> r.value == Before(After(s, sep).value, sep)
  {
    match After(s, sep)
    case None => None
    case Some(rest) => Some(Before(rest, sep))
  }

  /** Python's `c.lower()` restricted to ASCII letters. */
  function LowerChar(c: char): char {
    if 'A' <= c <= 'Z' then (c as int - 'A' as int + 'a' as int) as char else c
  }

  /** `s.lower()` for ASCII letters; every other character is kept. */
  function Lower(s: string): (r: string)
    ensures |r| == |s|
    ensures forall i :: 0 <= i < |s| ==> r[i] == LowerChar(s[i])
  {
    seq(|s|, i requires 0 <= i < |s| => LowerChar(s[i]))
  }

  /** Lower-casing commutes with taking a suffix. */
  lemma LowerDrop(s: string, i: nat)
    requires i <= |s|
    ensures Lower(s)[i..] == Lower(s[i..])
  {
  }

  /** Lower-casing twice changes nothing more than lower-casing once. */
  lemma LowerIdempotent(s: string)
    ensures Lower(Lower(s)) == Lower(s)
  {
  }

  /** Case-insensitive containment as the source writes it: `a.lower() in b.lower()`. */
  predicate ContainsIgnoreCase(s: string, sub: string) {
    Contains(Lower(s), Lower(sub))
  }

  function DigitChar(d: nat): char
    requires d < 10
  {
    ('0' as int + d) as char
  }

  function DigitValue(c: char): int {
    c as int - '0' as int
  }

  /** `str(n)` for a natural number: its decimal digits without leading zeros. */
  function NatToString(n: nat): (r: string)
    ensures |r| >= 1
    ensures forall i :: 0 <= i < |r| ==> '0' <= r[i] <= '9'
    ensures r[0] == '0' ==> n == 0
    decreases n
  {
    if n < 10 then [DigitChar(n)] else NatToString(n / 10) + [DigitChar(n % 10)]
  }

  /** The value of a string of decimal digits, read left to right. */
  function ParseDigits(s: string): int
    decreases |s|
  {
    if s == [] then 0 else 10 * ParseDigits(s[..|s| - 1]) + DigitValue(s[|s| - 1])
  }

  /** Reading back the digits `NatToString` writes gives the number again. */
  lemma {:induction false} ParseNatToString(n: nat)
    ensures ParseDigits(NatToString(n)) == n
    decreases n
  {
    if n >= 10 {
      var s := NatToString(n / 10) + [DigitChar(n % 10)];
      assert s[..|s| - 1] == NatToString(n / 10);
      ParseNatToString(n / 10);
    }
  }

  /** `str(i)` for a Python integer. */
  function IntToString(i: int): (r: string)
    ensures |r| >= 1
  {
    if i < 0 then "-" + NatToString(-i) else NatToString(i)
  }

  /** Different integers are rendered differently. */
  lemma IntToStringInjective(a: int, b: int)
    requires IntToString(a) == IntToString(b)
    ensures a == b
  {
    if a < 0 && b < 0 {
      var na: nat := -a;
      var nb: nat := -b;
      var sa := NatToString(na);
      var sb := NatToString(nb);
      assert IntToString(a) == "-" + sa;
      assert IntToString(b) == "-" + sb;
      assert sa == ("-" + sa)[1..];
      assert sb == ("-" + sb)[1..];
      ParseNatToString(na);
      ParseNatToString(nb);
    } else if a >= 0 && b >= 0 {
      ParseNatToString(a);
      ParseNatToString(b);
    }
  }

  /** The value of `str(i)` read back, a leading minus sign included. */
  function ParseInt(s: string): int {
    if s != [] && s[0] == '-' then -ParseDigits(s[1..]) else ParseDigits(s)
  }

  /** Reading back what `IntToString` writes gives the integer again. */
  lemma ParseIntToString(i: int)
    ensures ParseInt(IntToString(i)) == i
  {
    if i < 0 {
      var n: nat := -i;
      assert ("-" + NatToString(n))[1..] == NatToString(n);
      ParseNatToString(n);
    } else {
      ParseNatToString(i);
    }
  }

  /** The length of the run of non-whitespace characters `s` starts with. */
  function WordLength(s: string): (n: nat)
    ensures n <= |s|
    ensures forall i :: 0 <= i < n ==> !IsSpace(s[i])
    ensures n < |s| ==> IsSpace(s[n])
    decreases |s|
  {
    if s == [] || IsSpace(s[0]) then 0 else 1 + WordLength(s[1..])
  }

  /** A non-empty run of non-whitespace characters. */
  predicate IsWord(w: string) {
    w != [] && forall i :: 0 <= i < |w| ==> !IsSpace(w[i])
  }

  /** `s.split()` with no argument: the maximal runs of non-whitespace characters, in order. */
  function Words(s: string): (r: seq<string>)
    ensures forall k :: 0 <= k < |r| ==> IsWord(r[k])
    decreases |s|
  {
    if s == [] then []
    else if IsSpace(s[0]) then Words(s[1..])
    else
      var n := WordLength(s);
      [s[..n]] + Words(s[n..])
  }

  /** A word begins at `i`: a non-whitespace character at the front or right after whitespace. */
  predicate WordStart(s: string, i: int) {
    0 <= i < |s| && !IsSpace(s[i]) && (i == 0 || IsSpace(s[i - 1]))
  }

  /** The number of positions from `i` on where a word begins. */
  function StartsFrom(s: string, i: nat): nat
    decreases |s| - i
  {
    if i >= |s| then 0 else (if WordStart(s, i) then 1 else 0) + StartsFrom(s, i + 1)
  }

  /** Inside a word no new word begins. */
  lemma {:induction false} NoStartInsideWord(s: string, i: nat, j: nat)
    requires i < j <= |s| && forall k :: i <= k < j ==> !IsSpace(s[k])
    ensures StartsFrom(s, i + 1) == StartsFrom(s, j)
    decreases j - i
  {
    if i + 1 < j {
      NoStartInsideWord(s, i + 1, j);
      assert !WordStart(s, i + 1);
    }
  }

  /** A whitespace character adds no word and no word start. */
  lemma SpaceAddsNoWord(s: string, i: nat)
    requires i < |s| && IsSpace(s[i])
    ensures Words(s[i..]) == Words(s[i + 1..]) && StartsFrom(s, i) == StartsFrom(s, i + 1)
  {
    var t := s[i..];
    assert t[0] == s[i];
    assert t[1..] == s[i + 1..];
  }

  /** A word begun at a boundary adds one word and one word start, and ends at a boundary. */
  lemma WordAddsOne(s: string, i: nat)
    requires i < |s| && !IsSpace(s[i]) && (i == 0 || IsSpace(s[i - 1]))
    ensures var n := WordLength(s[i..]);
      && 0 < n && i + n <= |s| && (i + n == |s| || IsSpace(s[i + n]))
      && |Words(s[i..])| == 1 + |Words(s[i + n..])|
      && StartsFrom(s, i) == 1 + StartsFrom(s, i + n)
  {
    var t := s[i..];
    assert t[0] == s[i];
    var n := WordLength(t);
    assert forall k :: i <= k < i + n ==> s[k] == t[k - i];
    assert t[n..] == s[i + n..];
    assert WordStart(s, i);
    NoStartInsideWord(s, i, i + n);
  }

  /** Position `i` is a word boundary: an end of the text, or next to whitespace. */
  predicate Boundary(s: string, i: nat) {
    i == 0 || i == |s| || (i <= |s| && (IsSpace(s[i - 1]) || (i < |s| && IsSpace(s[i]))))
  }

  /** From a boundary, one whitespace character or one word leads to the next boundary and keeps words and starts in step. */
  lemma WordsStep(s: string, i: nat) returns (j: nat)
    requires i < |s| && Boundary(s, i)
    ensures i < j <= |s| && Boundary(s, j)
    ensures |Words(s[i..])| - StartsFrom(s, i) == |Words(s[j..])| - StartsFrom(s, j)
  {
    if IsSpace(s[i]) {
      SpaceAddsNoWord(s, i);
      j := i + 1;
    } else {
      WordAddsOne(s, i);
      j := i + WordLength(s[i..]);
    }
  }

  /**
   Splitting the text from a word boundary on gives one word per position
   where a word begins.
   */
  lemma {:induction false} WordsCountStarts(s: string, i: nat)
    requires i <= |s| && Boundary(s, i)
    ensures |Words(s[i..])| == StartsFrom(s, i)
    decreases |s| - i
  {
    if i < |s| {
      var j := WordsStep(s, i);
      WordsCountStarts(s, j);
    } else {
      assert s[i..] == [];
    }
  }

  /** `len(s.split())` is the number of positions where a word begins. */
  lemma WordCount(s: string)
    ensures |Words(s)| == StartsFrom(s, 0)
  {
    WordsCountStarts(s, 0);
    assert s[0..] == s;
  }

  /** `"ab cd".split()` has two words. */
  lemma TwoWords()
    ensures |Words("ab cd")| == 2
  {
    WordCount("ab cd");
    assert WordStart("ab cd", 0) && WordStart("ab cd", 3);
    assert !WordStart("ab cd", 1) && !WordStart("ab cd", 2) && !WordStart("ab cd", 4);
  }

  /** The characters of `s` that are not whitespace, in order. */
  function NonSpace(s: string): string
    decreases |s|
  {
    if s == [] then [] else (if IsSpace(s[0]) then [] else [s[0]]) + NonSpace(s[1..])
  }

  lemma {:induction false} NonSpaceConcat(a: string, b: string)
    ensures NonSpace(a + b) == NonSpace(a) + NonSpace(b)
    decreases |a|
  {
    if a != [] {
      assert (a + b)[0] == a[0] && (a + b)[1..] == a[1..] + b;
      NonSpaceConcat(a[1..], b);
    } else {
      assert a + b == b;
    }
  }

  lemma {:induction false} NonSpaceOfWord(w: string)
    requires forall i :: 0 <= i < |w| ==> !IsSpace(w[i])
    ensures NonSpace(w) == w
    decreases |w|
  {
    if w != [] {
      NonSpaceOfWord(w[1..]);
      assert w == [w[0]] + w[1..];
    }
  }

  /** The words, run together, are the text with its whitespace taken out. */
  lemma {:induction false} WordsConcat(s: string)
    ensures Concat(Words(s)) == NonSpace(s)
    decreases |s|
  {
    if s != [] {
      if IsSpace(s[0]) {
        WordsConcat(s[1..]);
      } else {
        var n := WordLength(s);
        var rest := Words(s[n..]);
        WordsConcat(s[n..]);
        assert ([s[..n]] + rest)[1..] == rest;
        NonSpaceOfWord(s[..n]);
        NonSpaceConcat(s[..n], s[n..]);
        assert s[..n] + s[n..] == s;
      }
    }
  }

  /** There are no words exactly when the text is all whitespace. */
  lemma {:induction false} WordsEmptyIffBlank(s: string)
    ensures Words(s) == [] <==> IsBlank(s)
    decreases |s|
  {
    if s != [] && IsSpace(s[0]) {
      WordsEmptyIffBlank(s[1..]);
      assert forall i :: 1 <= i < |s| ==> s[i] == s[1..][i - 1];
    }
  }

  /** Python's `s[:k]` for any integer `k` (a negative `k` counts from the end). */
  function SliceTo<T>(s: seq<T>, k: int): (r: seq<T>)
    ensures k >= 0 ==> |r| == if k < |s| then k else |s|
    ensures k < 0 ==> |r| == if |s| + k > 0 then |s| + k else 0
    ensures r == s[..|r|]
  {
    if k >= 0 then (if k < |s| then s[..k] else s)
    else if |s| + k > 0 then s[..|s| + k] else []
  }

  /** The concatenation of a sequence of strings (Python: `"".join(parts)`). */
  function Concat(parts: seq<string>): string
    decreases |parts|
  {
    if parts == [] then "" else parts[0] + Concat(parts[1..])
  }
}

=== FILE: workflow.dfy ===
/**
 The article-writing workflow: a state record passed through the nodes
 analyze → outline → research → write → combine → check → (revise → combine →
 check)* → finalize. Each node returns the fields it updates; the two
 accumulating fields (`research_notes`, `workflow_steps`) are appended to,
 every other returned field replaces the old one. The LLM is an oracle
 giving each node's reply.
 */
module Workflow {
  import opened Wrappers
  import opened Text

  /** The three quality checks of one check round. */
  datatype Checks = Checks(length: bool, structure: bool, revision: bool)

  /** One entry of `draft_sections` (a dict from section title to its text, in insertion order). */
  datatype Section = Section(title: string, text: string)

  /** An entry of `workflow_steps`. */
  datatype Step = Analyzed | Outlined | Researched | Written | Combined | Checked | Revised(n: nat) | Finalized

  /** The text each node records. */
  function StepText(s: Step): string {
    match s
    case Analyzed => "需求分析完成"
    case Outlined => "大纲创建完成"
    case Researched => "主题研究完成"
    case Written => "各部分撰写完成"
    case Combined => "文章组合完成"
    case Checked => "质量检查完成"
    case Revised(n) => "第" + NatToString(n) + "次修改完成"
    case Finalized => "文章定稿完成"
  }

  /** `ArticleState`; `checks == None` is the empty `{}` set before the first check. */
  datatype ArticleState = ArticleState(
    topic: string, articleType: string, audience: string,
    outline: seq<string>, notes: seq<string>, sections: seq<Section>, draft: string,
    checks: Option<Checks>, suggestions: seq<string>, revisionCount: nat, isComplete: bool,
    steps: seq<Step>)

  /**
   The LLM's replies: to the outline prompt, to each section's research and
   writing prompts, and to the title, review and revision prompts of each round
   (indexed by the revision count at that point).
   */
  datatype Llm = Llm(
    outline: string,
    research: string -> string,
    write: (string, seq<string>) -> string,
    title: nat -> string,
    review: nat -> string,
    revise: nat -> string)

  // ---------------------------------------------------------------------------
  // Requirements and outline
  // ---------------------------------------------------------------------------

  /** `analyze_requirements`: resets the revision bookkeeping. */
  function AnalyzeRequirements(st: ArticleState): (r: ArticleState)
    ensures r.revisionCount == 0 && !r.isComplete && r.checks == None
    ensures r.steps == st.steps + [Analyzed]
    ensures r.outline == st.outline && r.sections == st.sections && r.suggestions == st.suggestions
  {
    st.(checks := None, revisionCount := 0, isComplete := false, steps := st.steps + [Analyzed])
  }

  predicate InRange(n: int, lo: int, hi: int) {
    lo <= n <= hi
  }

  /**
   `str.isdigit()` of one character: the code points of numeric type Digit or
   Decimal in Unicode 15.0, as inclusive ranges. These are the decimal digits
   of every script plus superscripts, subscripts and circled, parenthesised
   and dotted digits such as `①`, `²` and `⒈`.
   */
  predicate IsDigit(c: char) {
    DigitFrom(c as int, 0)
  }

  /** `n` lies in one of the digit blocks numbered `k` to 6. */
  predicate DigitFrom(n: int, k: nat)
    decreases 7 - k
  {
    if k >= 7 then false
    else DigitBlock(k, n) || DigitFrom(n, k + 1)
  }

  /** The seven blocks of digit ranges, in code-point order. */
  predicate DigitBlock(k: nat, n: int) {
    match k
    case 0 => DigitBlock0(n)
    case 1 => DigitBlock1(n)
    case 2 => DigitBlock2(n)
    case 3 => DigitBlock3(n)
    case 4 => DigitBlock4(n)
    case 5 => DigitBlock5(n)
    case _ => DigitBlock6(n)
  }

  /** The digit ranges from 0x30 to 0xBEF. */
  predicate DigitBlock0(n: int) {
    || InRange(n, 0x30, 0x39) || InRange(n, 0xB2, 0xB3) || InRange(n, 0xB9, 0xB9) || InRange(n, 0x660, 0x669)
    || InRange(n, 0x6F0, 0x6F9) || InRange(n, 0x7C0, 0x7C9) || InRange(n, 0x966, 0x96F) || InRange(n, 0x9E6, 0x9EF)
    || InRange(n, 0xA66, 0xA6F) || InRange(n, 0xAE6, 0xAEF) || InRange(n, 0xB66, 0xB6F) || InRange(n, 0xBE6, 0xBEF)
  }

  /** The digit ranges from 0xC66 to 0x1819. */
  predicate DigitBlock1(n: int) {
    || InRange(n, 0xC66, 0xC6F) || InRange(n, 0xCE6, 0xCEF) || InRange(n, 0xD66, 0xD6F) || InRange(n, 0xDE6, 0xDEF)
    || InRange(n, 0xE50, 0xE59) || InRange(n, 0xED0, 0xED9) || InRange(n, 0xF20, 0xF29) || InRange(n, 0x1040, 0x1049)
    || InRange(n, 0x1090, 0x1099) || InRange(n, 0x1369, 0x1371) || InRange(n, 0x17E0, 0x17E9) || InRange(n, 0x1810, 0x1819)
  }

  /** The digit ranges from 0x1946 to 0x2468. */
  predicate DigitBlock2(n: int) {
    || InRange(n, 0x1946, 0x194F) || InRange(n, 0x19D0, 0x19DA) || InRange(n, 0x1A80, 0x1A89) || InRange(n, 0x1A90, 0x1A99)
    || InRange(n, 0x1B50, 0x1B59) || InRange(n, 0x1BB0, 0x1BB9) || InRange(n, 0x1C40, 0x1C49) || InRange(n, 0x1C50, 0x1C59)
    || InRange(n, 0x2070, 0x2070) || InRange(n, 0x2074, 0x2079) || InRange(n, 0x2080, 0x2089) || InRange(n, 0x2460, 0x2468)
  }

  /** The digit ranges from 0x2474 to 0xA9D9. */
  predicate DigitBlock3(n: int) {
    || InRange(n, 0x2474, 0x247C) || InRange(n, 0x2488, 0x2490) || InRange(n, 0x24EA, 0x24EA) || InRange(n, 0x24F5, 0x24FD)
    || InRange(n, 0x24FF, 0x24FF) || InRange(n, 0x2776, 0x277E) || InRange(n, 0x2780, 0x2788) || InRange(n, 0x278A, 0x2792)
    || InRange(n, 0xA620, 0xA629) || InRange(n, 0xA8D0, 0xA8D9) || InRange(n, 0xA900, 0xA909) || InRange(n, 0xA9D0, 0xA9D9)
  }

  /** The digit ranges from 0xA9F0 to 0x1113F. */
  predicate DigitBlock4(n: int) {
    || InRange(n, 0xA9F0, 0xA9F9) || InRange(n, 0xAA50, 0xAA59) || InRange(n, 0xABF0, 0xABF9) || InRange(n, 0xFF10, 0xFF19)
    || InRange(n, 0x104A0, 0x104A9) || InRange(n, 0x10A40, 0x10A43) || InRange(n, 0x10D30, 0x10D39) || InRange(n, 0x10E60, 0x10E68)
    || InRange(n, 0x11052, 0x1105A) || InRange(n, 0x11066, 0x1106F) || InRange(n, 0x110F0, 0x110F9) || InRange(n, 0x11136, 0x1113F)
  }

  /** The digit ranges from 0x111D0 to 0x11DA9. */
  predicate DigitBlock5(n: int) {
    || InRange(n, 0x111D0, 0x111D9) || InRange(n, 0x112F0, 0x112F9) || InRange(n, 0x11450, 0x11459) || InRange(n, 0x114D0, 0x114D9)
    || InRange(n, 0x11650, 0x11659) || InRange(n, 0x116C0, 0x116C9) || InRange(n, 0x11730, 0x11739) || InRange(n, 0x118E0, 0x118E9)
    || InRange(n, 0x11950, 0x11959) || InRange(n, 0x11C50, 0x11C59) || InRange(n, 0x11D50, 0x11D59) || InRange(n, 0x11DA0, 0x11DA9)
  }

  /** The digit ranges from 0x11F50 to 0x1FBF9. */
  predicate DigitBlock6(n: int) {
    || InRange(n, 0x11F50, 0x11F59) || InRange(n, 0x16A60, 0x16A69) || InRange(n, 0x16AC0, 0x16AC9) || InRange(n, 0x16B50, 0x16B59)
    || InRange(n, 0x1D7CE, 0x1D7FF) || InRange(n, 0x1E140, 0x1E149) || InRange(n, 0x1E2F0, 0x1E2F9) || InRange(n, 0x1E4F0, 0x1E4F9)
    || InRange(n, 0x1E950, 0x1E959) || InRange(n, 0x1F100, 0x1F10A) || InRange(n, 0x1FBF0, 0x1FBF9)
  }

  /** Circled, superscript and non-Latin digits count, as they do for `str.isdigit()`; letters and `⑩` do not. */
  lemma DigitExamples()
    ensures IsDigit('7') && IsDigit('７') && IsDigit('①') && IsDigit('²') && IsDigit('٣') && IsDigit('५')
    ensures !IsDigit('a') && !IsDigit('⑩') && !IsDigit('一')
  {
  }

  /** `any(c.isdigit() for c in line[:3])`. */
  predicate DigitInFirstThree(line: string) {
    exists i :: 0 <= i < |line| && i < 3 && IsDigit(line[i])
  }

  /** A line that looks like `N. Title - description`, stripped. */
  predicate IsOutlineLine(l: string) {
    l != [] && DigitInFirstThree(l) && Contains(l, " - ")
  }

  /** The section title an outline line yields: the stripped text before ` - `, without a leading `N. `. */
  function LineTitle(line: string): Option<string> {
    var l := Strip(line);
    if IsOutlineLine(l) then
      var t := Strip(Before(l, " - "));
      Some(if Contains(t, ". ") then After(t, ". ").value else t)
    else None
  }

  /** The text before the first ` - ` of a stripped line is not blank. */
  lemma TextBeforeDashNotBlank(l: string)
    requires l != [] && !IsSpace(l[0]) && Contains(l, " - ")
    ensures Strip(Before(l, " - ")) != []
  {
    var b := Before(l, " - ");
    assert OccursAt(l, " - ", |b|);
    assert l[|b|] == ' ';
    assert |b| > 0 && b[0] == l[0];
    StripEmptyIffBlank(b);
  }

  /** What follows the first `. ` of a stripped, non-empty text is non-empty. */
  lemma TextAfterNumberNotEmpty(t: string)
    requires t != [] && !IsSpace(t[|t| - 1]) && Contains(t, ". ")
    ensures After(t, ". ").value != []
  {
    var front := Before(t, ". ");
    var a := After(t, ". ").value;
    assert t == front + ". " + a;
    assert t[|front| + 1] == ' ';
  }

  /**
   A line whose first word starts with a digit and is followed by ` - ` yields
   that word as its title, whatever script the digit is written in.
   */
  lemma DigitLedTitle(t: string, rest: string)
    requires t != [] && IsDigit(t[0]) && !IsSpace(t[0]) && !IsSpace(t[|t| - 1])
    requires forall j :: 0 <= j < |t| ==> t[j] != ' '
    requires rest != [] && !IsSpace(rest[|rest| - 1])
    ensures LineTitle(t + " - " + rest) == Some(t)
  {
    var l := t + " - " + rest;
    StripUnpadded(l);
    assert l[..|t|] == t && l[|t|..|t| + 3] == " - ";
    DigitFirstIsOutline(l, t);
    TitleBeforeDash(t, rest);
    UnspacedTitleIsWhole(t);
  }

  lemma TitleBeforeDash(t: string, rest: string)
    requires forall j :: 0 <= j < |t| ==> t[j] != ' '
    ensures Before(t + " - " + rest, " - ") == t
  {
    var l := t + " - " + rest;
    assert l[..|t|] == t && l[|t|..|t| + 3] == " - ";
    assert OccursAt(l, " - ", |t|);
    forall j | 0 <= j < |t|
      ensures !OccursAt(l, " - ", j)
    {
      assert l[j] == t[j];
    }
  }

  lemma UnspacedTitleIsWhole(t: string)
    requires t != [] && !IsSpace(t[0]) && !IsSpace(t[|t| - 1])
    requires forall j :: 0 <= j < |t| ==> t[j] != ' '
    ensures Strip(t) == t && !Contains(t, ". ")
  {
    StripUnpadded(t);
    forall i | 0 <= i <= |t| - 2
      ensures !OccursAt(t, ". ", i)
    {
      assert t[i + 1] != ' ';
    }
  }

  lemma DigitFirstIsOutline(l: string, t: string)
    requires t != [] && IsDigit(t[0]) && StartsWith(l, t) && OccursAt(l, " - ", |t|)
    ensures IsOutlineLine(l)
  {
    assert l[0] == t[0];
  }

  /** `①引言` and `概述` meet what `DigitLedTitle` asks of a title and its rest. */
  lemma CircledTitleFits()
    ensures var t, rest := "①引言", "概述";
      && t != [] && IsDigit(t[0]) && !IsSpace(t[0]) && !IsSpace(t[|t| - 1])
      && (forall j :: 0 <= j < |t| ==> t[j] != ' ')
      && rest != [] && !IsSpace(rest[|rest| - 1])
  {
  }

  /** The outline line `①引言 - 概述` has the title `①引言`. */
  lemma CircledOutlineLine()
    ensures LineTitle("①引言 - 概述") == Some("①引言")
  {
    CircledTitleFits();
    DigitLedTitle("①引言", "概述");
    assert "①引言" + " - " + "概述" == "①引言 - 概述";
  }

  /** Only outline-shaped lines yield a title, and every title is non-empty. */
  lemma LineTitleMeaning(line: string)
    ensures LineTitle(line).Some? <==> IsOutlineLine(Strip(line))
    ensures LineTitle(line).Some? ==> LineTitle(line).value != []
  {
    var l := Strip(line);
    if IsOutlineLine(l) {
      TextBeforeDashNotBlank(l);
      var t := Strip(Before(l, " - "));
      if Contains(t, ". ") {
        TextAfterNumberNotEmpty(t);
      }
    }
  }

  function LineTitles(lines: seq<string>): (vs: seq<Option<string>>)
    ensures |vs| == |lines| && forall i :: 0 <= i < |lines| ==> vs[i] == LineTitle(lines[i])
  {
    seq(|lines|, i requires 0 <= i < |lines| => LineTitle(lines[i]))
  }

  /** The present values, in order. */
  function Somes(vs: seq<Option<string>>): (ts: seq<string>)
    ensures |ts| <= |vs|
    decreases |vs|
  {
    if vs == [] then []
    else
      var n := |vs| - 1;
      Somes(vs[..n]) + (match vs[n] case Some(t) => [t] case None => [])
  }

  /** A value is kept iff some entry holds it; kept values are non-empty when all present ones are. */
  lemma {:induction false} SomesExactly(vs: seq<Option<string>>)
    ensures forall t :: t in Somes(vs) <==> Some(t) in vs
    ensures (forall i :: 0 <= i < |vs| && vs[i].Some? ==> vs[i].value != []) ==>
      forall k :: 0 <= k < |Somes(vs)| ==> Somes(vs)[k] != []
    decreases |vs|
  {
    if vs != [] {
      var n := |vs| - 1;
      assert vs == vs[..n] + [vs[n]];
      SomesExactly(vs[..n]);
    }
  }

  /** Every line title is non-empty. */
  lemma LineTitlesNonEmpty(lines: seq<string>)
    ensures forall i :: 0 <= i < |lines| && LineTitles(lines)[i].Some? ==> LineTitles(lines)[i].value != []
  {
    forall i | 0 <= i < |lines|
      ensures LineTitle(lines[i]).Some? ==> LineTitle(lines[i]).value != []
    {
      LineTitleMeaning(lines[i]);
    }
  }

  const DefaultOutline: seq<string> := ["引言", "主要内容", "深入分析", "总结"]

  /** The titles of the reply's outline-shaped lines, in order. */
  function OutlineTitles(reply: string): seq<string> {
    Somes(LineTitles(Split(reply, "\n")))
  }

  lemma OutlineTitlesNonEmpty(reply: string)
    ensures forall k :: 0 <= k < |OutlineTitles(reply)| ==> OutlineTitles(reply)[k] != []
  {
    LineTitlesNonEmpty(Split(reply, "\n"));
    SomesExactly(LineTitles(Split(reply, "\n")));
  }

  /** The outline parsed from the LLM's reply, or the four-section default when no line parses. */
  function ParseOutline(reply: string): (r: seq<string>)
    ensures r != [] && forall k :: 0 <= k < |r| ==> r[k] != []
    ensures OutlineTitles(reply) == [] ==> r == DefaultOutline
    ensures OutlineTitles(reply) != [] ==> r == OutlineTitles(reply)
  {
    OutlineTitlesNonEmpty(reply);
    var ts := OutlineTitles(reply);
    if ts == [] then DefaultOutline else ts
  }

  /** `create_outline`. */
  function CreateOutline(st: ArticleState, llm: Llm): (r: ArticleState)
    ensures r.outline == ParseOutline(llm.outline) && r.steps == st.steps + [Outlined]
    ensures r.revisionCount == st.revisionCount
  {
    st.(outline := ParseOutline(llm.outline), steps := st.steps + [Outlined])
  }

  // ---------------------------------------------------------------------------
  // Research and writing
  // ---------------------------------------------------------------------------

  /** A research note: the section in brackets and the first 200 characters of the reply. */
  function Note(section: string, reply: string): string {
    "[" + section + "] " + SliceTo(reply, 200) + "..."
  }

  /** A note names its section and keeps exactly the first 200 characters of the reply, or all of a shorter one. */
  lemma NoteMentionsSection(section: string, reply: string)
    ensures Contains(Note(section, reply), section)
    ensures |Note(section, reply)| == |section| + 6 + (if |reply| < 200 then |reply| else 200)
    ensures var n := if |reply| < 200 then |reply| else 200;
      Note(section, reply)[|section| + 3..|section| + 3 + n] == reply[..n]
  {
    var rest := "] " + SliceTo(reply, 200) + "...";
    ContainsSelf(section);
    ContainsInRight("[", section, section);
    ContainsInLeft("[" + section, rest, section);
    assert Note(section, reply) == ("[" + section) + rest;
  }

  function Notes(outline: seq<string>, research: string -> string): (ns: seq<string>)
    ensures |ns| == |outline| && forall i :: 0 <= i < |outline| ==> ns[i] == Note(outline[i], research(outline[i]))
  {
    seq(|outline|, i requires 0 <= i < |outline| => Note(outline[i], research(outline[i])))
  }

  /** `research_topic`: one note per outline section, appended to the accumulated notes. */
  function ResearchTopic(st: ArticleState, llm: Llm): (r: ArticleState)
    ensures r.notes == st.notes + Notes(st.outline, llm.research) && r.steps == st.steps + [Researched]
    ensures r.outline == st.outline && r.revisionCount == st.revisionCount
  {
    st.(notes := st.notes + Notes(st.outline, llm.research), steps := st.steps + [Researched])
  }

  /** The notes a section's writing prompt gets: those that contain its title, in order. */
  function Relevant(notes: seq<string>, section: string): seq<string>
    decreases |notes|
  {
    if notes == [] then []
    else
      var k := |notes| - 1;
      Relevant(notes[..k], section) + (if Contains(notes[k], section) then [notes[k]] else [])
  }

  /** Each note containing the title is kept as often as it occurs; no other note is kept. */
  lemma {:induction false} RelevantMeaning(notes: seq<string>, section: string)
    ensures forall n :: multiset(Relevant(notes, section))[n] == if Contains(n, section) then multiset(notes)[n] else 0
    decreases |notes|
  {
    if notes != [] {
      var k := |notes| - 1;
      assert notes == notes[..k] + [notes[k]];
      RelevantMeaning(notes[..k], section);
    }
  }

  /** The section's own research note is among the notes its writing prompt gets. */
  lemma OwnNoteIsRelevant(outline: seq<string>, research: string -> string, prior: seq<string>, i: nat)
    requires i < |outline|
    ensures Note(outline[i], research(outline[i])) in Relevant(prior + Notes(outline, research), outline[i])
  {
    var notes := prior + Notes(outline, research);
    var n := Note(outline[i], research(outline[i]));
    NoteMentionsSection(outline[i], research(outline[i]));
    RelevantMeaning(notes, outline[i]);
    assert notes[|prior| + i] == n;
    assert n in multiset(notes);
    assert multiset(Relevant(notes, outline[i]))[n] > 0;
  }

  /** `d.get(title)` on the section dict. */
  function Lookup(secs: seq<Section>, t: string): (r: Option<string>)
    ensures r.None? <==> forall i :: 0 <= i < |secs| ==> secs[i].title != t
    decreases |secs|
  {
    if secs == [] then None
    else if secs[0].title == t then Some(secs[0].text)
    else Lookup(secs[1..], t)
  }

  /** A found title has an entry carrying the found text. */
  lemma {:induction false} LookupFound(secs: seq<Section>, t: string)
    requires Lookup(secs, t).Some?
    ensures exists i :: 0 <= i < |secs| && secs[i] == Section(t, Lookup(secs, t).value)
    decreases |secs|
  {
    if secs[0].title != t {
      LookupFound(secs[1..], t);
      var i :| 0 <= i < |secs[1..]| && secs[1..][i] == Section(t, Lookup(secs, t).value);
      assert secs[i + 1] == secs[1..][i];
    }
  }

  ghost predicate DistinctTitles(secs: seq<Section>) {
    forall i, j :: 0 <= i < j < |secs| ==> secs[i].title != secs[j].title
  }

  /**
   `d[t] = x`: an existing entry keeps its position and gets the new text, a
   new title goes at the end.
   */
  function Put(secs: seq<Section>, t: string, x: string): (r: seq<Section>)
    ensures Lookup(r, t) == Some(x)
    ensures forall u :: u != t ==> Lookup(r, u) == Lookup(secs, u)
    decreases |secs|
  {
    if secs == [] then [Section(t, x)]
    else if secs[0].title == t then [Section(t, x)] + secs[1..]
    else [secs[0]] + Put(secs[1..], t, x)
  }

  /** Updating an entry or adding a new one keeps the titles distinct. */
  lemma {:induction false} PutKeepsDistinct(secs: seq<Section>, t: string, x: string)
    requires DistinctTitles(secs)
    ensures DistinctTitles(Put(secs, t, x))
    decreases |secs|
  {
    if secs != [] && secs[0].title != t {
      var rest := secs[1..];
      PutKeepsDistinct(rest, t, x);
      var u := secs[0].title;
      assert forall i :: 0 <= i < |rest| ==> rest[i] == secs[i + 1];
      assert Lookup(rest, u) == None;
      var r := Put(rest, t, x);
      assert Lookup(r, u) == None;
      assert Put(secs, t, x) == [secs[0]] + r;
    }
  }

  /** A new title is appended at the end. */
  lemma {:induction false} PutAppendsNew(secs: seq<Section>, t: string, x: string)
    requires Lookup(secs, t).None?
    ensures Put(secs, t, x) == secs + [Section(t, x)]
    decreases |secs|
  {
    if secs != [] {
      PutAppendsNew(secs[1..], t, x);
      assert secs == [secs[0]] + secs[1..];
    }
  }

  /** Every existing entry keeps its position and title. */
  lemma {:induction false} PutKeepsPositions(secs: seq<Section>, t: string, x: string)
    ensures |Put(secs, t, x)| >= |secs|
    ensures forall i :: 0 <= i < |secs| ==> Put(secs, t, x)[i].title == secs[i].title
    decreases |secs|
  {
    if secs != [] && secs[0].title != t {
      PutKeepsPositions(secs[1..], t, x);
      assert forall i :: 1 <= i < |secs| ==> secs[1..][i - 1] == secs[i];
    }
  }

  /** The section dict `write_sections` builds, one entry per distinct outline title. */
  function Drafts(outline: seq<string>, notes: seq<string>, write: (string, seq<string>) -> string): (r: seq<Section>)
    ensures DistinctTitles(r)
    ensures forall t :: Lookup(r, t).Some? <==> t in outline
    ensures forall t :: t in outline ==> Lookup(r, t) == Some(write(t, Relevant(notes, t)))
    decreases |outline|
  {
    if outline == [] then []
    else
      var n := |outline| - 1;
      var t := outline[n];
      assert outline == outline[..n] + [t];
      var prev := Drafts(outline[..n], notes, write);
      PutKeepsDistinct(prev, t, write(t, Relevant(notes, t)));
      Put(prev, t, write(t, Relevant(notes, t)))
  }

  /** `write_sections`: replaces the section dict. */
  function WriteSections(st: ArticleState, llm: Llm): (r: ArticleState)
    ensures r.sections == Drafts(st.outline, st.notes, llm.write) && r.steps == st.steps + [Written]
    ensures r.outline == st.outline && r.revisionCount == st.revisionCount
    ensures r.notes == st.notes && r.articleType == st.articleType
  {
    st.(sections := Drafts(st.outline, st.notes, llm.write), steps := st.steps + [Written])
  }

  // ---------------------------------------------------------------------------
  // Combining, checking, revising
  // ---------------------------------------------------------------------------

  function Heading(t: string): string {
    "\n## " + t + "\n"
  }

  lemma HeadingHasTitle(t: string)
    ensures Contains(Heading(t), t)
  {
    ContainsSelf(t);
    ContainsInRight("\n## ", t, t);
    ContainsInLeft("\n## " + t, "\n", t);
  }

  const TutorialEnding: seq<string> := ["\n## 下一步\n", "希望这个教程对你有帮助！如果有问题，欢迎留言讨论。"]

  /** The draft's parts: a title line, each section's heading and text, and the closing section of a tutorial. */
  function DraftParts(title: string, secs: seq<Section>, articleType: string): (ps: seq<string>)
    ensures |ps| == 1 + 2 * |secs| + (if articleType == "tutorial" then 2 else 0)
    ensures ps[0] == "# " + Strip(title) + "\n"
    ensures forall i :: 0 <= i < |secs| ==> ps[1 + 2 * i] == Heading(secs[i].title) && ps[2 + 2 * i] == secs[i].text
    ensures articleType == "tutorial" ==> ps[|ps| - 2..] == TutorialEnding
  {
    ["# " + Strip(title) + "\n"] + SectionParts(secs) + (if articleType == "tutorial" then TutorialEnding else [])
  }

  /** Each section contributes its heading and then its text. */
  function SectionParts(secs: seq<Section>): (ps: seq<string>)
    ensures |ps| == 2 * |secs|
    ensures forall i :: 0 <= i < |secs| ==> ps[2 * i] == Heading(secs[i].title) && ps[2 * i + 1] == secs[i].text
    decreases |secs|
  {
    if secs == [] then []
    else
      var n := |secs| - 1;
      var prev := SectionParts(secs[..n]);
      assert forall i :: 0 <= i < n ==> secs[..n][i] == secs[i];
      prev + [Heading(secs[n].title), secs[n].text]
  }

  /** `"\n".join(article_parts)`. */
  function CombineText(title: string, secs: seq<Section>, articleType: string): string {
    Join(DraftParts(title, secs, articleType), "\n")
  }

  /** The draft opens with the stripped title as a level-one heading. */
  lemma CombineTextStartsWithTitle(title: string, secs: seq<Section>, articleType: string)
    ensures StartsWith(CombineText(title, secs, articleType), "# " + Strip(title) + "\n")
  {
    var parts := DraftParts(title, secs, articleType);
    var head := parts[0];
    if |parts| > 1 {
      JoinCons(head, parts[1..], "\n");
      assert [head] + parts[1..] == parts;
      assert (head + "\n" + Join(parts[1..], "\n"))[..|head|] == head;
    }
  }

  /** Every section title, and every section text, occurs in the combined draft. */
  lemma CombinedDraftHasEverySection(title: string, secs: seq<Section>, articleType: string, t: string)
    requires Lookup(secs, t).Some?
    ensures Contains(CombineText(title, secs, articleType), t)
    ensures Contains(CombineText(title, secs, articleType), Lookup(secs, t).value)
  {
    var parts := DraftParts(title, secs, articleType);
    LookupFound(secs, t);
    var i :| 0 <= i < |secs| && secs[i] == Section(t, Lookup(secs, t).value);
    JoinContainsParts(parts, "\n");
    assert Contains(Join(parts, "\n"), parts[1 + 2 * i]);
    assert Contains(Join(parts, "\n"), parts[2 + 2 * i]);
    HeadingHasTitle(t);
    ContainsTransitive(Join(parts, "\n"), Heading(t), t);
  }

  /** `combine_draft` in round `revisionCount`: rebuilt from the section dict, not from the previous draft. */
  function CombineDraft(st: ArticleState, llm: Llm): (r: ArticleState)
    ensures r.draft == CombineText(llm.title(st.revisionCount), st.sections, st.articleType)
    ensures r.steps == st.steps + [Combined]
    ensures r.outline == st.outline && r.sections == st.sections && r.revisionCount == st.revisionCount
  {
    st.(draft := CombineText(llm.title(st.revisionCount), st.sections, st.articleType), steps := st.steps + [Combined])
  }

  /** `all(section in draft for section in outline)`. */
  predicate HasAllSections(draft: string, outline: seq<string>) {
    forall i :: 0 <= i < |outline| ==> Contains(draft, outline[i])
  }

  /** The non-blank lines of a reply, stripped. */
  function StripAll(lines: seq<string>): (ss: seq<string>)
    ensures |ss| == |lines| && forall i :: 0 <= i < |lines| ==> ss[i] == Strip(lines[i])
  {
    seq(|lines|, i requires 0 <= i < |lines| => Strip(lines[i]))
  }

  function NonEmpty(ss: seq<string>): seq<string>
    decreases |ss|
  {
    if ss == [] then []
    else
      var n := |ss| - 1;
      NonEmpty(ss[..n]) + (if ss[n] != [] then [ss[n]] else [])
  }

  /** Nothing is kept exactly when every string is empty, and what is kept is non-empty. */
  lemma {:induction false} NonEmptyMeaning(ss: seq<string>)
    ensures NonEmpty(ss) == [] <==> forall i :: 0 <= i < |ss| ==> ss[i] == []
    ensures forall k :: 0 <= k < |NonEmpty(ss)| ==> NonEmpty(ss)[k] != []
    decreases |ss|
  {
    if ss != [] {
      var n := |ss| - 1;
      NonEmptyMeaning(ss[..n]);
      assert forall i :: 0 <= i < n ==> ss[..n][i] == ss[i];
    }
  }

  lemma {:induction false} NonEmptyAppend(a: seq<string>, b: seq<string>)
    ensures NonEmpty(a + b) == NonEmpty(a) + NonEmpty(b)
    decreases |b|
  {
    if b == [] {
      assert a + b == a;
    } else {
      var n := |b| - 1;
      assert (a + b)[..|a + b| - 1] == a + b[..n];
      NonEmptyAppend(a, b[..n]);
    }
  }

  /**
   The kept strings, read from the front: the first non-empty string comes
   first, followed by what is kept of the strings after it.
   */
  lemma NonEmptyFromFront(ss: seq<string>, i: nat)
    requires i < |ss| && ss[i] != [] && forall j :: 0 <= j < i ==> ss[j] == []
    ensures NonEmpty(ss) == [ss[i]] + NonEmpty(ss[i + 1..])
  {
    NonEmptyMeaning(ss[..i]);
    assert ss == ss[..i] + ([ss[i]] + ss[i + 1..]);
    NonEmptyAppend(ss[..i], [ss[i]] + ss[i + 1..]);
    NonEmptyAppend([ss[i]], ss[i + 1..]);
    assert NonEmpty([ss[i]]) == NonEmpty([]) + [ss[i]];
  }

  /** A string is kept iff it is non-empty and among the given ones. */
  lemma {:induction false} NonEmptyMembers(ss: seq<string>)
    ensures forall x :: x in NonEmpty(ss) <==> x != [] && x in ss
    decreases |ss|
  {
    if ss != [] {
      var n := |ss| - 1;
      NonEmptyMembers(ss[..n]);
      assert ss == ss[..n] + [ss[n]];
    }
  }

  /** The lines of the stripped reply (`reply.strip().split('\n')`). */
  function ReplyLines(reply: string): seq<string> {
    Split(Strip(reply), "\n")
  }

  /** `[s.strip() for s in reply.strip().split('\n') if s.strip()]`. */
  function ReviewLines(reply: string): seq<string> {
    NonEmpty(StripAll(ReplyLines(reply)))
  }

  /**
   The reviewer lines are the reply's stripped lines that are not blank: each
   such line is one of them, and only such lines are.
   */
  lemma ReviewLinesMeaning(reply: string)
    ensures forall x :: x in ReviewLines(reply) <==>
      x != [] && exists i :: 0 <= i < |ReplyLines(reply)| && x == Strip(ReplyLines(reply)[i])
  {
    KeptStrippedLines(ReplyLines(reply));
  }

  lemma KeptStrippedLines(lines: seq<string>)
    ensures forall x :: x in NonEmpty(StripAll(lines)) <==> x != [] && exists i :: 0 <= i < |lines| && x == Strip(lines[i])
  {
    NonEmptyMembers(StripAll(lines));
  }

  /** A reply that is not blank yields at least one suggestion line. */
  lemma NonBlankReplyGivesLine(reply: string)
    ensures !IsBlank(reply) ==> ReviewLines(reply) != []
  {
    var s := Strip(reply);
    var pieces := Split(s, "\n");
    StripEmptyIffBlank(reply);
    JoinSplit(s, "\n");
    JoinOfBlanksIsBlank(pieces, "\n");
    NonEmptyMeaning(StripAll(pieces));
    forall i | 0 <= i < |pieces|
      ensures StripAll(pieces)[i] == [] <==> IsBlank(pieces[i])
    {
      StripEmptyIffBlank(pieces[i]);
    }
  }

  /** A blank reply yields no suggestion line. */
  lemma BlankReplyGivesNoLine(reply: string)
    ensures IsBlank(reply) ==> ReviewLines(reply) == []
  {
    StripEmptyIffBlank(reply);
    if IsBlank(reply) {
      assert Split([], "\n") == [[]];
      assert Strip([]) == [];
      assert StripAll([[]]) == [[]];
      NonEmptyMeaning([[]]);
    }
  }

  const TooShort: string := "文章过短，需要扩充内容"
  const MissingSections: string := "部分章节缺失，需要补充"

  function FixedSuggestions(checks: Checks): seq<string> {
    (if checks.length then [] else [TooShort]) + (if checks.structure then [] else [MissingSections])
  }

  /** The suggestions of a check round: the fixed ones for failed checks, then up to two LLM lines while revisions remain. */
  function Suggestions(checks: Checks, revisionCount: nat, reply: string): (s: seq<string>)
    ensures |s| <= 4
    ensures !checks.length ==> |s| > 0 && s[0] == TooShort
    ensures !checks.structure ==> MissingSections in s
    ensures revisionCount < 2 && !IsBlank(reply) ==> s != []
    ensures revisionCount >= 2 ==> forall k :: 0 <= k < |s| ==> s[k] == TooShort || s[k] == MissingSections
    ensures checks.length && checks.structure && (revisionCount >= 2 || IsBlank(reply)) ==> s == []
  {
    var fixed := FixedSuggestions(checks);
    if revisionCount < 2 then
      NonBlankReplyGivesLine(reply);
      BlankReplyGivesNoLine(reply);
      fixed + SliceTo(ReviewLines(reply), 2)
    else fixed
  }

  /**
   The suggestions are one fixed entry per failed check, then, while
   revisions remain, the first two reviewer lines; `TooShort` is there only
   for a failed length check or when the reviewer wrote that very line.
   */
  lemma SuggestionsContent(checks: Checks, revisionCount: nat, reply: string)
    ensures var s := Suggestions(checks, revisionCount, reply);
      var n := (if checks.length then 0 else 1) + (if checks.structure then 0 else 1);
      && n <= |s| && (forall k :: 0 <= k < n ==> s[k] == TooShort || s[k] == MissingSections)
      && s[n..] == (if revisionCount < 2 then SliceTo(ReviewLines(reply), 2) else [])
    ensures TooShort in Suggestions(checks, revisionCount, reply) ==>
      !checks.length || (revisionCount < 2 && TooShort in ReviewLines(reply))
  {
    var fixed := FixedSuggestions(checks);
    var llm := if revisionCount < 2 then SliceTo(ReviewLines(reply), 2) else [];
    assert Suggestions(checks, revisionCount, reply) == fixed + llm;
    assert (fixed + llm)[|fixed|..] == llm;
    assert forall x :: x in llm ==> x in ReviewLines(reply);
    assert TooShort != MissingSections;
  }

  /** `quality_check`. */
  function QualityCheck(st: ArticleState, llm: Llm): (r: ArticleState)
    ensures r.checks == Some(Checks(|st.draft| > 500, HasAllSections(st.draft, st.outline), st.revisionCount > 0))
    ensures r.suggestions == Suggestions(r.checks.value, st.revisionCount, llm.review(st.revisionCount))
    ensures r.steps == st.steps + [Checked]
    ensures r.outline == st.outline && r.sections == st.sections && r.draft == st.draft && r.revisionCount == st.revisionCount
  {
    var checks := Checks(|st.draft| > 500, HasAllSections(st.draft, st.outline), st.revisionCount > 0);
    st.(checks := Some(checks), suggestions := Suggestions(checks, st.revisionCount, llm.review(st.revisionCount)),
        steps := st.steps + [Checked])
  }

  datatype Next = Revise | Finalize

  /** `quality_router`. */
  function QualityRouter(st: ArticleState): (n: Next)
    ensures n == Revise <==> st.suggestions != [] && st.revisionCount < 2
  {
    if st.suggestions != [] && st.revisionCount < 2 then Revise else Finalize
  }

  /** `revise_article`: the draft becomes the LLM's revision, the count goes up by one, the suggestions are cleared. */
  function ReviseArticle(st: ArticleState, llm: Llm): (r: ArticleState)
    ensures r.revisionCount == st.revisionCount + 1 && r.suggestions == []
    ensures r.draft == llm.revise(st.revisionCount)
    ensures r.steps == st.steps + [Revised(st.revisionCount + 1)]
    ensures r.outline == st.outline && r.sections == st.sections && r.isComplete == st.isComplete
  {
    var count := st.revisionCount + 1;
    st.(draft := llm.revise(st.revisionCount), revisionCount := count, suggestions := [],
        steps := st.steps + [Revised(count)])
  }

  /** `finalize_article`. */
  function FinalizeArticle(st: ArticleState): (r: ArticleState)
    ensures r.isComplete && r.steps == st.steps + [Finalized]
    ensures r.draft == st.draft && r.revisionCount == st.revisionCount && r.suggestions == st.suggestions
  {
    st.(isComplete := true, steps := st.steps + [Finalized])
  }

  // ---------------------------------------------------------------------------
  // The loop
  // ---------------------------------------------------------------------------

  /** The steps the loop records from revision count `from` until it finalizes at `to`. */
  function LoopTrace(from: nat, to: nat): seq<Step>
    decreases to - from
  {
    if from >= to then [Combined, Checked, Finalized]
    else [Combined, Checked, Revised(from + 1)] + LoopTrace(from + 1, to)
  }

  lemma AppendTwo(steps: seq<Step>, a: Step, b: Step)
    ensures steps + [a] + [b] == steps + [a, b]
  {
  }

  /** A revising round puts its three steps in front of the rest of the trace. */
  lemma TraceOfRevision(steps: seq<Step>, from: nat, to: nat, later: seq<Step>)
    requires from < to
    requires later == steps + [Combined, Checked] + [Revised(from + 1)] + LoopTrace(from + 1, to)
    ensures later == steps + LoopTrace(from, to)
  {
    assert LoopTrace(from, to) == [Combined, Checked, Revised(from + 1)] + LoopTrace(from + 1, to);
    assert [Combined, Checked] + [Revised(from + 1)] == [Combined, Checked, Revised(from + 1)];
  }

  /** One combine-and-check round. */
  function CheckRound(st: ArticleState, llm: Llm): (r: ArticleState)
    ensures r.revisionCount == st.revisionCount && r.articleType == st.articleType
    ensures r.outline == st.outline && r.sections == st.sections
    ensures r.draft == CombineText(llm.title(st.revisionCount), st.sections, st.articleType)
    ensures r.steps == st.steps + [Combined, Checked]
  {
    var combined := CombineDraft(st, llm);
    AppendTwo(st.steps, Combined, Checked);
    QualityCheck(combined, llm)
  }

  function Measure(st: ArticleState): nat {
    if st.revisionCount < 2 then 2 - st.revisionCount else 0
  }

  /**
   combine → check → (revise → combine → check)* → finalize. The router only
   revises below two revisions, and each revision raises the count, so the loop
   ends with at most two revisions. Each round rebuilds the draft from the
   section dict, so the final draft is the sections under the last title.
   */
  function Rounds(st: ArticleState, llm: Llm): (r: ArticleState)
    ensures r.isComplete
    ensures st.revisionCount <= r.revisionCount
    ensures st.revisionCount <= 2 ==> r.revisionCount <= 2
    ensures st.revisionCount >= 2 ==> r.revisionCount == st.revisionCount
    ensures r.suggestions == [] || r.revisionCount >= 2
    ensures r.steps == st.steps + LoopTrace(st.revisionCount, r.revisionCount)
    ensures r.outline == st.outline && r.sections == st.sections
    ensures r.draft == CombineText(llm.title(r.revisionCount), st.sections, st.articleType)
    decreases Measure(st)
  {
    var checked := CheckRound(st, llm);
    if QualityRouter(checked) == Revise then
      var revised := ReviseArticle(checked, llm);
      assert Measure(revised) < Measure(st);
      var r := Rounds(revised, llm);
      TraceOfRevision(st.steps, st.revisionCount, r.revisionCount, r.steps);
      r
    else
      FinalizeArticle(checked)
  }

  function InitialState(topic: string, articleType: string, audience: string): ArticleState {
    ArticleState(topic, articleType, audience, [], [], [], "", None, [], 0, false, [])
  }

  /** The first three nodes, from `write_article`'s initial state. */
  function Research(topic: string, articleType: string, audience: string, llm: Llm): (st: ArticleState)
    ensures st.revisionCount == 0 && st.articleType == articleType
    ensures st.outline == ParseOutline(llm.outline)
    ensures st.notes == Notes(st.outline, llm.research)
    ensures st.steps == [Analyzed, Outlined, Researched]
  {
    var s0 := AnalyzeRequirements(InitialState(topic, articleType, audience));
    assert s0.steps == [Analyzed];
    var s1 := CreateOutline(s0, llm);
    assert s1.steps == [Analyzed, Outlined];
    var s2 := ResearchTopic(s1, llm);
    assert s2.notes == [] + Notes(s1.outline, llm.research);
    s2
  }

  /** The four nodes before the loop. */
  function Prepare(topic: string, articleType: string, audience: string, llm: Llm): (st: ArticleState)
    ensures st.revisionCount == 0 && st.articleType == articleType
    ensures st.outline == ParseOutline(llm.outline)
    ensures st.sections == Drafts(st.outline, Notes(st.outline, llm.research), llm.write)
  {
    WriteSections(Research(topic, articleType, audience, llm), llm)
  }

  lemma PrepareSteps(topic: string, articleType: string, audience: string, llm: Llm)
    ensures Prepare(topic, articleType, audience, llm).steps == [Analyzed, Outlined, Researched, Written]
  {
    var researched := Research(topic, articleType, audience, llm);
    assert researched.steps == [Analyzed, Outlined, Researched];
    var written := WriteSections(researched, llm);
    assert written.steps == researched.steps + [Written];
    assert Prepare(topic, articleType, audience, llm) == written;
  }

  /** `write_article`: the whole graph from the initial state. */
  function WriteArticle(topic: string, articleType: string, audience: string, llm: Llm): (r: ArticleState)
    ensures r.isComplete && r.revisionCount <= 2
    ensures r.outline == ParseOutline(llm.outline)
    ensures r.steps == [Analyzed, Outlined, Researched, Written] + LoopTrace(0, r.revisionCount)
    ensures r.sections == Drafts(r.outline, Notes(r.outline, llm.research), llm.write)
    ensures r.draft == CombineText(llm.title(r.revisionCount), r.sections, articleType)
  {
    PrepareSteps(topic, articleType, audience, llm);
    Rounds(Prepare(topic, articleType, audience, llm), llm)
  }

  /** Every check round's structure check passes: each outline title heads a section of the draft. */
  lemma {:induction false} StructureCheckAlwaysPasses(outline: seq<string>, notes: seq<string>, llm: Llm, title: string, articleType: string)
    ensures HasAllSections(CombineText(title, Drafts(outline, notes, llm.write), articleType), outline)
  {
    var secs := Drafts(outline, notes, llm.write);
    forall i | 0 <= i < |outline|
      ensures Contains(CombineText(title, secs, articleType), outline[i])
    {
      CombinedDraftHasEverySection(title, secs, articleType, outline[i]);
    }
  }

  /** Below two revisions, a reviewer reply with any text gives the round a suggestion. */
  lemma RoundSuggestsWhileReviewerTalks(st: ArticleState, llm: Llm)
    requires st.revisionCount < 2 && !IsBlank(llm.review(st.revisionCount))
    ensures CheckRound(st, llm).suggestions != []
  {
    var combined := CombineDraft(st, llm);
    assert CheckRound(st, llm) == QualityCheck(combined, llm);
  }

  /** With a reviewer that always says something, the loop revises exactly twice. */
  lemma {:induction false} TalkativeReviewerRevisesTwice(st: ArticleState, llm: Llm)
    requires st.revisionCount <= 2
    requires forall k :: 0 <= k < 2 ==> !IsBlank(llm.review(k))
    ensures Rounds(st, llm).revisionCount == 2
    decreases Measure(st)
  {
    if st.revisionCount < 2 {
      RoundSuggestsWhileReviewerTalks(st, llm);
      TalkativeReviewerRevisesTwice(ReviseArticle(CheckRound(st, llm), llm), llm);
    }
  }

  /** A blank reviewer and a long enough draft: the article is finalized without revision. */
  lemma SilentReviewerFinalizesAtOnce(st: ArticleState, llm: Llm)
    requires st.revisionCount == 0 && IsBlank(llm.review(0))
    requires st.sections == Drafts(st.outline, st.notes, llm.write)
    requires |CombineText(llm.title(0), st.sections, st.articleType)| > 500
    ensures Rounds(st, llm).revisionCount == 0
  {
    StripEmptyIffBlank(llm.review(0));
    assert Split([], "\n") == [[]];
    StructureCheckAlwaysPasses(st.outline, st.notes, llm, llm.title(0), st.articleType);
  }
}

=== FILE: wrappers.dfy ===
/** Failure-compatible result types shared by every module of the model. */
module Wrappers {

  /** A value that may be absent (Python's `None`, or a key missing from a dict). */
  datatype Option<+T> = None | Some(value: T) {
    function GetOr(default: T): T {
      match this
      case Some(v) => v
      case None => default
    }
  }

  /** A computation that either succeeds with a value or fails with an error. */
  datatype Result<+R, +E> = Success(value: R) | Failure(error: E)
}
